=== FILE: README.md ===
# Tech-Knowlogia: the newsletter, admin, counter and content logic in Dafny

Tech-Knowlogia is a Next.js blog. This project is a Dafny model of the parts of it that decide
things. Each part is written as pure functions over immutable data.

- **Newsletter subscribers.**
  - The record and its store.
  - Hashed confirmation tokens and HMAC-signed manage tokens.
  - The double opt-in confirmation route.
  - The manage page (GET) and the unsubscribe action (POST).
  - The older `/api/subscribe` stub.
  - The admin listing, CSV export and deletion, with their database-error classification.
- **Authorization.**
  - Bearer-token extraction, roles and `checkAdminAuth`.
  - The two derivations of the site's base address.
- **The in-memory article view counter.**
- **Content.**
  - The mojibake repair and deep normalisation of frontmatter.
  - Post defaults.
  - The ordering and selection of all, featured and related posts.
  - The tag list.
  - The category catalogue.
  - The RSS feed, the news sitemap and the sitemap.
- **Small helpers.**
  - The cookie-consent decisions.
  - The AI draft template.
  - The notify endpoint.

Each route handler is a function from the request, the state and the clock to an answer and
the new state. I/O is a parameter:
- **Database.** A `DbIo` value says whether reading and writing succeed, and with which thrown value.
- **Files.** A `Library` gives directory listings, parsed frontmatter and date parsing.
- **Crypto.** A `Primitives` record supplies SHA-256 (hex) and HMAC-SHA256.
- **Identity service.** An `IdentityReply` is the answer of the `/.netlify/identity/user` endpoint.
- **Environment.** An `Env` map holds the environment variables.

Base64url (section 5 of RFC 4648, unpadded) is written out in full. This lets the model prove
that a manage-token signature never contains a `.`.

Modules:
- `wrappers.dfy`, `strings.dfy`, `js_values.dfy`, `environment.dfy`, `sorting.dfy`: the JavaScript
  semantics the code relies on.
  - `||`, truthiness and destructuring.
  - `trim`, `includes` and `replace`.
  - `split` and `join`.
  - The default string sort.
  - A stable sort by a numeric key (the `Array.prototype.sort` guarantee).
- `subscriber_model.dfy`, `database.dfy`, `subscriber_tokens.dfy`, `base64url.dfy`,
  `confirm_route.dfy`, `manage_route.dfy`, `subscribe_route.dfy`, `admin_subscribers_route.dfy`,
  `db_errors.dfy`: subscribers.
- `auth.dfy`, `site_url.dfy`: authorization and base addresses.
- `view_counter.dfy`: the counter.
- `mdx_normalize.dfy`, `posts.dfy`, `categories.dfy`, `site_links.dfy`, `xml_text.dfy`,
  `rss_feed.dfy`, `news_sitemap.dfy`, `sitemap.dfy`: content.
- `cookie_consent.dfy`, `ai_draft.dfy`, `notify.dfy`: small helpers.

Two modelling decisions follow the code closely:
- **Mojibake repair.** A first reading of `normalizeEncodingArtifacts` suggests the
  double-mojibake steps are dead after line 20. They are not.
  - The pattern on line 20 is the three characters U+00E2 U+20AC U+009D, not just `â€`.
  - Only line 32 is dead: it repeats line 30. `MdxNormalize.Line32IsDead` proves this.
  - A lone `€` survives normalisation (`MdxNormalize.PriceTextKeepsEuroSign`).
  - What does hold is that the result never contains `Â`.
- **Subscriber store.** The store is a sequence in insertion order, not a map.
  - `findOne`/`findById` return the first match, and the at-most-one-record facts are the
    `ValidStore` invariant.
  - MongoDB promises no order for an unsorted read, nor among documents a sort ranks equal.
    Insertion order is the model's choice; it fixes which record "the first match" of
    `findOne` is and how listing ties are ordered.

## Model

| member | source | states |
|---|---|---|
| SubscriberModel.ParseStatus | models/Subscriber.ts:15-21 | only the three enum names parse, each to the status it names |
| SubscriberModel.ParseStatusName | models/Subscriber.ts:15-21 | every status is one of the three names and reads back as itself |
| SubscriberModel.NormalizeEmail | models/Subscriber.ts:7-14 | the stored email is trimmed and lower-case |
| SubscriberModel.NormalizeEmailEitherOrder | models/Subscriber.ts:12-13 | lower-casing and trimming commute, so the setter order does not matter |
| SubscriberModel.NormalizeEmailFixedPoints | models/Subscriber.ts:7-14 | an email is stored unchanged exactly when it is already trimmed and lower-case |
| SubscriberModel.NormalizeEmailIdempotent | models/Subscriber.ts:7-14 | normalising twice is normalising once, so inputs differing in case or surrounding space meet at one key |
| SubscriberModel.FindFirst | models/Subscriber.ts:10 | the position found is the first record matching, and none means no record matches |
| SubscriberModel.Save | models/Subscriber.ts:51 | a save replaces one record, stamps its `updatedAt`, and leaves every other record as it was |
| SubscriberModel.SaveKeepsValid | models/Subscriber.ts:7-14 | a save keeping id and email keeps ids and emails unique |
| SubscriberModel.Create | models/Subscriber.ts:7-51 | creation fails iff the email is empty after normalising, the status is outside the enum, or the email is taken; otherwise it appends a pending (by default), source-'form' (by default), unconfirmed record stamped now, and keeps emails unique |
| SubscriberModel.RemoveAt | app/api/admin/subscribers/route.ts:128 | removal drops exactly one record and keeps the others in order |
| SubscriberModel.RemoveByIdIsExact | app/api/admin/subscribers/route.ts:128 | after deleting by id in a valid store no record has that id, and the store stays valid |
| SubscriberTokens.RequireSecret | lib/subscriberTokens.ts:3-9 | the secret is available iff `SUBSCRIBER_TOKEN_SECRET` is set and non-empty |
| SubscriberTokens.Signature | lib/subscriberTokens.ts:28 | a signature is 43 base64url letters and contains no `.` |
| SubscriberTokens.GenerateConfirmToken | lib/subscriberTokens.ts:15-24 | the token encodes the 32 random bytes, its hash is SHA-256 of the token, and it expires 48 hours (or the given hours) after issue |
| SubscriberTokens.CreateManageToken | lib/subscriberTokens.ts:26-30 | the token is the id, a dot and a 43-letter signature, and fails iff the secret is missing |
| SubscriberTokens.VerifyManageToken | lib/subscriberTokens.ts:32-52 | verification fails iff the secret is missing, and an accepted token is exactly the id before the single dot followed by its correct signature |
| SubscriberTokens.ManageTokenRoundTrip | lib/subscriberTokens.ts:26-51 | a token issued for a non-empty id without a dot verifies back to that id |
| SubscriberTokens.VerifyAcceptsOnlyIssued | lib/subscriberTokens.ts:34-51 | a token verifies to an id only if it is exactly the token issued for that id |
| SubscriberTokens.ForgedSignatureRejected | lib/subscriberTokens.ts:40-48 | any signature other than the recomputed one is refused |
| SubscriberTokens.DottedIdNeverVerifies | lib/subscriberTokens.ts:34-35 | a token issued for an id containing a dot splits into three parts and never verifies |
| SubscriberTokens.TimingSafeEqual | lib/subscriberTokens.ts:42-49 | unequal lengths are rejected before comparing, and equal-length inputs compare equal iff they are the same bytes |
| Base64Url.Encode | lib/subscriberTokens.ts:20 | n bytes encode to ceil(4n/3) letters of the URL-safe alphabet |
| Base64Url.DecodeEncode | lib/subscriberTokens.ts:20 | decoding an encoding gives back the bytes |
| Base64Url.EncodeInjective | lib/subscriberTokens.ts:28 | distinct byte strings have distinct encodings |
| ConfirmRoute.Confirm | app/api/subscribers/confirm/route.ts:5-116 | 400 iff the token is missing; 404 iff the reads work and no record holds the token's hash; 410 iff the holder is past its expiry; 200 "already" iff the holder is live and active; confirmed iff it is live, not active and the write works, and then it becomes active, confirmed now, token removed; 500 iff a read fails or that write fails; only a confirmation writes |
| ConfirmRoute.ConfirmIsSingleUse | app/api/subscribers/confirm/route.ts:29-81 | after a confirmation the same link answers 404 |
| ConfirmRoute.ExpiryCheckedBeforeStatus | app/api/subscribers/confirm/route.ts:47-77 | an expired link on an active record answers 410, not 200 |
| ConfirmRoute.ConfirmReactivatesUnsubscribed | app/api/subscribers/confirm/route.ts:63-84 | a live token still held by an unsubscribed record makes it active again |
| ConfirmRoute.GeneratedTokenConfirms | app/api/subscribers/confirm/route.ts:28-84 | the token from `generateConfirmToken`, stored as its hash on a pending record, confirms it before expiry |
| ManageRoute.ManageGet | app/api/subscribers/manage/route.ts:8-112 | 400 iff no token; 403 iff the signature check refuses it; 500 iff the secret is missing or the read fails; 404 iff no record has the verified id; otherwise the status page of that record, showing its email and status, with an unsubscribe link iff it is active |
| ManageRoute.ManageGetIgnoresAction | app/api/subscribers/manage/route.ts:72-89 | GET answers the same whatever `action` is, so following the page's link never unsubscribes |
| ManageRoute.IssuedTokenOpensPage | app/api/subscribers/manage/route.ts:29-89 | a manage token issued for a stored record opens exactly that record's page |
| ManageRoute.ManagePost | app/api/subscribers/manage/route.ts:114-174 | 400 iff no token; 403 iff refused; 404 iff no record has the verified id; 400 iff the record exists and the action is not `unsubscribe`; "already" iff it is unsubscribed; the store changes iff the action is `unsubscribe`, the record is not yet unsubscribed and the write works, and then exactly that record is saved unsubscribed at now and a mail goes to its address; success iff the store changed and the mail went out |
| ManageRoute.IssuedTokenUnsubscribes | app/api/subscribers/manage/route.ts:114-174 | a manage token issued for a stored, subscribed record unsubscribes exactly that record and mails it; the answer is 500 only when the mail fails |
| ManageRoute.UnsubscribeIsIdempotent | app/api/subscribers/manage/route.ts:137-139 | a second unsubscribe answers "already unsubscribed", writes nothing and sends nothing |
| ManageRoute.MailFailureStillUnsubscribes | app/api/subscribers/manage/route.ts:141-173 | when the mail fails the answer is 500 but the record stays unsubscribed |
| JsValues.ToJsString | app/api/views/route.ts:24 | `String(v)` throws exactly for an object with its own `toString` or an array holding such a value, at any depth; a string converts to itself and any other object to "[object Object]" |
| SubscribeRoute.HasAt | app/api/subscribe/route.ts:7 | `includes('@')` is a substring test on strings, an element test on arrays, and throws on anything else |
| SubscribeRoute.Subscribe | app/api/subscribe/route.ts:3-39 | 500 iff the body fails to parse, is not destructurable, its truthy email has no `includes`, or an accepted email cannot be turned into the log line's text; 200 iff the email is truthy, contains `@` and converts; 400 otherwise; no state is passed in or returned |
| SubscribeRoute.ArrayEmailWithOwnToStringFails | app/api/subscribe/route.ts:26 | an array email holding "@" and an object with its own `toString` passes the check and then answers 500 |
| SubscribeRoute.StringEmailNeedsOnlyAt | app/api/subscribe/route.ts:7-31 | a string email succeeds iff it contains `@` ("@" alone included) |
| SubscribeRoute.MissingEmailIsBadRequest | app/api/subscribe/route.ts:5-12 | an absent email is 400 and a `null` body is 500 |
| AdminSubscribersRoute.DenialReason | app/api/admin/subscribers/route.ts:11 | the 401 reason is never empty |
| AdminSubscribersRoute.DenialReasonIsCheckReason | app/api/admin/subscribers/route.ts:11 | the refusal reason shown is the one `checkAdminAuth` gave |
| AdminSubscribersRoute.StatusFilter | app/api/admin/subscribers/route.ts:23-26 | a filter applies iff the parameter is one of the three status names |
| AdminSubscribersRoute.Select | app/api/admin/subscribers/route.ts:28 | the records the filter matches, each as often as in the store, in store order (a subsequence) |
| AdminSubscribersRoute.Listed | app/api/admin/subscribers/route.ts:28 | the listing is the selection, newest first; ties are in store order, a modelling choice (see Left out) |
| AdminSubscribersRoute.CountsAddUp | app/api/admin/subscribers/route.ts:30-35 | active + pending + unsubscribed = total |
| AdminSubscribersRoute.CountIsFilteredLength | app/api/admin/subscribers/route.ts:24-34 | each status count is the length of the list filtered by that status |
| AdminSubscribersRoute.CsvRows | app/api/admin/subscribers/route.ts:39-47 | one line per listed subscriber, in listing order |
| AdminSubscribersRoute.CsvReadsBack | app/api/admin/subscribers/route.ts:37-47 | without commas or line breaks in cells, the export splits into the header and one line per subscriber, each into its five cells |
| AdminSubscribersRoute.CommaInEmailShiftsCells | app/api/admin/subscribers/route.ts:47 | cells are not quoted: an email with a comma yields six cells |
| AdminSubscribersRoute.List | app/api/admin/subscribers/route.ts:6-106 | 401 iff refused; 500 with the classified failure iff the database fails; CSV iff `format=csv`; the listing with whole-collection counts iff authorized, the reads work and the format is not csv |
| AdminSubscribersRoute.Remove | app/api/admin/subscribers/route.ts:108-181 | 401 iff refused; 400 iff no id; 500 iff a read or the delete fails, classified from the failing call's error; 404 iff the database works and no record has the id; deleted iff a record has it and the database works, removing exactly that record; no change on any other answer |
| AdminSubscribersRoute.RefusedBeforeDatabase | app/api/admin/subscribers/route.ts:7-14 | a refused request answers the same whatever the database does, and changes nothing |
| AdminSubscribersRoute.DeleteTwiceIsNotFound | app/api/admin/subscribers/route.ts:128-132 | deleting the same id again answers 404 |
| DbErrors.IpNotAllowed | app/api/admin/subscribers/route.ts:94 | the scan matches iff `ip` is followed by `not allowed` on the same line |
| DbErrors.Classify | app/api/admin/subscribers/route.ts:62-104 | the first matching test wins: missing URI, then authentication, then host not found (`ENOTFOUND` anywhere), then connection blocked, then internal |
| DbErrors.HostPatternIsEnotfound | app/api/admin/subscribers/route.ts:84 | the host test is equivalent to `ENOTFOUND` alone |
| DbErrors.NonErrorIsInternal | app/api/admin/subscribers/route.ts:62 | a thrown non-`Error` is always an internal error |
| Auth.BearerOf | lib/auth.ts:29-30 | a token found is non-empty and is the trimmed rest of a `Bearer`-prefixed header |
| Auth.BearerOfComplete | lib/auth.ts:29-30 | every way to read the header as `Bearer`, spaces and a non-blank rest is found |
| Auth.GetBearerToken | lib/auth.ts:25-31 | no header, no token; a token is non-empty and is the trimmed capture of a `Bearer` reading of the header; every reading with a non-blank capture yields that token |
| Auth.GetSiteBaseUrl | lib/auth.ts:33-46 | no address iff the three environment variables and both host headers are all empty; an address is never empty |
| Auth.GetUserRole | lib/auth.ts:52-83 | admin iff the roles include admin; editor iff not admin and the roles include editor; public otherwise |
| Auth.IsAdmin | lib/auth.ts:52-56 | true iff the user is present and its role list names `admin` |
| Auth.IsEditor | lib/auth.ts:62-66 | true iff the user is present and its role list names `editor` |
| Auth.IsAuthenticated | lib/auth.ts:71-73 | true iff the user is present and has an `id`, whatever its roles |
| Auth.RoleWithoutId | lib/auth.ts:52-73 | a user with role admin and no `id` is an admin yet not authenticated |
| Auth.GetUserDisplayName | lib/auth.ts:88-91 | "Guest" for no user, else the full name, else the email, else "User"; never empty |
| Auth.CheckAdminAuth | lib/auth.ts:107-174 | authorized iff a token and a base address exist and the identity endpoint returns an admin; a refusal always has a reason; the endpoint is asked iff token and address exist, at base + `/.netlify/identity/user` with the token; a user body yields that user with its role, refused as "User is not an admin" unless admin |
| Auth.NoTokenNoRequest | lib/auth.ts:109-118 | without a token the answer is "No authorization header" whatever the endpoint would say |
| Auth.EditorRefused | lib/auth.ts:149-158 | an editor is refused as "User is not an admin" |
| SiteUrl.GetRequestBaseUrl | lib/siteUrl.ts:1-18 | never empty; proto://host when a host header is present (x-forwarded-host first, https default), else `URL`, else `NEXT_PUBLIC_APP_URL`, else localhost |
| SiteUrl.HostHeaderWins | lib/siteUrl.ts:7-9 | with a host header the environment does not matter |
| SiteUrl.WithoutHostHeadersIgnored | lib/siteUrl.ts:11-17 | without a host header the other headers do not matter |
| ViewCounter.Track | app/api/views/route.ts:24 | the slug's count goes up by one, no other count changes, a new slug is added, and unique slugs and positive counts are kept |
| ViewCounter.Post | app/api/views/route.ts:15-35 | corrected (see Findings): 500 iff the body fails, cannot be destructured, or its truthy slug cannot be a property key; 400 iff the slug is falsy; otherwise the view is tracked under `String(slug)` as an own property and the new count returned; nothing changes on an error |
| ViewCounter.OwnToStringSlugFails | app/api/views/route.ts:24 | a slug object with its own `toString` answers 500 and counts nothing |
| ViewCounter.PostKeepsInvariant | app/api/views/route.ts:24-28 | every count stays at least one, slugs stay unique, and the answer is the stored count |
| ViewCounter.Summarize | app/api/views/route.ts:44-54 | corrected (see Findings): the report lists the same entries, by non-increasing count, and counts the articles; ties keep insertion order, which the correction chooses (the source's object lists tied integer-like keys first) |
| ViewCounter.SummarizeAsWritten | app/api/views/route.ts:44-54 | as written: every entry is reported once, the articles are counted, and the report is the corrected one whenever no slug is integer-like |
| ViewCounter.SummarizeTotalIsListedSum | app/api/views/route.ts:53 | the total is the sum of the listed counts |
| ViewCounter.ArticlesAreDistinctSlugs | app/api/views/route.ts:54 | articles is the number of distinct slugs |
| ViewCounter.ConstructorSlugStoresText | app/api/views/route.ts:24 | as written, a first view of `constructor` stores a string, not 1 |
| ViewCounter.TrackCountsInheritedNames | app/api/views/route.ts:24 | counting own properties only gives an inherited name the count 1 |
| ViewCounter.IndexSlugsLoseViewOrder | app/api/views/route.ts:44-49 | as written, integer-like slugs come back in key order, not by views |
| MdxNormalize.NormalizeEncodingArtifacts | lib/mdx.ts:16-41 | the result never contains `Â` |
| MdxNormalize.NormalizeAsciiUnchanged | lib/mdx.ts:16-41 | ASCII text is left unchanged |
| MdxNormalize.ReplacePairLeavesNone | lib/mdx.ts:30-32 | replacing a two-character pattern leaves no occurrence of it |
| MdxNormalize.Line32IsDead | lib/mdx.ts:30-32 | removing line 32 changes no output |
| MdxNormalize.PriceTextKeepsEuroSign | lib/mdx.ts:16-41 | a lone `€` is kept |
| MdxNormalize.EuroAfterPlainChar | lib/mdx.ts:16-41 | a `€` after any character that starts no repaired sequence is kept |
| MdxNormalize.RightQuoteRepaired | lib/mdx.ts:19-27 | the single-mojibake right quote becomes U+2019 |
| MdxNormalize.NormalizeDeep | lib/mdx.ts:43-61 | strings are normalised; each array item and each object field value is the normalised original, keys kept in order; the other values of `Js` are unchanged |
| MdxNormalize.NormalizeDeepAsciiFixed | lib/mdx.ts:43-61 | a value whose strings and keys are ASCII is unchanged |
| Posts.FromFrontmatter | lib/mdx.ts:120-139 | category falls back to the directory, tags to []; a truthy author (a name or an `Author` object) is kept, any other becomes "Tech-Knowlogia Team"; summary and image are copied; featured iff frontmatter says true; priority kept iff it is a number; breaking iff exactly `true` |
| Posts.BareFrontmatterDefaults | lib/mdx.ts:120-139 | frontmatter with only the required fields gives every default |
| Posts.SlugOfPlainFile | lib/mdx.ts:94 | a file name with one `.mdx` at the end gives back its stem |
| Posts.Load | lib/mdx.ts:89-100 | a post is loaded iff some listed file loads to it, and there are no more posts than files |
| Posts.PostsByCategory | lib/mdx.ts:82-103 | the category's loadable posts, newest first |
| Posts.AllCategoriesAreCatalogue | lib/mdx.ts:150 | the five directories are the catalogue's slugs in order |
| Posts.Gather | lib/mdx.ts:153-156 | a post is gathered iff some category lists it |
| Posts.AllPosts | lib/mdx.ts:149-159 | the gathered posts, newest first, ties in gathering order |
| Posts.Featured | lib/mdx.ts:166 | the featured posts, each as often as in the list, in list order (a subsequence) |
| Posts.FeaturedKeepsOrder | lib/mdx.ts:166 | filtering keeps the newest-first order |
| Posts.FeaturedPosts | lib/mdx.ts:164-167 | a prefix of the featured posts in date order, of length min(limit, featured) for a non-negative limit and featured + limit (at least 0) for a negative one, as `slice` counts; no limit means 3 |
| Posts.FeaturedPostsAreNewest | lib/mdx.ts:164-167 | a featured post left out is no newer than any chosen |
| Posts.WithoutSlug | lib/mdx.ts:176 | the posts with another slug, each as often as in the list, in list order (a subsequence) |
| Posts.Ranked | lib/mdx.ts:173-181 | the category's other posts by non-increasing shared tags, a permutation of the candidates, ties kept in date order as the stable sort keeps them |
| Posts.RelatedPosts | lib/mdx.ts:172-183 | same category, other slug, by non-increasing shared tags, a prefix of the ranking of length min(limit, ranked) for a non-negative limit and ranked + limit (at least 0) for a negative one; no limit means 3 |
| Posts.RelatedAreBestMatches | lib/mdx.ts:172-183 | a candidate left out shares no more tags than any chosen |
| Posts.InsertTag | lib/mdx.ts:190-196 | inserting into an ascending tag list keeps it strictly ascending and adds exactly the tag |
| Posts.SortedTagSet | lib/mdx.ts:190-196 | a strictly ascending list of exactly the given tags |
| Posts.AscendingIsUnique | lib/mdx.ts:196 | two strictly ascending lists with the same members are equal |
| Posts.TagsOf | lib/mdx.ts:192-194 | a tag is collected iff some post has it |
| Posts.AllTags | lib/mdx.ts:188-197 | strictly ascending, and a tag appears iff some post has it |
| Posts.AllTagsDistinct | lib/mdx.ts:188-197 | no tag appears twice |
| Categories.CatalogueShape | lib/categories.ts:3-44 | five categories, slugs blog, lifestyle, design, technology, business in order, pairwise distinct |
| Categories.ParseCategory | lib/types.ts:5 | a string parses iff it is a category's slug, to that category |
| Categories.FindInfo | lib/categories.ts:47 | finds an entry with the slug, and none iff no entry has it |
| Categories.GetCategoryInfo | lib/categories.ts:46-48 | the entry with the slug, absent iff the string is not a category |
| Categories.EveryCategoryHasInfo | lib/types.ts:5 | every member of the union has its entry |
| SiteLinks.ArticleUrlDetermines | app/feed.xml/route.ts:22 | an article address determines its category and slug |
| XmlText.EscapeEach | app/news-sitemap.xml/route.ts:24 | escaped text has no `<` and no `>` |
| XmlText.EscapeMarkupIsEach | app/news-sitemap.xml/route.ts:24 | the three chained replacements, `&` first, escape character by character |
| XmlText.UnescapeEscape | app/news-sitemap.xml/route.ts:24 | decoding the entities restores the text |
| XmlText.EscapeChangesMarkup | app/news-sitemap.xml/route.ts:24 | escaping changes a text iff it holds `&`, `<` or `>` |
| XmlText.EscapedReadsBack | app/news-sitemap.xml/route.ts:24 | escaped character data is well formed and reads back as the text |
| XmlText.EscapedInCdataShowsEntities | app/news-sitemap.xml/route.ts:36 | escaped text in CDATA is well formed and reads back as the text iff it has no markup character |
| XmlText.NoGtNoCdataEnd | app/news-sitemap.xml/route.ts:36 | text without `>` cannot end a CDATA section |
| NewsSitemap.RecentPosts | app/news-sitemap.xml/route.ts:9-14 | a post is kept iff it is at most thirty days old (boundary and future included), in the given order |
| NewsSitemap.ImageLoc | app/news-sitemap.xml/route.ts:41 | an address starting with "http" is kept, and every result starts with "http" |
| NewsSitemap.UrlAsWritten | app/news-sitemap.xml/route.ts:20-49 | as written: the title is well formed and reads back unchanged iff it has no `&`, `<` or `>`; loc is the article address; keywords are the tags joined; an image block iff the image is non-empty |
| NewsSitemap.QandATitle | app/news-sitemap.xml/route.ts:24-36 | as written, "Q&A" is published as "Q&amp;A" |
| NewsSitemap.AmpersandShowsAsEntity | app/news-sitemap.xml/route.ts:24-36 | as written, an `&` between plain text is published as `&amp;` |
| NewsSitemap.UrlOf | app/news-sitemap.xml/route.ts:20-49 | corrected (see Findings): the title reads back as the post's title; loc is the article address; an image block iff the image is non-empty, with an http address |
| NewsSitemap.Sitemap | app/news-sitemap.xml/route.ts:20-49 | as written: one element per recent post, in order, with its address and keywords; each title is well formed and reads back as the post's title iff it has no `&`, `<` or `>` |
| NewsSitemap.IntendedSitemap | app/news-sitemap.xml/route.ts:20-49 | corrected (see Findings): the same elements, each title reading back as the post's title |
| NewsSitemap.SitemapsDifferOnlyInTitles | app/news-sitemap.xml/route.ts:20-49 | the document as written and the corrected one agree on everything but how titles are written |
| RssFeed.ItemOf | app/feed.xml/route.ts:17-29 | link and guid are the article address; title and description read back verbatim; the title is well formed iff it has no `]]>`; category is the post's |
| RssFeed.Feed | app/feed.xml/route.ts:5-39 | self link is the site + "/feed.xml"; one item per post, in order |
| RssFeed.CdataEndBreaksTitle | app/feed.xml/route.ts:21 | a title holding `]]>` breaks the feed |
| Sitemap.Entries | app/sitemap.ts:5-54 | 4 + categories + posts entries, static pages then categories then articles; home is priority 1.0 daily; articles are their address, dated by the post, 0.8 |
| Sitemap.EntriesFor | app/sitemap.ts:5-54 | for any category list, the four static pages, then one entry per category, then one per post, each in its list's order |
| Sitemap.EntriesOnSite | app/sitemap.ts:5-54 | every entry is on the site and has a priority between 0 and 1 |
| CookieConsent.StoredConsent | components/layout/CookieConsent.tsx:30-37 | a consent is read iff storage works and holds exactly "granted" or "denied", and it is the one named |
| CookieConsent.IsAdminRoute | components/layout/CookieConsent.tsx:39-47 | an admin route iff the path is present and is `/admin` or `/admin-dashboard`, or lies below one of them |
| CookieConsent.AdminRouteExamples | components/layout/CookieConsent.tsx:39-47 | the admin areas and everything under them are admin routes; "/administrator" is not |
| CookieConsent.UpdateGoogleConsent | components/layout/CookieConsent.tsx:12-26 | sent iff window and gtag exist, with all four fields the chosen state |
| CookieConsent.EffectUpdate | components/layout/CookieConsent.tsx:49-53 | off admin routes a stored choice is pushed to Google as `updateGoogleConsent` would; something is pushed iff the route is not admin, a choice exists and the page has `window` and `gtag` |
| CookieConsent.OnChoice | components/layout/CookieConsent.tsx:57-66 | the choice becomes current and is pushed to gtag; when storage works and the write succeeds it is stored under `tk_cookie_consent`, adding only that key and leaving the others untouched; otherwise storage is unchanged |
| CookieConsent.ChoiceIsRemembered | components/layout/CookieConsent.tsx:30-66 | after a successful write the next load reads the choice back and hides the banner |
| CookieConsent.RefusedWriteIsForgotten | components/layout/CookieConsent.tsx:30-66 | when the write throws, the banner hides for now, but the next load with no earlier choice shows it again |
| CookieConsent.StoredConsentReadsBack | components/layout/CookieConsent.tsx:30-37 | the stored text reads back as its state; "Granted" does not |
| AiDraft.CategoryOf | app/api/ai-draft/route.ts:12 | the category is the given one unless it is absent, then "technology" |
| AiDraft.PostDraft | app/api/ai-draft/route.ts:10-73 | 500 iff the body fails, is `null`, or a truthy topic comes with a topic or category that `String` cannot convert; 400 iff the topic is falsy; otherwise the draft with the topic's title, tags [topic, category, "guide", "analysis"], not featured, priority 5, not breaking |
| AiDraft.OwnToStringFails | app/api/ai-draft/route.ts:20-21 | a topic, or a category beside a truthy topic, that is an object with its own `toString` answers 500 |
| AiDraft.OnlyTopicAndCategoryMatter | app/api/ai-draft/route.ts:12-60 | any other request field, `template` included, is ignored |
| AiDraft.StringTopicDraft | app/api/ai-draft/route.ts:20-59 | a string topic gives the title topic + ": A Comprehensive Guide" under "technology" |
| AiDraft.DraftCategoriesAreCatalogue | app/api/ai-draft/route.ts:78-89 | GET offers the five categories, in a different order |
| Notify.PostNotification | app/api/notify/route.ts:14-79 | 500 iff the body fails or is `null`; 400 iff title or url is falsy; otherwise success echoing both |
| Notify.OnlyTitleAndUrlMatter | app/api/notify/route.ts:16-73 | no other field affects the answer |
| Notify.IntegrationStatus | app/api/notify/route.ts:85-95 | oneSignal and email are "configured" iff their keys are set; webPush is always pending |

## Left out

- Database, file system, mail and network I/O: these are parameters (`DbIo`, `Library`, `accepted`, `IdentityReply`). The mail and its HTML, Resend, GA4 and Mongo connection handling are not modelled.
- SHA-256, HMAC-SHA256 and `randomBytes`: these are parameters. Only their result shapes are assumed: a hex string, and 32 bytes.
- The constant-time property of `timingSafeEqual`: it is not expressible. `SubscriberTokens.TimingSafeEqual` states only its result.
- HTML response bodies and headers other than the CSV filename: each answer is a datatype constructor with its status code.
- Date parsing and formatting (`new Date(string)`, `toISOString`, `toUTCString`): these are functions passed in. Invalid dates (NaN) are not modelled, because times are integers.
- `AdminSubscribersRoute.Remove`: an id that is not a valid ObjectId makes Mongoose throw a CastError, which is a 500. The model answers 404 instead.
- `ManageRoute.ManageGet`: a correctly signed token whose id is not a valid ObjectId makes `findById` throw a CastError, and the source's catch answers 500. The model answers 404 instead.
- `ManageRoute.ManagePost`: the same CastError case answers 500 in the source; the model answers `PostNotFound` (404) instead.
- `SubscriberModel.Create` is not called by any route modelled here. No route issues confirmation tokens or writes `lastConfirmationSentAt`.
- `Strings.LowerAscii`: lower-casing is ASCII-only. For the case-insensitive regexes (the `Bearer` match in lib/auth.ts and the database error tests) this is exact: their patterns are ASCII and they are not Unicode regexes, so no non-ASCII character matches an ASCII one. Only the email setter (`lowercase: true`, which calls `toLowerCase`) folds all of Unicode, and the model folds only ASCII letters there.
- `AdminSubscribersRoute.Listed`: MongoDB leaves the order of subscribers with equal `createdAt` unspecified. The clause that keeps ties in store order is a modelling choice, not a promise of the source.
- `JsValues.ToJsString`: numbers are integers. JSON fractions are not representable, and integers of 10^21 and more are written in decimal where JavaScript uses exponent form ("1e+21"). Integers beyond 2^53 keep digits a double would lose. Slugs, topics, categories and the elements of an array email given as such numbers therefore convert differently in the view counter, the AI draft route and the subscribe route.
- String order is by code point. JavaScript compares UTF-16 code units, which differs only above U+FFFF.
- `Auth.RolesOf` assumes `roles` is an array when present.
- Header names are matched exactly. The model does not fold their case.
- `MdxNormalize.NormalizeDeep`: `Js` has no `Date`. An unquoted YAML date such as `date: 2024-01-15` reaches the loader as a `Date` object, which has no own entries, so the object branch turns it into `{}`. The post's date is then `{}` and every later `new Date(post.date)` is invalid. The model's dates are always strings.
- `Posts.FromFrontmatter` assumes frontmatter fields other than `author`, `priority` and `breaking` have their declared types; those three are general JSON values. The `seo` field, `content`, `readTime`, markdown rendering and gray-matter parsing are left out.
- `stripEditorialBlocks` is left out because it is regex-driven. In JavaScript its `\Z` matches a literal `Z`.
- The `body` text of the AI draft template and the fixed XML text around elements are left out: they are constant text.
- `NewsSitemap.ImageLoc` does not add a missing `/`: "images/x" gives "https://tech-knowlogia.comimages/x". A relative address beginning with "http" counts as absolute.
- `CookieConsent.OnChoice`: a choice also re-runs the effect, so gtag is told twice. The model records one update per call.
- Rendering, client components, and the auth provider's timers and polling are left out.
- `lib/trending.ts` is floating point.
- Concurrent requests, on the database or on the in-memory view map, are not modelled.
- `lib/resend.ts`, `lib/subscriberEmails.ts`, `lib/ga4.ts`, `app/api/test-db/route.ts`, `scripts/` and the configuration files are not part of this model.

## Findings

| source | as written | input that shows it | evidently intended | confidence | as-written member | corrected member |
|---|---|---|---|---|---|---|
| app/api/views/route.ts:24 | the fallback read of `views[slug]` also finds members every plain object inherits | POST `{"slug":"constructor"}` on a fresh counter stores "function Object() { [native code] }1" | a first view of any slug stores 1 | high, not executed | ViewCounter.ConstructorSlugStoresText | ViewCounter.PostKeepsInvariant |
| app/api/views/route.ts:44-49 | the sorted entries are poured back into an object, which lists integer-like keys first | views `1`→1 then `2`→5 come back as `1`, `2` | most viewed first | high, not executed | ViewCounter.IndexSlugsLoseViewOrder | ViewCounter.Summarize |
| app/news-sitemap.xml/route.ts:24,36 | the title is entity-escaped and then put inside CDATA, where entities are not decoded | the title "Q&A" is published as "Q&amp;A" | the title reads back as written | high, not executed | NewsSitemap.QandATitle | NewsSitemap.UrlOf |

=== FILE: admin_subscribers_route.dfy ===
/**
 * `/api/admin/subscribers` (app/api/admin/subscribers/route.ts): the admin
 * list of subscribers with counts and a CSV export (GET), and deletion by
 * id (DELETE). Both answer 401 before touching the database when
 * `checkAdminAuth` refuses, and explain database failures with
 * `DbErrors.Classify`.
 */
module AdminSubscribersRoute {
  import opened Wrappers
  import opened Strings
  import opened Environment
  import opened Sorting
  import opened SubscriberModel
  import opened Database
  import opened DbErrors
  import Auth

  datatype Counts = Counts(total: nat, active: nat, pending: nat, unsubscribed: nat)

  datatype AdminReply =
    | Unauthorized(reason: string)
    | Listing(subscribers: seq<Subscriber>, counts: Counts)
    | CsvFile(filename: string, body: string)
    | DbFailed(kind: DbFailure)
    | MissingId
    | NotFound
    | Deleted

  function ReplyStatus(r: AdminReply): int {
    match r
    case Unauthorized(_) => 401
    case Listing(_, _) => 200
    case CsvFile(_, _) => 200
    case DbFailed(_) => 500
    case MissingId => 400
    case NotFound => 404
    case Deleted => 200
  }

  /** `auth.reason || 'Not authorized'`. */
  function DenialReason(a: Auth.AuthCheck): (r: string)
    ensures r != ""
  {
    OrElse(a.reason, "Not authorized")
  }

  /** The reason of a refusal by `checkAdminAuth` is always given, so the
      fallback text never shows. */
  lemma DenialReasonIsCheckReason(h: Auth.Headers, env: Env, reply: Auth.IdentityReply)
    requires !Auth.CheckAdminAuth(h, env, reply).authorized
    ensures DenialReason(Auth.CheckAdminAuth(h, env, reply)) == Auth.CheckAdminAuth(h, env, reply).reason
  {
  }

  /** The `status` query parameter as a filter: only the three status names
      filter, anything else (or nothing) lists everyone. */
  function StatusFilter(param: Option<string>): (f: Option<Status>)
    ensures f.Some? <==> param.Some? && param.value in {"active", "pending", "unsubscribed"}
    ensures f.Some? ==> StatusName(f.value) == param.value
  {
    if param.Some? then ParseStatus(param.value) else None
  }

  predicate Matches(f: Option<Status>, s: Subscriber) {
    f.None? || s.status == f.value
  }

  /** `Subscriber.find(filter)` in natural order. */
  function Select(st: Store, f: Option<Status>): (r: seq<Subscriber>)
    ensures forall x :: x in r <==> x in st && Matches(f, x)
    ensures forall x :: multiset(r)[x] == (if Matches(f, x) then multiset(st)[x] else 0)
    ensures IsSubsequence(r, st)
    ensures f.None? ==> r == st
    ensures |r| <= |st|
  {
    var keep := (x: Subscriber) => Matches(f, x);
    if f.None? then FilterAll(st, keep); Filter(st, keep)
    else Filter(st, keep)
  }

  function CreatedAt(s: Subscriber): int {
    s.createdAt
  }

  /** `find(filter).sort({ createdAt: -1 })`: the selected records, newest
      first, ties in natural order. */
  function Listed(st: Store, f: Option<Status>): (r: seq<Subscriber>)
    ensures SortedDesc(r, CreatedAt)
    ensures forall x :: x in r <==> x in st && Matches(f, x)
    ensures multiset(r) == multiset(Select(st, f))
    ensures StableFor(r, Select(st, f), CreatedAt)
  {
    var r := SortDesc(Select(st, f), CreatedAt);
    assert forall x :: x in r <==> x in multiset(r);
    r
  }

  /** `countDocuments({ status: s })`. */
  function CountWhere(st: Store, s: Status): (n: nat)
    ensures n <= |st|
  {
    if |st| == 0 then 0
    else (if st[0].status == s then 1 else 0) + CountWhere(st[1..], s)
  }

  /** The counts, over the whole collection whatever the filter. */
  function CountsOf(st: Store): Counts {
    Counts(|st|, CountWhere(st, Active), CountWhere(st, Pending), CountWhere(st, Unsubscribed))
  }

  /** Every record has one of the three statuses, so the three counts add
      up to the total. */
  lemma {:induction false} CountsAddUp(st: Store)
    ensures var c := CountsOf(st); c.active + c.pending + c.unsubscribed == c.total
    decreases |st|
  {
    if |st| > 0 {
      CountsAddUp(st[1..]);
    }
  }

  /** The count of a status is the length of the list filtered by it. */
  lemma {:induction false} CountIsFilteredLength(st: Store, s: Status)
    ensures |Listed(st, Some(s))| == CountWhere(st, s)
    decreases |st|
  {
    if |st| > 0 {
      CountIsFilteredLength(st[1..], s);
      assert |Listed(st[1..], Some(s))| == |Select(st[1..], Some(s))| by {
        assert |multiset(Listed(st[1..], Some(s)))| == |multiset(Select(st[1..], Some(s)))|;
      }
    }
    assert |Listed(st, Some(s))| == |Select(st, Some(s))| by {
      assert |multiset(Listed(st, Some(s)))| == |multiset(Select(st, Some(s)))|;
    }
  }

  const CsvHeaderFields: seq<string> := ["Email", "Status", "Subscribed At", "Confirmed At", "Unsubscribed At"]

  /** `d ? new Date(d).toISOString() : ''`; `iso` is `toISOString`. */
  function DateField(t: Option<Time>, iso: Time -> string): string {
    if t.Some? then iso(t.value) else ""
  }

  /** The five cells of a subscriber's row. */
  function CsvFields(s: Subscriber, iso: Time -> string): (r: seq<string>)
    ensures |r| == |CsvHeaderFields|
  {
    [s.email, StatusName(s.status), iso(s.createdAt), DateField(s.confirmedAt, iso), DateField(s.unsubscribedAt, iso)]
  }

  function CsvLine(cells: seq<string>): string {
    Join(cells, ",")
  }

  function CsvRows(list: seq<Subscriber>, iso: Time -> string): (r: seq<string>)
    ensures |r| == |list|
    ensures forall i :: 0 <= i < |list| ==> r[i] == CsvLine(CsvFields(list[i], iso))
  {
    if |list| == 0 then [] else [CsvLine(CsvFields(list[0], iso))] + CsvRows(list[1..], iso)
  }

  /** The export: the header line, then one line per listed subscriber. */
  function Csv(list: seq<Subscriber>, iso: Time -> string): string {
    Join([CsvLine(CsvHeaderFields)] + CsvRows(list, iso), "\n")
  }

  /** `subscribers-YYYY-MM-DD.csv`: the date part of the ISO time. */
  function CsvFilename(now: Time, iso: Time -> string): string {
    "subscribers-" + Split(iso(now), 'T')[0] + ".csv"
  }

  /** No cell holds a comma or a line break. */
  predicate CleanCells(list: seq<Subscriber>, iso: Time -> string) {
    forall i, k :: 0 <= i < |list| && 0 <= k < |CsvHeaderFields| ==>
      ',' !in CsvFields(list[i], iso)[k] && '\n' !in CsvFields(list[i], iso)[k]
  }

  /** The header line holds no line break and splits into the five titles. */
  lemma HeaderReadsBack()
    ensures '\n' !in CsvLine(CsvHeaderFields)
    ensures Split(CsvLine(CsvHeaderFields), ',') == CsvHeaderFields
  {
    assert forall k :: 0 <= k < |CsvHeaderFields| ==> ',' !in CsvHeaderFields[k] && '\n' !in CsvHeaderFields[k];
    JoinAvoids(CsvHeaderFields, ",", '\n');
    SplitJoin(CsvHeaderFields, ',');
  }

  /** A row whose cells hold no comma or line break has no line break and
      splits back into its cells. */
  lemma RowReadsBack(list: seq<Subscriber>, iso: Time -> string, i: nat)
    requires CleanCells(list, iso) && i < |list|
    ensures '\n' !in CsvRows(list, iso)[i]
    ensures Split(CsvRows(list, iso)[i], ',') == CsvFields(list[i], iso)
  {
    var cells := CsvFields(list[i], iso);
    assert forall k :: 0 <= k < |cells| ==> ',' !in cells[k] && '\n' !in cells[k];
    JoinAvoids(cells, ",", '\n');
    SplitJoin(cells, ',');
  }

  /** Reading the export back: when no cell holds a comma or a line break,
      it splits into the header and one line per subscriber, and each line
      into that subscriber's five cells, dates absent as empty cells. */
  lemma CsvReadsBack(list: seq<Subscriber>, iso: Time -> string)
    requires CleanCells(list, iso)
    ensures Split(Csv(list, iso), '\n') == [CsvLine(CsvHeaderFields)] + CsvRows(list, iso)
    ensures |Split(Csv(list, iso), '\n')| == |list| + 1
    ensures Split(CsvLine(CsvHeaderFields), ',') == CsvHeaderFields
    ensures forall i :: 0 <= i < |list| ==> Split(CsvRows(list, iso)[i], ',') == CsvFields(list[i], iso)
  {
    HeaderReadsBack();
    forall i | 0 <= i < |list| ensures Split(CsvRows(list, iso)[i], ',') == CsvFields(list[i], iso) {
      RowReadsBack(list, iso, i);
    }
    CsvSplitsIntoLines(list, iso);
  }

  /** The export splits at line breaks into its lines. */
  lemma CsvSplitsIntoLines(list: seq<Subscriber>, iso: Time -> string)
    requires CleanCells(list, iso)
    ensures Split(Csv(list, iso), '\n') == [CsvLine(CsvHeaderFields)] + CsvRows(list, iso)
  {
    var rows := CsvRows(list, iso);
    HeaderReadsBack();
    forall i | 0 <= i < |rows| ensures '\n' !in rows[i] {
      RowReadsBack(list, iso, i);
    }
    SplitLines(CsvLine(CsvHeaderFields), rows);
  }

  /** Lines free of line breaks are read back by splitting their join. */
  lemma SplitLines(head: string, rows: seq<string>)
    requires '\n' !in head && forall i :: 0 <= i < |rows| ==> '\n' !in rows[i]
    ensures Split(Join([head] + rows, "\n"), '\n') == [head] + rows
  {
    var lines := [head] + rows;
    assert forall i :: 0 <= i < |lines| ==> '\n' !in lines[i] by {
      forall i | 0 <= i < |lines| ensures '\n' !in lines[i] {
        if i > 0 {
          assert lines[i] == rows[i - 1];
        }
      }
    }
    SplitJoin(lines, '\n');
  }

  /** The cells are not quoted: an email holding a comma gives its line a
      sixth cell. */
  lemma CommaInEmailShiftsCells(s: Subscriber, iso: Time -> string, a: string, b: string)
    requires s.email == a + "," + b && ',' !in a && ',' !in b
    requires forall k :: 1 <= k < 5 ==> ',' !in CsvFields(s, iso)[k]
    ensures |Split(CsvLine(CsvFields(s, iso)), ',')| == 6
  {
    var cells := CsvFields(s, iso);
    var six := [a, b] + cells[1..];
    assert Join(six, ",") == CsvLine(cells) by {
      assert Join(six, ",") == a + "," + Join(six[1..], ",");
      assert six[1..] == [b] + cells[1..];
      assert Join(six[1..], ",") == b + "," + Join(cells[1..], ",");
    }
    SplitJoin(six, ',');
  }

  /** GET. `status` and `format` are the query parameters, `iso` renders a
      time as `toISOString` does and `now` is the clock. */
  function List(auth: Auth.AuthCheck, status: Option<string>, format: Option<string>, st: Store, io: DbIo,
                iso: Time -> string, now: Time): (r: AdminReply)
    ensures r.Unauthorized? <==> !auth.authorized
    ensures r.Unauthorized? ==> r.reason != ""
    ensures r.DbFailed? <==> auth.authorized && !io.ReadsOk()
    ensures r.DbFailed? ==> r.kind == Classify(io.queryError.value)
    ensures r.CsvFile? <==> auth.authorized && io.ReadsOk() && format == Some("csv")
    ensures r.CsvFile? ==> r.body == Csv(Listed(st, StatusFilter(status)), iso)
    ensures r.Listing? <==> auth.authorized && io.ReadsOk() && format != Some("csv")
    ensures r.Listing? ==> r.subscribers == Listed(st, StatusFilter(status)) && r.counts == CountsOf(st)
  {
    if !auth.authorized then Unauthorized(DenialReason(auth))
    else if !io.ReadsOk() then DbFailed(Classify(io.queryError.value))
    else
      var list := Listed(st, StatusFilter(status));
      if format == Some("csv") then CsvFile(CsvFilename(now, iso), Csv(list, iso))
      else Listing(list, CountsOf(st))
  }

  /** DELETE `?id=…`: connecting may fail (`io.queryError`), the
      `findByIdAndDelete` call may fail (`io.writeError`), and otherwise it
      removes the record with that id, if there is one. */
  function Remove(auth: Auth.AuthCheck, id: Option<string>, st: Store, io: DbIo): (o: (AdminReply, Store))
    ensures o.0.Unauthorized? <==> !auth.authorized
    ensures o.0 == MissingId <==> auth.authorized && (id.None? || id.value == "")
    ensures o.0.DbFailed? <==>
      auth.authorized && id.Some? && id.value != "" && (!io.ReadsOk() || !io.WritesOk())
    ensures o.0.DbFailed? ==>
      o.0.kind == Classify(if !io.ReadsOk() then io.queryError.value else io.writeError.value)
    ensures o.0 == NotFound <==>
      && auth.authorized && id.Some? && id.value != "" && io.ReadsOk() && io.WritesOk()
      && forall j :: 0 <= j < |st| ==> st[j].id != id.value
    ensures o.0 == Deleted <==>
      && auth.authorized && id.Some? && id.value != "" && io.ReadsOk() && io.WritesOk()
      && exists j :: 0 <= j < |st| && st[j].id == id.value
    ensures o.0 == Deleted ==> exists i :: 0 <= i < |st| && st[i].id == id.value && o.1 == RemoveAt(st, i)
    ensures o.0 != Deleted ==> o.1 == st
    ensures o.0 == Deleted && ValidStore(st) ==>
      ValidStore(o.1) && |o.1| == |st| - 1 && forall j :: 0 <= j < |o.1| ==> o.1[j].id != id.value
  {
    if !auth.authorized then (Unauthorized(DenialReason(auth)), st)
    else if id.None? || id.value == "" then (MissingId, st)
    else if !io.ReadsOk() then (DbFailed(Classify(io.queryError.value)), st)
    else if !io.WritesOk() then (DbFailed(Classify(io.writeError.value)), st)
    else
      match FindById(st, id.value)
      case None => (NotFound, st)
      case Some(i) =>
        assert ValidStore(st) ==> ValidStore(RemoveAt(st, i)) && FindById(RemoveAt(st, i), id.value).None? by {
          if ValidStore(st) {
            RemoveByIdIsExact(st, id.value);
          }
        }
        (Deleted, RemoveAt(st, i))
  }

  /** A refused request gets the same 401 whatever the database would do,
      and changes nothing. */
  lemma RefusedBeforeDatabase(auth: Auth.AuthCheck, status: Option<string>, format: Option<string>, id: Option<string>,
                              st: Store, io1: DbIo, io2: DbIo, iso: Time -> string, now: Time)
    requires !auth.authorized
    ensures List(auth, status, format, st, io1, iso, now) == List(auth, status, format, st, io2, iso, now)
    ensures Remove(auth, id, st, io1) == Remove(auth, id, st, io2) == (Unauthorized(DenialReason(auth)), st)
  {
  }

  /** Deleting the same id twice: the second request finds nothing. */
  lemma DeleteTwiceIsNotFound(auth: Auth.AuthCheck, id: string, st: Store, io: DbIo)
    requires ValidStore(st)
    requires Remove(auth, Some(id), st, io).0 == Deleted
    ensures Remove(auth, Some(id), Remove(auth, Some(id), st, io).1, io).0 == NotFound
  {
  }
}

=== FILE: ai_draft.dfy ===
/**
 * `/api/ai-draft` (app/api/ai-draft/route.ts): `POST` fills a fixed
 * article template with the request's `topic` and `category`; `GET` lists
 * the templates and categories on offer. Nothing is stored or sent.
 */
module AiDraft {
  import opened Wrappers
  import opened JsValues
  import Categories

  datatype Draft = Draft(
    title: string,
    description: string,
    summary: string,
    tags: seq<Js>,
    featured: bool,
    priority: int,
    breaking: bool)

  datatype DraftReply = Drafted(draft: Draft) | TopicRequired | DraftFailed

  function ReplyStatus(r: DraftReply): int {
    match r
    case Drafted(_) => 200
    case TopicRequired => 400
    case DraftFailed => 500
  }

  /** `const { category = 'technology' } = body`: the default replaces
      only an absent (undefined) value. */
  function CategoryOf(body: Js): (c: Js)
    ensures Get(body, "category") != Undefined ==> c == Get(body, "category")
    ensures c != Undefined
  {
    var c := Get(body, "category");
    if c == Undefined then Str("technology") else c
  }

  const TitleTail := ": A Comprehensive Guide"
  const DescriptionTail := ". This guide covers key concepts, practical applications, and future trends."
  const SummaryHead := "This article provides an in-depth analysis of "
  const SummaryTail := ", covering essential concepts and real-world applications to help readers understand its significance in today's landscape."

  /** The template, with `${topic}` and `${category}` as `String(v)`;
      `None` when either conversion throws. */
  function Template(topic: Js, category: Js): Option<Draft> {
    match (ToJsString(topic), ToJsString(category))
    case (Some(t), Some(c)) =>
      Some(Draft(
        t + TitleTail,
        "Explore " + t + " and understand its impact on modern " + c + DescriptionTail,
        SummaryHead + t + SummaryTail,
        [topic, category, Str("guide"), Str("analysis")],
        false, 5, false))
    case _ => None
  }

  /** The `POST` handler; `body` is the parsed JSON body, `None` when
      `req.json()` throws. Filling the template throws when `topic` or
      `category` is an object with its own `toString`, or an array holding
      one. */
  function PostDraft(body: Option<Js>): (r: DraftReply)
    ensures r == DraftFailed <==>
      || body.None? || body.value == Null || body.value == Undefined
      || (Truthy(Get(body.value, "topic"))
          && (StringThrows(Get(body.value, "topic")) || StringThrows(CategoryOf(body.value))))
    ensures r == TopicRequired <==> (body.Some? && body.value != Null && body.value != Undefined
      && !Truthy(Get(body.value, "topic")))
    ensures r.Drafted? ==>
      && Truthy(Get(body.value, "topic"))
      && r.draft.tags == [Get(body.value, "topic"), CategoryOf(body.value), Str("guide"), Str("analysis")]
      && r.draft.title == ToJsString(Get(body.value, "topic")).value + TitleTail
      && !r.draft.featured && r.draft.priority == 5 && !r.draft.breaking
  {
    if body.None? then DraftFailed
    else
      match Destructure(body.value, "topic")
      case None => DraftFailed
      case Some(topic) =>
        if !Truthy(topic) then TopicRequired
        else
          match Template(topic, CategoryOf(body.value))
          case None => DraftFailed
          case Some(d) => Drafted(d)
  }

  /** A topic object with its own `toString` makes the title throw:
      `{"topic":{"toString":0}}` is a 500, as is such a category next to
      any truthy topic. */
  lemma OwnToStringFails(fields: seq<(string, Js)>, o: seq<(string, Js)>)
    requires HasOwn(o, "toString")
    requires Lookup(fields, "topic") == Obj(o) || (Truthy(Lookup(fields, "topic")) && Lookup(fields, "category") == Obj(o))
    ensures PostDraft(Some(Obj(fields))) == DraftFailed
  {
    assert StringThrows(Obj(o));
  }

  /** Only `topic` and `category` matter: a `template` field, or any other,
      changes nothing. */
  lemma OnlyTopicAndCategoryMatter(a: seq<(string, Js)>, b: seq<(string, Js)>)
    requires Lookup(a, "topic") == Lookup(b, "topic")
    requires Lookup(a, "category") == Lookup(b, "category")
    ensures PostDraft(Some(Obj(a))) == PostDraft(Some(Obj(b)))
  {
  }

  /** A string topic without a category gives a technology draft whose
      title starts with the topic. */
  lemma StringTopicDraft(fields: seq<(string, Js)>, topic: string)
    requires Lookup(fields, "topic") == Str(topic) && topic != ""
    requires Lookup(fields, "category") == Undefined
    ensures var r := PostDraft(Some(Obj(fields)));
      && r.Drafted?
      && r.draft.title[..|topic|] == topic
      && r.draft.tags == [Str(topic), Str("technology"), Str("guide"), Str("analysis")]
  {
    var r := PostDraft(Some(Obj(fields)));
    assert r.draft.title == topic + TitleTail;
  }

  datatype TemplateInfo = TemplateInfo(id: string, name: string, description: string)

  /** The templates `GET` offers; `POST` uses none of them. */
  const Templates: seq<TemplateInfo> := [
    TemplateInfo("comprehensive-guide", "Comprehensive Guide", "In-depth article with multiple sections"),
    TemplateInfo("breaking-news", "Breaking News", "Short, timely news article"),
    TemplateInfo("how-to", "How-To Tutorial", "Step-by-step guide"),
    TemplateInfo("analysis", "Industry Analysis", "Deep-dive analysis with insights"),
    TemplateInfo("opinion", "Opinion Piece", "Perspective-driven article")
  ]

  /** The categories `GET` offers. */
  const DraftCategories: seq<string> := ["technology", "business", "design", "lifestyle", "blog"]

  /** They are the site's five categories, in another order. */
  lemma DraftCategoriesAreCatalogue()
    ensures multiset(DraftCategories) == multiset(Categories.CatalogueSlugs())
    ensures DraftCategories != Categories.CatalogueSlugs()
  {
    Categories.CatalogueShape();
    DraftCategoriesRearrange();
  }

  lemma DraftCategoriesRearrange()
    ensures multiset(DraftCategories) == multiset(["blog", "lifestyle", "design", "technology", "business"])
    ensures DraftCategories != ["blog", "lifestyle", "design", "technology", "business"]
  {
    var a, b, c, d, e := "blog", "lifestyle", "design", "technology", "business";
    assert DraftCategories == [d, e, c, b, a];
    assert multiset([d, e, c, b, a]) == multiset{a, b, c, d, e};
    assert multiset([a, b, c, d, e]) == multiset{a, b, c, d, e};
    assert d[0] != a[0];
  }
}

=== FILE: auth.dfy ===
/**
 * Admin authorisation (lib/auth.ts): the bearer token of the `Authorization`
 * header, the site URL the token is validated against, the roles of a
 * Netlify Identity user, and `checkAdminAuth`, whose one remote call (the
 * Identity `/user` endpoint) is an input of the model.
 */
module Auth {
  import opened Wrappers
  import opened Strings
  import opened Environment

  type Headers = map<string, string>

  /** One reading of `/^Bearer\s+(.+)$/i` on `v`: the prefix `Bearer` in any
      ASCII case, a run `w` of at least one white-space character, and a
      capture `g` of at least one character that is not a line terminator,
      reaching the end of the value. */
  predicate BearerReading(v: string, w: string, g: string) {
    && |v| == 6 + |w| + |g|
    && EqualsIgnoreCase(v[..6], "Bearer")
    && v[6..6 + |w|] == w && v[6 + |w|..] == g
    && |w| >= 1 && AllSpace(w)
    && |g| >= 1 && NoLineTerminator(g)
  }

  /** `authHeader.match(/^Bearer\s+(.+)$/i)?.[1]?.trim() || null`, for a
      non-empty header value. The greedy `\s+` takes the whole run of white
      space; if nothing is left, the capture is white space and trims to
      nothing. */
  function BearerOf(v: string): (r: Option<string>)
    ensures r.Some? ==> r.value != "" && exists w, g :: BearerReading(v, w, g) && Trim(g) == r.value
  {
    if |v| < 7 || !EqualsIgnoreCase(v[..6], "Bearer") || !IsJsSpace(v[6]) then None
    else
      var rest := TrimStart(v[6..]);
      if rest == "" || !NoLineTerminator(rest) then None
      else
        var w := v[6..|v| - |rest|];
        assert w == v[6..][..|v[6..]| - |rest|];
        assert BearerReading(v, w, rest);
        Some(Trim(rest))
  }

  /** Every reading of the regex whose capture is not blank yields the token
      `BearerOf` returns: the greedy reading is the one it takes, and the
      other readings differ only by leading white space in the capture. */
  lemma BearerOfComplete(v: string, w: string, g: string)
    requires BearerReading(v, w, g) && Trim(g) != ""
    ensures BearerOf(v) == Some(Trim(g))
  {
    AfterBearer(v, w, g);
    assert v[6] == w[0];
    TrimStartSplit(w, g);
    var rest := TrimStart(g);
    TrimOfTrimStart(g);
    TrimStartKeepsNoLineTerminator(g);
    BearerOfGreedy(v, rest);
  }

  lemma AfterBearer(v: string, w: string, g: string)
    requires |v| == 6 + |w| + |g| && v[6..6 + |w|] == w && v[6 + |w|..] == g
    ensures v[6..] == w + g
  {
    assert v[6..] == v[6..6 + |w|] + v[6 + |w|..];
  }

  /** What `BearerOf` returns once the run of white space is skipped. */
  lemma BearerOfGreedy(v: string, rest: string)
    requires |v| >= 7 && EqualsIgnoreCase(v[..6], "Bearer") && IsJsSpace(v[6])
    requires rest == TrimStart(v[6..]) && rest != "" && NoLineTerminator(rest)
    ensures BearerOf(v) == Some(Trim(rest))
  {
  }

  lemma TrimOfTrimStart(g: string)
    ensures Trim(TrimStart(g)) == Trim(g)
  {
  }

  lemma TrimStartKeepsNoLineTerminator(g: string)
    requires NoLineTerminator(g)
    ensures NoLineTerminator(TrimStart(g))
  {
    var t := TrimStart(g);
    var k := |g| - |t|;
    assert t == g[k..];
    forall i | 0 <= i < |t| ensures !IsLineTerminator(t[i]) {
      assert t[i] == g[k + i];
    }
  }

  /** Past a run of white space, trimming the start of `w + g` trims into
      `g`, and leaves something when `g` is not blank. */
  lemma {:induction false} TrimStartSplit(w: string, g: string)
    requires AllSpace(w) && Trim(g) != ""
    ensures TrimStart(w + g) == TrimStart(g) != ""
    decreases |w|
  {
    if |w| > 0 {
      assert (w + g)[1..] == w[1..] + g;
      TrimStartSplit(w[1..], g);
    } else {
      assert w + g == g;
    }
  }

  /** `getBearerToken(headers)`: no header, no token; otherwise the
      token of the one reading the regex admits with a capture that is not
      blank. */
  function GetBearerToken(h: Headers): (r: Option<string>)
    ensures Var(h, "authorization") == "" ==> r.None?
    ensures r.Some? ==> r.value != ""
    ensures r.Some? ==> exists w, g :: BearerReading(Var(h, "authorization"), w, g) && Trim(g) == r.value
    ensures forall w, g :: BearerReading(Var(h, "authorization"), w, g) && Trim(g) != "" ==> r == Some(Trim(g))
  {
    var v := Var(h, "authorization");
    assert forall w, g :: BearerReading(v, w, g) && Trim(g) != "" ==> BearerOf(v) == Some(Trim(g)) by {
      forall w, g | BearerReading(v, w, g) && Trim(g) != "" ensures BearerOf(v) == Some(Trim(g)) {
        BearerOfComplete(v, w, g);
      }
    }
    if v == "" then None else BearerOf(v)
  }

  /** `getSiteBaseUrl(headers)`: the environment first, then the request's
      host; `None` when neither gives one. */
  function GetSiteBaseUrl(h: Headers, env: Env): (r: Option<string>)
    ensures r.Some? ==> r.value != ""
    ensures r.None? <==>
      (&& Var(env, "URL") == "" && Var(env, "DEPLOY_PRIME_URL") == "" && Var(env, "NETLIFY_SITE_URL") == ""
       && Var(h, "x-forwarded-host") == "" && Var(h, "host") == "")
  {
    var envUrl := OrElse(Var(env, "URL"), OrElse(Var(env, "DEPLOY_PRIME_URL"), Var(env, "NETLIFY_SITE_URL")));
    if envUrl != "" then Some(envUrl)
    else
      var host := OrElse(Var(h, "x-forwarded-host"), Var(h, "host"));
      if host == "" then None
      else Some(OrElse(Var(h, "x-forwarded-proto"), "https") + "://" + host)
  }

  /** A Netlify Identity user as the `/user` endpoint returns it. `roles` is
      `None` when `app_metadata` or its `roles` is absent. */
  datatype NetlifyUser = NetlifyUser(
    id: Option<string>,
    email: string,
    fullName: Option<string>,
    roles: Option<seq<string>>)

  datatype Role = Admin | Editor | Public

  /** `user.app_metadata?.roles || []`. */
  function RolesOf(u: NetlifyUser): seq<string> {
    u.roles.GetOr([])
  }

  /** The user is present and has a role list naming `role`. */
  predicate HasRole(user: Option<NetlifyUser>, role: string) {
    && user.Some? && user.value.roles.Some?
    && exists i :: 0 <= i < |user.value.roles.value| && user.value.roles.value[i] == role
  }

  /** `isAdmin(user)`: a missing role list counts as empty. */
  function IsAdmin(user: Option<NetlifyUser>): (b: bool)
    ensures b <==> HasRole(user, "admin")
  {
    user.Some? && "admin" in RolesOf(user.value)
  }

  /** `isEditor(user)`: a missing role list counts as empty. */
  function IsEditor(user: Option<NetlifyUser>): (b: bool)
    ensures b <==> HasRole(user, "editor")
  {
    user.Some? && "editor" in RolesOf(user.value)
  }

  /** `isAuthenticated(user)`: a user whose `id` is present, whatever its
      roles. */
  function IsAuthenticated(user: Option<NetlifyUser>): (b: bool)
    ensures b ==> user.Some?
    ensures user.Some? ==> (b <==> user.value.id.Some?)
  {
    user.Some? && user.value.id.Some?
  }

  /** Roles and authentication are checked apart: a user without an `id`
      is not authenticated, yet its roles still make it an admin. */
  lemma RoleWithoutId(u: NetlifyUser)
    requires u.id.None? && u.roles == Some(["admin"])
    ensures !IsAuthenticated(Some(u)) && IsAdmin(Some(u)) && GetUserRole(Some(u)) == Admin
  {
    assert u.roles.value[0] == "admin";
  }

  /** `getUserRole(user)`: admin outranks editor, and everyone else is
      public. */
  function GetUserRole(user: Option<NetlifyUser>): (r: Role)
    ensures r == Admin <==> IsAdmin(user)
    ensures r == Editor <==> !IsAdmin(user) && IsEditor(user)
    ensures r == Public <==> !IsAdmin(user) && !IsEditor(user)
  {
    if user.None? then Public
    else if IsAdmin(user) then Admin
    else if IsEditor(user) then Editor
    else Public
  }

  /** `getUserDisplayName(user)`: never empty. */
  function GetUserDisplayName(user: Option<NetlifyUser>): (n: string)
    ensures n != ""
    ensures user.None? ==> n == "Guest"
    ensures user.Some? && user.value.fullName.Some? && user.value.fullName.value != "" ==> n == user.value.fullName.value
    ensures user.Some? && user.value.fullName.GetOr("") == "" && user.value.email != "" ==> n == user.value.email
    ensures user.Some? && user.value.fullName.GetOr("") == "" && user.value.email == "" ==> n == "User"
  {
    if user.None? then "Guest"
    else OrElse(user.value.fullName.GetOr(""), OrElse(user.value.email, "User"))
  }

  /** How the call to the Identity endpoint ends: `fetch` throws, the
      response is not `ok`, its body is not JSON (`resp.json()` throws), or
      the body parses (`None` for a JSON `null`). */
  datatype IdentityReply =
    | FetchThrows
    | NotOk
    | BodyNotJson
    | UserBody(user: Option<NetlifyUser>)

  /** The validation request `checkAdminAuth` sends. */
  datatype IdentityRequest = IdentityRequest(url: string, authorization: string)

  /** `AuthCheckResult`; `reason` is "" where the source leaves it out, and
      `request` records the validation request, if one was sent. */
  datatype AuthCheck = AuthCheck(
    authorized: bool,
    user: Option<NetlifyUser>,
    role: Role,
    reason: string,
    request: Option<IdentityRequest>)

  /** `checkAdminAuth(headers)`; `reply` is what the Identity endpoint
      answers if it is asked. */
  function CheckAdminAuth(h: Headers, env: Env, reply: IdentityReply): (a: AuthCheck)
    ensures a.authorized <==>
      && GetBearerToken(h).Some? && GetSiteBaseUrl(h, env).Some?
      && reply.UserBody? && IsAdmin(reply.user)
    ensures a.authorized ==> a.role == Admin && a.reason == "" && a.user == reply.user
    ensures !a.authorized ==> a.reason != "" && a.role != Admin
    ensures a.request.Some? <==> GetBearerToken(h).Some? && GetSiteBaseUrl(h, env).Some?
    ensures a.request.Some? ==>
      && a.request.value.url == GetSiteBaseUrl(h, env).value + "/.netlify/identity/user"
      && a.request.value.authorization == "Bearer " + GetBearerToken(h).value
    ensures a.request.Some? && reply.UserBody? ==>
      && a.user == reply.user && a.role == GetUserRole(reply.user)
      && (a.role != Admin ==> a.reason == "User is not an admin")
  {
    var token := GetBearerToken(h);
    if token.None? then
      AuthCheck(false, None, Public, "No authorization header", None)
    else
      var base := GetSiteBaseUrl(h, env);
      if base.None? then
        AuthCheck(false, None, Public, "Unable to determine site URL for Identity validation", None)
      else
        var request := Some(IdentityRequest(base.value + "/.netlify/identity/user", "Bearer " + token.value));
        match reply
        case FetchThrows => AuthCheck(false, None, Public, "Authentication error", request)
        case BodyNotJson => AuthCheck(false, None, Public, "Authentication error", request)
        case NotOk => AuthCheck(false, None, Public, "Invalid or expired token", request)
        case UserBody(user) =>
          var role := GetUserRole(user);
          if role != Admin then AuthCheck(false, user, role, "User is not an admin", request)
          else AuthCheck(true, user, role, "", request)
  }

  /** No header, no token: the Identity endpoint is never asked, whatever it
      would answer. */
  lemma NoTokenNoRequest(h: Headers, env: Env, r1: IdentityReply, r2: IdentityReply)
    requires GetBearerToken(h).None?
    ensures CheckAdminAuth(h, env, r1) == CheckAdminAuth(h, env, r2)
    ensures CheckAdminAuth(h, env, r1).reason == "No authorization header"
  {
  }

  /** An editor who is not an admin is refused, with the role it has. */
  lemma EditorRefused(h: Headers, env: Env, u: NetlifyUser)
    requires GetBearerToken(h).Some? && GetSiteBaseUrl(h, env).Some?
    requires "editor" in RolesOf(u) && "admin" !in RolesOf(u)
    ensures var a := CheckAdminAuth(h, env, UserBody(Some(u)));
      !a.authorized && a.role == Editor && a.reason == "User is not an admin"
  {
    assert GetUserRole(Some(u)) == Editor by {
      assert !IsAdmin(Some(u)) && IsEditor(Some(u));
    }
  }
}

=== FILE: base64url.dfy ===
/**
 * Base64url text encoding (section 5 of RFC 4648, with the `=` padding left
 * off), the form Node's `toString('base64url')` and `digest('base64url')`
 * produce. Only encoding occurs in the system; `Decode` is its inverse,
 * defined here to show that an encoding loses nothing.
 */
module Base64Url {

  newtype byte = x: int | 0 <= x < 256

  /** The 64 letters `A-Z a-z 0-9 - _`; none of them is `.`, `=`, `+` or `/`. */
  predicate IsLetter(c: char) {
    'A' <= c <= 'Z' || 'a' <= c <= 'z' || '0' <= c <= '9' || c == '-' || c == '_'
  }

  predicate AllLetters(s: string) {
    forall i :: 0 <= i < |s| ==> IsLetter(s[i])
  }

  /** The letter standing for the 6-bit value `i`. */
  function Letter(i: nat): (c: char)
    requires i < 64
    ensures IsLetter(c)
  {
    if i < 26 then ('A' as int + i) as char
    else if i < 52 then ('a' as int + i - 26) as char
    else if i < 62 then ('0' as int + i - 52) as char
    else if i == 62 then '-'
    else '_'
  }

  /** The 6-bit value a letter stands for. */
  function Value(c: char): (i: nat)
    requires IsLetter(c)
    ensures i < 64 && Letter(i) == c
  {
    if 'A' <= c <= 'Z' then c as int - 'A' as int
    else if 'a' <= c <= 'z' then c as int - 'a' as int + 26
    else if '0' <= c <= '9' then c as int - '0' as int + 52
    else if c == '-' then 62
    else 63
  }

  lemma ValueOfLetter(i: nat)
    requires i < 64
    ensures Value(Letter(i)) == i
  {
  }

  /** Three bytes, 24 bits, as four letters, most significant bits first:
      the top six bits of `x`; the low two of `x` and the top four of `y`;
      the low four of `y` and the top two of `z`; the low six of `z`. */
  function Quad(x: byte, y: byte, z: byte): (r: string)
    ensures |r| == 4 && AllLetters(r)
  {
    [Letter(x as int / 4), Letter(x as int % 4 * 16 + y as int / 16),
     Letter(y as int % 16 * 4 + z as int / 64), Letter(z as int % 64)]
  }

  /** The encoding. A trailing byte becomes two letters and a trailing pair
      three, the unused low bits being zero. */
  function Encode(b: seq<byte>): (r: string)
    ensures |r| == (4 * |b| + 2) / 3
    ensures AllLetters(r)
  {
    if |b| == 0 then ""
    else if |b| == 1 then
      [Letter(b[0] as int / 4), Letter(b[0] as int % 4 * 16)]
    else if |b| == 2 then
      [Letter(b[0] as int / 4), Letter(b[0] as int % 4 * 16 + b[1] as int / 16),
       Letter(b[1] as int % 16 * 4)]
    else
      Quad(b[0], b[1], b[2]) + Encode(b[3..])
  }

  /** What `Encode` can produce: letters only, and never a lone letter after
      the last complete group of four. */
  predicate Decodable(s: string) {
    AllLetters(s) && |s| % 4 != 1
  }

  /** The first, second and third byte of a group, from its letter values. */
  function First(a: nat, b: nat): byte
    requires a < 64 && b < 64
  {
    (a * 4 + b / 16) as byte
  }

  function Second(b: nat, c: nat): byte
    requires b < 64 && c < 64
  {
    (b % 16 * 16 + c / 4) as byte
  }

  function Third(c: nat, d: nat): byte
    requires c < 64 && d < 64
  {
    (c % 4 * 64 + d) as byte
  }

  function Decode(s: string): (b: seq<byte>)
    requires Decodable(s)
  {
    if |s| == 0 then []
    else if |s| == 2 then
      [First(Value(s[0]), Value(s[1]))]
    else if |s| == 3 then
      [First(Value(s[0]), Value(s[1])), Second(Value(s[1]), Value(s[2]))]
    else
      [First(Value(s[0]), Value(s[1])), Second(Value(s[1]), Value(s[2])),
       Third(Value(s[2]), Value(s[3]))] + Decode(s[4..])
  }

  lemma FirstSplit(x: byte, y: byte)
    ensures First(x as int / 4, x as int % 4 * 16 + y as int / 16) == x
  {
  }

  lemma SecondSplit(x: byte, y: byte, z: byte)
    ensures Second(x as int % 4 * 16 + y as int / 16, y as int % 16 * 4 + z as int / 64) == y
  {
    var hi, lo := y as int / 16, y as int % 16;
    assert y as int == hi * 16 + lo && hi < 16;
    assert (x as int % 4 * 16 + hi) % 16 == hi;
    assert (lo * 4 + z as int / 64) / 4 == lo;
  }

  lemma ThirdSplit(y: byte, z: byte)
    ensures Third(y as int % 16 * 4 + z as int / 64, z as int % 64) == z
  {
  }

  /** The four letters of a group stand for the four 6-bit pieces. */
  lemma QuadValues(x: byte, y: byte, z: byte)
    ensures var q := Quad(x, y, z);
      && Value(q[0]) == x as int / 4 && Value(q[1]) == x as int % 4 * 16 + y as int / 16
      && Value(q[2]) == y as int % 16 * 4 + z as int / 64 && Value(q[3]) == z as int % 64
  {
    ValueOfLetter(x as int / 4);
    ValueOfLetter(x as int % 4 * 16 + y as int / 16);
    ValueOfLetter(y as int % 16 * 4 + z as int / 64);
    ValueOfLetter(z as int % 64);
  }

  lemma QuadRoundTrip(x: byte, y: byte, z: byte)
    ensures Decodable(Quad(x, y, z)) && Decode(Quad(x, y, z)) == [x, y, z]
  {
    var q := Quad(x, y, z);
    QuadValues(x, y, z);
    FirstSplit(x, y);
    SecondSplit(x, y, z);
    ThirdSplit(y, z);
    assert q[4..] == "";
  }

  lemma OneByteRoundTrip(x: byte)
    ensures Decodable(Encode([x])) && Decode(Encode([x])) == [x]
  {
    ValueOfLetter(x as int / 4);
    ValueOfLetter(x as int % 4 * 16);
    FirstSplit(x, 0);
  }

  lemma TwoBytesRoundTrip(x: byte, y: byte)
    ensures Decodable(Encode([x, y])) && Decode(Encode([x, y])) == [x, y]
  {
    var a, b, c := x as int / 4, x as int % 4 * 16 + y as int / 16, y as int % 16 * 4;
    var e := Encode([x, y]);
    assert e == [Letter(a), Letter(b), Letter(c)];
    ValueOfLetter(a);
    ValueOfLetter(b);
    ValueOfLetter(c);
    FirstSplit(x, y);
    SecondOfPair(x, y);
    assert Decode(e) == [First(a, b), Second(b, c)];
  }

  lemma SecondOfPair(x: byte, y: byte)
    ensures Second(x as int % 4 * 16 + y as int / 16, y as int % 16 * 4) == y
  {
    SecondSplit(x, y, 0);
  }

  /** A complete group decodes on its own. */
  lemma DecodeAfterQuad(q: string, t: string)
    requires |q| == 4 && Decodable(q) && Decodable(t)
    ensures Decodable(q + t) && Decode(q + t) == Decode(q) + Decode(t)
  {
    assert (q + t)[4..] == t;
    assert q[4..] == "";
  }

  /** Decoding undoes encoding, so distinct byte strings never share an
      encoding. */
  lemma {:induction false} DecodeEncode(b: seq<byte>)
    ensures Decodable(Encode(b)) && Decode(Encode(b)) == b
  {
    if |b| == 1 {
      assert b == [b[0]];
      OneByteRoundTrip(b[0]);
    } else if |b| == 2 {
      assert b == [b[0], b[1]];
      TwoBytesRoundTrip(b[0], b[1]);
    } else if |b| >= 3 {
      DecodeEncode(b[3..]);
      DecodeEncodeGroup(b);
    }
  }

  /** One group more: the round trip of `b[3..]` extends to `b`. */
  lemma DecodeEncodeGroup(b: seq<byte>)
    requires |b| >= 3 && Decodable(Encode(b[3..])) && Decode(Encode(b[3..])) == b[3..]
    ensures Decodable(Encode(b)) && Decode(Encode(b)) == b
  {
    SplitGroup(b);
    var q, t := Quad(b[0], b[1], b[2]), Encode(b[3..]);
    assert Encode(b) == q + t;
    QuadRoundTrip(b[0], b[1], b[2]);
    DecodeAfterQuad(q, t);
  }

  lemma SplitGroup(b: seq<byte>)
    requires |b| >= 3
    ensures b == [b[0], b[1], b[2]] + b[3..]
  {
  }

  lemma EncodeInjective(a: seq<byte>, b: seq<byte>)
    requires Encode(a) == Encode(b)
    ensures a == b
  {
    DecodeEncode(a);
    DecodeEncode(b);
  }
}

=== FILE: categories.dfy ===
/**
 * The five content categories (lib/categories.ts, lib/types.ts): their
 * display data in a fixed order, and the lookup by slug.
 */
module Categories {
  import opened Wrappers

  /** The `Category` union of lib/types.ts. */
  datatype Category = Blog | Lifestyle | Design | Technology | Business

  function Slug(c: Category): string {
    match c
    case Blog => "blog"
    case Lifestyle => "lifestyle"
    case Design => "design"
    case Technology => "technology"
    case Business => "business"
  }

  datatype CategoryInfo = CategoryInfo(
    name: string,
    slug: Category,
    description: string,
    color: string,
    gradient: string,
    icon: string)

  /** `CATEGORIES`, in the order pages and the sitemap list them. */
  const Catalogue: seq<CategoryInfo> := [
    CategoryInfo("Web Development", Blog,
      "Master modern web development with cutting-edge frameworks, best practices, and real-world tutorials.",
      "text-blue-600", "from-blue-600 to-cyan-600", "Code2"),
    CategoryInfo("Lifestyle", Lifestyle,
      "Elevate your daily life with tips on wellness, productivity, travel, and personal growth.",
      "text-pink-600", "from-pink-600 to-rose-600", "Heart"),
    CategoryInfo("Design", Design,
      "Explore UI/UX principles, design systems, and visual strategies that create stunning experiences.",
      "text-purple-600", "from-purple-600 to-indigo-600", "Palette"),
    CategoryInfo("Technology", Technology,
      "Stay ahead with insights on AI, cloud computing, cybersecurity, and emerging tech trends.",
      "text-emerald-600", "from-emerald-600 to-teal-600", "Cpu"),
    CategoryInfo("Business", Business,
      "Build successful ventures with strategies on marketing, leadership, and entrepreneurship.",
      "text-orange-600", "from-orange-600 to-amber-600", "Briefcase")
  ]

  /** The slugs of the catalogue, in order. */
  function CatalogueSlugs(): (r: seq<string>)
    ensures |r| == |Catalogue|
    ensures forall i :: 0 <= i < |r| ==> r[i] == Slug(Catalogue[i].slug)
  {
    seq(|Catalogue|, i requires 0 <= i < |Catalogue| => Slug(Catalogue[i].slug))
  }

  /** Exactly five categories, in this order, each slug once. */
  lemma CatalogueShape()
    ensures CatalogueSlugs() == ["blog", "lifestyle", "design", "technology", "business"]
    ensures forall i, j :: 0 <= i < j < |Catalogue| ==> Slug(Catalogue[i].slug) != Slug(Catalogue[j].slug)
  {
  }

  /** The inverse of `Slug`. */
  function ParseCategory(s: string): (r: Option<Category>)
    ensures r.Some? ==> Slug(r.value) == s
    ensures r.None? ==> forall c :: Slug(c) != s
  {
    if s == "blog" then Some(Blog)
    else if s == "lifestyle" then Some(Lifestyle)
    else if s == "design" then Some(Design)
    else if s == "technology" then Some(Technology)
    else if s == "business" then Some(Business)
    else None
  }

  /** `CATEGORIES.find(cat => cat.slug === slug)`. */
  function FindInfo(list: seq<CategoryInfo>, slug: string): (r: Option<CategoryInfo>)
    ensures r.Some? ==> r.value in list && Slug(r.value.slug) == slug
    ensures r.None? <==> forall i :: 0 <= i < |list| ==> Slug(list[i].slug) != slug
  {
    if |list| == 0 then None
    else if Slug(list[0].slug) == slug then Some(list[0])
    else FindInfo(list[1..], slug)
  }

  /** `getCategoryInfo(slug)`: the entry with that slug, or `None` for a
      string that is not a category. */
  function GetCategoryInfo(slug: string): (r: Option<CategoryInfo>)
    ensures r.Some? ==> r.value in Catalogue && Slug(r.value.slug) == slug
    ensures r.None? <==> ParseCategory(slug).None?
  {
    CatalogueShape();
    FindInfo(Catalogue, slug)
  }

  /** Every category has its entry. */
  lemma EveryCategoryHasInfo(c: Category)
    ensures GetCategoryInfo(Slug(c)).Some? && GetCategoryInfo(Slug(c)).value.slug == c
  {
  }
}

=== FILE: confirm_route.dfy ===
/**
 * `GET /api/subscribers/confirm?token=…` (app/api/subscribers/confirm/route.ts):
 * double opt-in. The token is hashed and looked up; an expired link is
 * refused before the status is looked at; a successful confirmation makes
 * the record active and removes the token so the link works only once.
 */
module ConfirmRoute {
  import opened Wrappers
  import opened SubscriberModel
  import opened Database
  import SubscriberTokens

  /** The HTML page the route answers with. */
  datatype Page =
    | MissingToken
    | InvalidToken
    | LinkExpired
    | AlreadyConfirmed
    | Confirmed
    | ServerError

  function StatusCode(p: Page): int {
    match p
    case MissingToken => 400
    case InvalidToken => 404
    case LinkExpired => 410
    case AlreadyConfirmed => 200
    case Confirmed => 200
    case ServerError => 500
  }

  /** `confirmTokenExpiresAt && confirmTokenExpiresAt < new Date()`: a
      record without an expiry never expires, and the expiry instant itself
      is still valid. */
  predicate IsExpired(s: Subscriber, now: Time) {
    s.confirmTokenExpiresAt.Some? && s.confirmTokenExpiresAt.value < now
  }

  /** The confirmed record: active, confirmed now, token fields removed. */
  function Activated(s: Subscriber, now: Time): Subscriber {
    s.(status := Active, confirmedAt := Some(now), confirmTokenHash := None, confirmTokenExpiresAt := None)
  }

  predicate HoldsHash(s: Subscriber, hash: string) {
    s.confirmTokenHash == Some(hash)
  }

  /** The record `findOne` finds for a present token: the first that holds
      the token's hash. */
  function Holder(p: SubscriberTokens.Primitives, token: Option<string>, st: Store): (r: Option<nat>)
    ensures r.Some? ==> token.Some? && r.value < |st| && HoldsHash(st[r.value], p.sha256Hex(token.value))
  {
    if token.None? || token.value == "" then None else FindByTokenHash(st, p.sha256Hex(token.value))
  }

  /** The handler. `token` is the `token` query parameter (`None` when
      absent), `now` the clock, `io` how the database calls end. */
  function Confirm(p: SubscriberTokens.Primitives, token: Option<string>, st: Store, now: Time, io: DbIo)
    : (o: (Page, Store))
    ensures o.0 == MissingToken <==> token.None? || token.value == ""
    ensures o.0 != Confirmed ==> o.1 == st
    ensures o.0 == InvalidToken ==>
      io.ReadsOk() && forall j :: 0 <= j < |st| ==> !HoldsHash(st[j], p.sha256Hex(token.value))
    ensures o.0 == LinkExpired ==>
      exists j :: 0 <= j < |st| && HoldsHash(st[j], p.sha256Hex(token.value)) && IsExpired(st[j], now)
    ensures o.0 == AlreadyConfirmed ==>
      exists j :: 0 <= j < |st| && HoldsHash(st[j], p.sha256Hex(token.value))
        && !IsExpired(st[j], now) && st[j].status == Active
    ensures o.0 == Confirmed ==>
      exists j :: 0 <= j < |st| && HoldsHash(st[j], p.sha256Hex(token.value))
        && !IsExpired(st[j], now) && st[j].status != Active
        && o.1 == Save(st, j, Activated(st[j], now), now)
    ensures o.0 == ServerError ==> !io.ReadsOk() || !io.WritesOk()
    ensures o.0 != MissingToken && io.ReadsOk()
      && (exists j :: 0 <= j < |st| && HoldsHash(st[j], p.sha256Hex(token.value)))
      ==> o.0 != InvalidToken
    ensures o.0 == InvalidToken <==>
      token.Some? && token.value != "" && io.ReadsOk() && Holder(p, token, st).None?
    ensures o.0 == LinkExpired <==>
      io.ReadsOk() && Holder(p, token, st).Some? && IsExpired(st[Holder(p, token, st).value], now)
    ensures o.0 == AlreadyConfirmed <==>
      && io.ReadsOk() && Holder(p, token, st).Some?
      && !IsExpired(st[Holder(p, token, st).value], now) && st[Holder(p, token, st).value].status == Active
    ensures o.0 == Confirmed <==>
      && io.ReadsOk() && io.WritesOk() && Holder(p, token, st).Some?
      && !IsExpired(st[Holder(p, token, st).value], now) && st[Holder(p, token, st).value].status != Active
    ensures o.0 == ServerError <==>
      && token.Some? && token.value != ""
      && (|| !io.ReadsOk()
          || (&& Holder(p, token, st).Some? && !IsExpired(st[Holder(p, token, st).value], now)
              && st[Holder(p, token, st).value].status != Active && !io.WritesOk()))
    ensures ValidStore(st) ==> ValidStore(o.1)
  {
    if token.None? || token.value == "" then (MissingToken, st)
    else if !io.ReadsOk() then (ServerError, st)
    else
      var hash := p.sha256Hex(token.value);
      match FindByTokenHash(st, hash)
      case None => (InvalidToken, st)
      case Some(i) =>
        var s := st[i];
        if IsExpired(s, now) then (LinkExpired, st)
        else if s.status == Active then (AlreadyConfirmed, st)
        else if !io.WritesOk() then (ServerError, st)
        else
          var st' := Save(st, i, Activated(s, now), now);
          assert ValidStore(st) ==> ValidStore(st') by {
            if ValidStore(st) {
              SaveKeepsValid(st, i, Activated(s, now), now);
            }
          }
          (Confirmed, st')
  }

  /** At most one record holds the hash (the hash index is not unique, so
      this is what a 256-bit random token gives in practice). */
  predicate HashHeldOnce(st: Store, hash: string) {
    forall i, j :: 0 <= i < |st| && 0 <= j < |st| && HoldsHash(st[i], hash) && HoldsHash(st[j], hash) ==> i == j
  }

  /** A confirmation link works once: after it confirmed a record, the same
      link finds nothing. */
  lemma ConfirmIsSingleUse(p: SubscriberTokens.Primitives, token: Option<string>, st: Store, now: Time, io: DbIo,
                           later: Time, io2: DbIo)
    requires Confirm(p, token, st, now, io).0 == Confirmed
    requires HashHeldOnce(st, p.sha256Hex(token.value))
    requires io2.ReadsOk()
    ensures Confirm(p, token, Confirm(p, token, st, now, io).1, later, io2).0 == InvalidToken
  {
    var hash := p.sha256Hex(token.value);
    var st' := Confirm(p, token, st, now, io).1;
    var j :| 0 <= j < |st| && HoldsHash(st[j], hash) && !IsExpired(st[j], now) && st[j].status != Active
      && st' == Save(st, j, Activated(st[j], now), now);
    forall k | 0 <= k < |st'| ensures !HoldsHash(st'[k], hash) {
      if k != j {
        assert st'[k] == st[k];
      }
    }
  }

  /** The expiry is checked before the status: an active subscriber
      following an expired link is told the link expired. */
  lemma ExpiryCheckedBeforeStatus(p: SubscriberTokens.Primitives, token: string, st: Store, now: Time, io: DbIo, j: nat)
    requires token != "" && io.ReadsOk()
    requires j < |st| && HoldsHash(st[j], p.sha256Hex(token)) && HashHeldOnce(st, p.sha256Hex(token))
    requires IsExpired(st[j], now) && st[j].status == Active
    ensures Confirm(p, Some(token), st, now, io).0 == LinkExpired
  {
    var i := FindByTokenHash(st, p.sha256Hex(token)).value;
    assert i == j;
  }

  /** A stored token reactivates an unsubscribed record: the status before
      confirmation is not checked beyond `active`. */
  lemma ConfirmReactivatesUnsubscribed(p: SubscriberTokens.Primitives, token: string, st: Store, now: Time, io: DbIo, j: nat)
    requires token != "" && io.ReadsOk() && io.WritesOk()
    requires j < |st| && HoldsHash(st[j], p.sha256Hex(token)) && HashHeldOnce(st, p.sha256Hex(token))
    requires !IsExpired(st[j], now) && st[j].status == Unsubscribed
    ensures var o := Confirm(p, Some(token), st, now, io);
      o.0 == Confirmed && o.1[j].status == Active && o.1[j].unsubscribedAt == st[j].unsubscribedAt
  {
    var i := FindByTokenHash(st, p.sha256Hex(token)).value;
    assert i == j;
  }

  /** The two halves of the opt-in fit together: a record holding a freshly
      generated token is confirmed by it until the expiry instant, inclusive,
      and refused with 410 after it. */
  lemma GeneratedTokenConfirms(p: SubscriberTokens.Primitives, entropy: SubscriberTokens.Digest, issued: Time,
                               ttl: Option<int>, st: Store, j: nat, now: Time, io: DbIo)
    requires io.ReadsOk() && io.WritesOk()
    requires var t := SubscriberTokens.GenerateConfirmToken(p, entropy, issued, ttl);
      && j < |st| && st[j].status == Pending
      && st[j].confirmTokenHash == Some(t.tokenHash) && st[j].confirmTokenExpiresAt == Some(t.expiresAt)
      && HashHeldOnce(st, t.tokenHash)
    ensures var t := SubscriberTokens.GenerateConfirmToken(p, entropy, issued, ttl);
      var o := Confirm(p, Some(t.token), st, now, io);
      && (now <= t.expiresAt ==> o.0 == Confirmed && o.1[j].status == Active && o.1[j].confirmedAt == Some(now))
      && (now > t.expiresAt ==> o.0 == LinkExpired)
  {
    var t := SubscriberTokens.GenerateConfirmToken(p, entropy, issued, ttl);
    var i := FindByTokenHash(st, t.tokenHash).value;
    assert HoldsHash(st[j], t.tokenHash);
    assert i == j;
  }
}

=== FILE: cookie_consent.dfy ===
/**
 * The decisions of the cookie banner (components/layout/CookieConsent.tsx):
 * which paths are admin routes, how the stored choice is read back, when
 * the banner shows, and what is sent to Google's consent mode.
 *
 * `localStorage` is a map that may be unavailable, and the presence of
 * `window` and of `window.gtag` are inputs; rendering is not modelled.
 */
module CookieConsent {
  import opened Wrappers

  datatype ConsentState = Granted | Denied

  function ConsentText(c: ConsentState): string {
    match c
    case Granted => "granted"
    case Denied => "denied"
  }

  const StorageKey := "tk_cookie_consent"

  /** `localStorage`: `None` when using it throws. A storage that reads but
      refuses a write (quota, private browsing) is a `Some` together with a
      failing write; see `OnChoice`. */
  type Storage = Option<map<string, string>>

  /** The initial state: the stored value if it is exactly "granted" or
      "denied", and no consent otherwise, also when storage throws. */
  function StoredConsent(storage: Storage): (r: Option<ConsentState>)
    ensures r.Some? <==> (storage.Some? && StorageKey in storage.value
      && storage.value[StorageKey] in {"granted", "denied"})
    ensures r.Some? ==> storage.value[StorageKey] == ConsentText(r.value)
  {
    if storage.None? || StorageKey !in storage.value then None
    else if storage.value[StorageKey] == "granted" then Some(Granted)
    else if storage.value[StorageKey] == "denied" then Some(Denied)
    else None
  }

  /** The two admin areas. */
  const AdminAreas: seq<string> := ["/admin", "/admin-dashboard"]

  /** `p` is the area `a` or lies under it. */
  predicate InArea(p: string, a: string) {
    p == a || a + "/" <= p
  }

  /** `isAdminRoute`; `None` is a missing pathname. */
  function IsAdminRoute(pathname: Option<string>): (b: bool)
    ensures pathname.None? || pathname.value == "" ==> !b
    ensures b ==> "/admin" <= pathname.value
    ensures b <==> pathname.Some? && exists a :: a in AdminAreas && InArea(pathname.value, a)
  {
    if pathname.None? || pathname.value == "" then false
    else
      var p := pathname.value;
      assert "/admin" + "/" == "/admin/" && "/admin-dashboard" + "/" == "/admin-dashboard/";
      assert InArea(p, "/admin") <==> p == "/admin" || "/admin/" <= p;
      assert InArea(p, "/admin-dashboard") <==> p == "/admin-dashboard" || "/admin-dashboard/" <= p;
      p == "/admin" || "/admin/" <= p || p == "/admin-dashboard" || "/admin-dashboard/" <= p
  }

  /** The admin areas and everything under them are admin routes; a path
      that only starts with the same letters is not. */
  lemma AdminRouteExamples(rest: string)
    ensures IsAdminRoute(Some("/admin/" + rest)) && IsAdminRoute(Some("/admin-dashboard/" + rest))
    ensures IsAdminRoute(Some("/admin")) && IsAdminRoute(Some("/admin-dashboard"))
    ensures !IsAdminRoute(Some("/administrator")) && !IsAdminRoute(Some("/admin-dashboards"))
  {
    assert "/admin/" <= "/admin/" + rest;
    assert "/admin-dashboard/" <= "/admin-dashboard/" + rest;
    assert "/administrator"[6] == 'i';
    assert "/admin-dashboards"[16] == 's';
  }

  /** The banner is rendered unless the route is an admin route or a choice
      is recorded. */
  predicate BannerShown(isAdmin: bool, consent: Option<ConsentState>) {
    !isAdmin && consent.None?
  }

  /** The four fields of `gtag('consent', 'update', …)`. */
  datatype ConsentUpdate = ConsentUpdate(
    adStorage: string,
    analyticsStorage: string,
    adUserData: string,
    adPersonalization: string)

  /** `updateGoogleConsent(state)`: the update sent, `None` when there is
      no `window` or no `gtag` function. */
  function UpdateGoogleConsent(hasWindow: bool, hasGtag: bool, state: ConsentState): (r: Option<ConsentUpdate>)
    ensures r.Some? <==> hasWindow && hasGtag
    ensures r.Some? ==> r.value == ConsentUpdate(ConsentText(state), ConsentText(state), ConsentText(state), ConsentText(state))
  {
    if !hasWindow || !hasGtag then None
    else
      var v := if state == Granted then "granted" else "denied";
      Some(ConsentUpdate(v, v, v, v))
  }

  /** The effect that runs after rendering: it pushes the recorded choice,
      except on admin routes. */
  function EffectUpdate(isAdmin: bool, consent: Option<ConsentState>, hasWindow: bool, hasGtag: bool): (r: Option<ConsentUpdate>)
    ensures isAdmin || consent.None? ==> r.None?
    ensures !isAdmin && consent.Some? ==> r == UpdateGoogleConsent(hasWindow, hasGtag, consent.value)
    ensures r.Some? <==> !isAdmin && consent.Some? && hasWindow && hasGtag
  {
    if isAdmin || consent.None? then None
    else UpdateGoogleConsent(hasWindow, hasGtag, consent.value)
  }

  /** What a click on Accept or Reject leaves behind. */
  datatype ChoiceOutcome = ChoiceOutcome(storage: Storage, consent: Option<ConsentState>, update: Option<ConsentUpdate>)

  /** `onChoice(choice)`: store the choice (a throwing `setItem` is
      ignored), push it to `gtag`, and make it the current consent.
      `writeOk` says whether `setItem` succeeds on a usable storage. */
  function OnChoice(storage: Storage, writeOk: bool, hasWindow: bool, hasGtag: bool, choice: ConsentState): (o: ChoiceOutcome)
    ensures o.consent == Some(choice)
    ensures o.update == UpdateGoogleConsent(hasWindow, hasGtag, choice)
    ensures storage.None? || !writeOk ==> o.storage == storage
    ensures storage.Some? && writeOk ==>
      && o.storage.Some?
      && o.storage.value.Keys == storage.value.Keys + {StorageKey}
      && o.storage.value[StorageKey] == ConsentText(choice)
      && forall k :: k in storage.value && k != StorageKey ==> o.storage.value[k] == storage.value[k]
  {
    var stored := if storage.None? || !writeOk then storage else Some(storage.value[StorageKey := ConsentText(choice)]);
    ChoiceOutcome(stored, Some(choice), UpdateGoogleConsent(hasWindow, hasGtag, choice))
  }

  /** A choice that was written is remembered: the next page load reads it
      back, and the banner stays hidden. */
  lemma ChoiceIsRemembered(storage: Storage, hasWindow: bool, hasGtag: bool, choice: ConsentState, isAdmin: bool)
    requires storage.Some?
    ensures StoredConsent(OnChoice(storage, true, hasWindow, hasGtag, choice).storage) == Some(choice)
    ensures !BannerShown(isAdmin, OnChoice(storage, true, hasWindow, hasGtag, choice).consent)
  {
    var o := OnChoice(storage, true, hasWindow, hasGtag, choice);
    assert StorageKey in o.storage.value;
  }

  /** A choice whose write was refused hides the banner only for this page:
      the next load on a public route reads what was there before, and with
      no earlier choice stored it asks again. */
  lemma RefusedWriteIsForgotten(storage: Storage, hasWindow: bool, hasGtag: bool, choice: ConsentState)
    requires storage.Some? && StorageKey !in storage.value
    ensures !BannerShown(false, OnChoice(storage, false, hasWindow, hasGtag, choice).consent)
    ensures BannerShown(false, StoredConsent(OnChoice(storage, false, hasWindow, hasGtag, choice).storage))
  {
  }

  /** The stored text is read back as the state it names, and only those two
      texts are. */
  lemma StoredConsentReadsBack(m: map<string, string>, c: ConsentState)
    ensures StoredConsent(Some(m[StorageKey := ConsentText(c)])) == Some(c)
    ensures StoredConsent(Some(m[StorageKey := "Granted"])).None?
  {
  }
}

=== FILE: database.dfy ===
/**
 * How the database calls of one request end. The routes await
 * `connectDB()` and then query and save; any of these may throw, and the
 * routes only ever look at whether, where, and with what message.
 */
module Database {
  import opened Wrappers

  /** A thrown value: an `Error` with its message, or anything else. */
  datatype Thrown = ErrorObject(message: string) | OtherValue

  /** `error instanceof Error ? error.message : ''`. */
  function MessageOf(t: Thrown): string {
    match t
    case ErrorObject(m) => m
    case OtherValue => ""
  }

  /** `queryError`: the error of connecting or of the first failing query,
      if any; `writeError`: the error of the first failing save or delete. */
  datatype DbIo = DbIo(queryError: Option<Thrown>, writeError: Option<Thrown>) {
    predicate ReadsOk() { queryError.None? }
    predicate WritesOk() { writeError.None? }
  }
}

=== FILE: db_errors.dfy ===
/**
 * How the admin subscriber routes (app/api/admin/subscribers/route.ts)
 * explain a failed database call: the message of the thrown value is matched
 * against four tests in a fixed order and the first that matches picks the
 * answer; everything else is an internal error.
 */
module DbErrors {
  import opened Strings
  import opened Database

  datatype DbFailure = MissingUri | AuthFailed | HostNotFound | ConnectionBlocked | Internal

  /** The `error` field of the 500 answer. */
  function ErrorText(k: DbFailure): string {
    match k
    case MissingUri => "Missing MONGODB_URI"
    case AuthFailed => "MongoDB authentication failed"
    case HostNotFound => "MongoDB host not found"
    case ConnectionBlocked => "MongoDB connection blocked"
    case Internal => "Internal server error"
  }

  /** `ip` at `i` and `not allowed` at `j`, with nothing between them that
      the regex `.` refuses: one way for `/IP.*not allowed/` to match the
      lower-cased message `s`. */
  predicate IpThenNotAllowedAt(s: string, i: int, j: int) {
    && InfixAt(s, "ip", i) && i + 2 <= j && InfixAt(s, "not allowed", j)
    && NoLineTerminator(s[i + 2..j])
  }

  /** The regex `/IP.*not allowed/`, read declaratively, on a lower-cased
      message. */
  ghost predicate MatchesIpNotAllowed(s: string) {
    exists i, j :: IpThenNotAllowedAt(s, i, j)
  }

  /** A backtracking-free scan for `/IP.*not allowed/` on a lower-cased
      message: try each position of `ip`, and look for `not allowed` on the
      rest of its line. */
  function IpNotAllowed(s: string): (b: bool)
    ensures b <==> MatchesIpNotAllowed(s)
    decreases |s|
  {
    if |s| < 2 then
      assert forall i, j :: !IpThenNotAllowedAt(s, i, j);
      false
    else
      IpAtFront(s);
      if "ip" <= s && Includes(LineHead(s[2..]), "not allowed") then true
      else
        IpShift(s);
        IpNotAllowed(s[1..])
  }

  /** A match whose `ip` is at the front is an occurrence of `not allowed`
      on the first line after it. */
  lemma IpAtFront(s: string)
    requires |s| >= 2
    ensures ("ip" <= s && HasInfix(LineHead(s[2..]), "not allowed")) <==> exists j :: IpThenNotAllowedAt(s, 0, j)
  {
    if "ip" <= s && HasInfix(LineHead(s[2..]), "not allowed") {
      IpAtFrontFound(s);
    }
    if exists j :: IpThenNotAllowedAt(s, 0, j) {
      var j :| IpThenNotAllowedAt(s, 0, j);
      IpAtFrontMatch(s, j);
    }
  }

  lemma IpAtFrontFound(s: string)
    requires |s| >= 2 && "ip" <= s && HasInfix(LineHead(s[2..]), "not allowed")
    ensures exists j :: IpThenNotAllowedAt(s, 0, j)
  {
    var t := s[2..];
    var na := "not allowed";
    SameLineInfix(t, na);
    var k :| InfixAt(t, na, k) && NoLineTerminator(t[..k]);
    assert s[k + 2..k + 2 + |na|] == t[k..k + |na|];
    assert s[2..k + 2] == t[..k];
    assert IpThenNotAllowedAt(s, 0, k + 2);
  }

  lemma IpAtFrontMatch(s: string, j: int)
    requires |s| >= 2 && IpThenNotAllowedAt(s, 0, j)
    ensures "ip" <= s && HasInfix(LineHead(s[2..]), "not allowed")
  {
    var t := s[2..];
    var na := "not allowed";
    assert s[..2] == "ip";
    assert t[j - 2..j - 2 + |na|] == s[j..j + |na|];
    assert t[..j - 2] == s[2..j];
    assert InfixAt(t, na, j - 2) && NoLineTerminator(t[..j - 2]);
    SameLineInfix(t, na);
  }

  /** Matches whose `ip` is not at the front are the matches of the rest,
      shifted by one. */
  lemma IpShift(s: string)
    requires |s| >= 2
    requires !exists j :: IpThenNotAllowedAt(s, 0, j)
    ensures MatchesIpNotAllowed(s) <==> MatchesIpNotAllowed(s[1..])
  {
    var na := "not allowed";
    if MatchesIpNotAllowed(s) {
      var i, j :| IpThenNotAllowedAt(s, i, j);
      assert i != 0;
      SliceShift(s, i, i + 2);
      SliceShift(s, j, j + |na|);
      SliceShift(s, i + 2, j);
      assert IpThenNotAllowedAt(s[1..], i - 1, j - 1);
    }
    if MatchesIpNotAllowed(s[1..]) {
      var i, j :| IpThenNotAllowedAt(s[1..], i, j);
      SliceShift(s, i + 1, i + 3);
      SliceShift(s, j + 1, j + 1 + |na|);
      SliceShift(s, i + 3, j + 1);
      assert IpThenNotAllowedAt(s, i + 1, j + 1);
    }
  }

  lemma SliceShift(s: string, a: int, b: int)
    requires 1 <= a <= b <= |s|
    ensures s[a..b] == s[1..][a - 1..b - 1]
  {
    assert |s[a..b]| == |s[1..][a - 1..b - 1]|;
    forall k | 0 <= k < b - a ensures s[a..b][k] == s[1..][a - 1..b - 1][k] {
      assert s[1..][a - 1 + k] == s[a + k];
    }
  }

  /** `/Authentication failed|bad auth|auth error/i`. */
  function AuthPattern(m: string): bool {
    var l := LowerAscii(m);
    Includes(l, "authentication failed") || Includes(l, "bad auth") || Includes(l, "auth error")
  }

  /** `/ENOTFOUND|querySrv ENOTFOUND|getaddrinfo ENOTFOUND/i`. */
  function HostPattern(m: string): bool {
    var l := LowerAscii(m);
    Includes(l, "enotfound") || Includes(l, "querysrv enotfound") || Includes(l, "getaddrinfo enotfound")
  }

  /** `/IP.*not allowed|not authorized on|ECONNREFUSED|ETIMEDOUT/i`. */
  function BlockedPattern(m: string): bool {
    var l := LowerAscii(m);
    IpNotAllowed(l) || Includes(l, "not authorized on") || Includes(l, "econnrefused") || Includes(l, "etimedout")
  }

  /** The answer for a thrown value: the first test that matches wins. */
  function Classify(t: Thrown): (k: DbFailure)
    ensures k == MissingUri <==> HasInfix(MessageOf(t), "Missing MONGODB_URI")
    ensures k == AuthFailed <==> !HasInfix(MessageOf(t), "Missing MONGODB_URI") && AuthPattern(MessageOf(t))
    ensures k == HostNotFound <==>
      !HasInfix(MessageOf(t), "Missing MONGODB_URI") && !AuthPattern(MessageOf(t))
      && HasInfix(LowerAscii(MessageOf(t)), "enotfound")
    ensures k == ConnectionBlocked ==> MatchesIpNotAllowed(LowerAscii(MessageOf(t))) || BlockedPattern(MessageOf(t))
    ensures k == Internal ==> t.OtherValue? || !BlockedPattern(MessageOf(t))
  {
    var m := MessageOf(t);
    HostPatternIsEnotfound(m);
    if Includes(m, "Missing MONGODB_URI") then MissingUri
    else if AuthPattern(m) then AuthFailed
    else if HostPattern(m) then HostNotFound
    else if BlockedPattern(m) then ConnectionBlocked
    else Internal
  }

  /** The longer alternatives of the host test are redundant: each contains
      `ENOTFOUND`. */
  lemma HostPatternIsEnotfound(m: string)
    ensures HostPattern(m) <==> HasInfix(LowerAscii(m), "enotfound")
  {
    var l := LowerAscii(m);
    if HasInfix(l, "querysrv enotfound") {
      InfixWithin(l, "querysrv enotfound", 9, "enotfound");
    }
    if HasInfix(l, "getaddrinfo enotfound") {
      InfixWithin(l, "getaddrinfo enotfound", 12, "enotfound");
    }
  }

  /** Text holding `big` holds every infix of it. */
  lemma InfixWithin(l: string, big: string, off: nat, small: string)
    requires HasInfix(l, big) && off + |small| <= |big| && big[off..off + |small|] == small
    ensures HasInfix(l, small)
  {
    var i :| InfixAt(l, big, i);
    forall k | 0 <= k < |small| ensures l[i + off + k] == small[k] {
      assert l[i..i + |big|][off + k] == big[off + k];
    }
    assert l[i + off..i + off + |small|] == small;
    assert InfixAt(l, small, i + off);
  }

  /** A message that is not an `Error` is always an internal error. */
  lemma NonErrorIsInternal()
    ensures Classify(OtherValue) == Internal
  {
    assert !HasInfix("", "Missing MONGODB_URI");
    assert !HasInfix(LowerAscii(""), "enotfound");
  }
}

=== FILE: environment.dfy ===
/**
 * `process.env` and request headers. Every read in the system tests the
 * value's truthiness, so an empty value and a missing one behave alike.
 */
module Environment {

  type Env = map<string, string>

  /** The variable's value, "" when it is unset. */
  function Var(env: Env, name: string): (v: string)
    ensures v != "" <==> (name in env && env[name] != "")
  {
    if name in env then env[name] else ""
  }

  /** `a || b` on strings that may be empty. */
  function OrElse(a: string, b: string): (r: string)
    ensures a != "" ==> r == a
    ensures a == "" ==> r == b
  {
    if a != "" then a else b
  }
}

=== FILE: js_values.dfy ===
/**
 * Values of parsed JSON request bodies and of parsed frontmatter, as the
 * handlers see them: truthiness, property reads, destructuring and `String(v)`
 * (the conversion a template literal and a computed property key apply).
 * Numbers are integers.
 */
module JsValues {
  import opened Wrappers
  import Strings

  /** An object is the list of its own enumerable properties, in order, each
      key once (the object after parsing, not the source text). */
  datatype Js =
    | Undefined
    | Null
    | Bool(b: bool)
    | Num(n: int)
    | Str(s: string)
    | Arr(items: seq<Js>)
    | Obj(fields: seq<(string, Js)>)

  /** JavaScript truthiness: what `if (v)` and `!v` test. */
  predicate Truthy(v: Js) {
    match v
    case Undefined => false
    case Null => false
    case Bool(b) => b
    case Num(n) => n != 0
    case Str(s) => s != ""
    case Arr(_) => true
    case Obj(_) => true
  }

  /** `a || b`: the first operand when it is truthy, else the second. */
  function Or(a: Js, b: Js): (r: Js)
    ensures Truthy(a) ==> r == a
    ensures !Truthy(a) ==> r == b
  {
    if Truthy(a) then a else b
  }

  function Lookup(fields: seq<(string, Js)>, k: string): (r: Js)
    ensures r != Undefined ==> exists i :: 0 <= i < |fields| && fields[i] == (k, r)
    ensures (forall i :: 0 <= i < |fields| ==> fields[i].0 != k) ==> r == Undefined
  {
    if |fields| == 0 then Undefined
    else if fields[0].0 == k then fields[0].1
    else
      var r := Lookup(fields[1..], k);
      assert r != Undefined ==> exists i :: 0 < i < |fields| && fields[i] == (k, r) by {
        if r != Undefined {
          var i :| 0 <= i < |fields[1..]| && fields[1..][i] == (k, r);
          assert fields[i + 1] == (k, r);
        }
      }
      r
  }

  /** `v.k` on a parsed value: only objects carry the fields the handlers read. */
  function Get(v: Js, k: string): Js {
    if v.Obj? then Lookup(v.fields, k) else Undefined
  }

  /** `const { k } = v`: destructuring throws on `null` and `undefined`
      (`None`), and otherwise reads the property. */
  function Destructure(v: Js, k: string): (r: Option<Js>)
    ensures r.None? <==> (v == Null || v == Undefined)
    ensures r.Some? ==> r.value == Get(v, k)
  {
    if v == Null || v == Undefined then None else Some(Get(v, k))
  }

  /** The object has an own property named `k`. */
  predicate HasOwn(fields: seq<(string, Js)>, k: string) {
    exists i :: 0 <= i < |fields| && fields[i].0 == k
  }

  /** `String(v)` throws a `TypeError`. A parsed value holds no functions,
      so an object with an own `toString` has nothing callable under that
      name, and the inherited `valueOf` returns the object itself: no
      primitive is found (OrdinaryToPrimitive, section 7.1.1.1 of
      ECMA-262). An array throws when one of its elements does. */
  predicate StringThrows(v: Js) {
    match v
    case Obj(fields) => HasOwn(fields, "toString")
    case Arr(items) => exists x :: x in items && StringThrows(x)
    case _ => false
  }

  /** `String(v)`, `None` when it throws. Arrays join their elements with
      "," and render `null` and `undefined` elements as empty; every other
      object is "[object Object]". */
  function ToJsString(v: Js): (r: Option<string>)
    ensures r.None? <==> StringThrows(v)
    ensures v.Str? ==> r == Some(v.s)
    ensures v.Obj? && !StringThrows(v) ==> r == Some("[object Object]")
    decreases v, 1
  {
    match v
    case Undefined => Some("undefined")
    case Null => Some("null")
    case Bool(b) => Some(if b then "true" else "false")
    case Num(n) => Some(Strings.IntToString(n))
    case Str(s) => Some(s)
    case Arr(items) => JoinItems(v, items)
    case Obj(fields) => if HasOwn(fields, "toString") then None else Some("[object Object]")
  }

  /** `items.join(",")`, `None` when converting an element throws. */
  function JoinItems(ghost parent: Js, items: seq<Js>): (r: Option<string>)
    requires parent.Arr? && items <= parent.items
    ensures r.None? <==> exists x :: x in items && StringThrows(x)
    decreases parent, 0, |items|
  {
    if |items| == 0 then Some("")
    else
      var init, last := items[..|items| - 1], items[|items| - 1];
      assert forall x :: x in items <==> x in init || x == last by {
        assert items == init + [last];
      }
      assert last in parent.items;
      var piece := if last == Null || last == Undefined then Some("") else ToJsString(last);
      assert piece.None? <==> StringThrows(last);
      assert last in items;
      if |items| == 1 then
        assert init == [];
        piece
      else
        var front := JoinItems(parent, init);
        if front.None? || piece.None? then None else Some(front.value + "," + piece.value)
  }
}

=== FILE: manage_route.dfy ===
/**
 * `/api/subscribers/manage?token=…` (app/api/subscribers/manage/route.ts):
 * the subscription page behind a manage token (GET) and the unsubscribe
 * action (POST with `action=unsubscribe`). The page only shows; the action
 * only ever moves a record to `unsubscribed`, and saves before it emails.
 */
module ManageRoute {
  import opened Wrappers
  import opened SubscriberModel
  import opened Database
  import opened Environment
  import SubscriberTokens
  import SiteUrl

  /** The text the page shows for a status. */
  function StatusLabel(s: Status): string {
    match s
    case Active => "\U{2705} Active"
    case Pending => "\U{23F3} Pending confirmation"
    case Unsubscribed => "\U{274C} Unsubscribed"
  }

  /** What GET answers. */
  datatype ManagePage =
    | MissingToken
    | InvalidToken
    | NotFound
    | ServerError
    | StatusPage(email: string, status: Status, statusText: string, unsubscribeUrl: Option<string>)

  function PageStatusCode(pg: ManagePage): int {
    match pg
    case MissingToken => 400
    case InvalidToken => 403
    case NotFound => 404
    case ServerError => 500
    case StatusPage(_, _, _, _) => 200
  }

  /** The one-click link the page offers to active subscribers; the token
      is put in as it is. */
  function UnsubscribeUrl(base: string, token: string): string {
    base + "/api/subscribers/manage?token=" + token + "&action=unsubscribe"
  }

  /** The `token` parameter is present and truthy. */
  predicate HasToken(token: Option<string>) {
    token.Some? && token.value != ""
  }

  /** The subscriber id a present token verifies to, if it does. */
  function TokenId(p: SubscriberTokens.Primitives, env: Env, token: Option<string>): Option<string> {
    if !HasToken(token) then None
    else
      match SubscriberTokens.VerifyManageToken(p, env, token.value)
      case Success(Some(id)) => Some(id)
      case _ => None
  }

  /** The position of the record the request is about: the token verifies,
      the store can be read, and a record has the token's id. */
  function Target(p: SubscriberTokens.Primitives, env: Env, token: Option<string>, st: Store, io: DbIo): Option<nat> {
    var id := TokenId(p, env, token);
    if id.None? || !io.ReadsOk() then None else FindById(st, id.value)
  }

  /** GET. `action` is the query's `action` parameter, which GET never
      reads. */
  function ManageGet(p: SubscriberTokens.Primitives, env: Env, h: SiteUrl.Headers, token: Option<string>,
                     action: Option<string>, st: Store, io: DbIo): (pg: ManagePage)
    ensures pg == MissingToken <==> !HasToken(token)
    ensures pg == InvalidToken <==>
      HasToken(token) && SubscriberTokens.VerifyManageToken(p, env, token.value) == Success(None)
    ensures pg == ServerError <==>
      HasToken(token) && (SubscriberTokens.VerifyManageToken(p, env, token.value).Failure?
        || (TokenId(p, env, token).Some? && !io.ReadsOk()))
    ensures pg == NotFound <==>
      TokenId(p, env, token).Some? && io.ReadsOk() && FindById(st, TokenId(p, env, token).value).None?
    ensures pg.StatusPage? <==> Target(p, env, token, st, io).Some?
    ensures pg.StatusPage? ==>
      && HasToken(token)
      && SubscriberTokens.VerifyManageToken(p, env, token.value).Success?
      && var id := SubscriberTokens.VerifyManageToken(p, env, token.value).value;
      && id.Some?
      && exists j :: 0 <= j < |st| && st[j].id == id.value && st[j].email == pg.email && st[j].status == pg.status
    ensures pg.StatusPage? ==> pg.statusText == StatusLabel(pg.status)
    ensures pg.StatusPage? ==> (pg.unsubscribeUrl.Some? <==> pg.status == Active)
    ensures pg.StatusPage? && pg.unsubscribeUrl.Some? ==>
      pg.unsubscribeUrl.value == UnsubscribeUrl(SiteUrl.GetRequestBaseUrl(h, env), token.value)
  {
    if !HasToken(token) then MissingToken
    else
      match SubscriberTokens.VerifyManageToken(p, env, token.value)
      case Failure(_) => ServerError
      case Success(None) => InvalidToken
      case Success(Some(id)) =>
        if !io.ReadsOk() then ServerError
        else
          match FindById(st, id)
          case None => NotFound
          case Some(i) =>
            var s := st[i];
            var link := if s.status == Active then Some(UnsubscribeUrl(SiteUrl.GetRequestBaseUrl(h, env), token.value)) else None;
            StatusPage(s.email, s.status, StatusLabel(s.status), link)
  }

  /** Opening the page is read-only, and a GET carrying the link's
      `action=unsubscribe` shows the same page as one without it. */
  lemma ManageGetIgnoresAction(p: SubscriberTokens.Primitives, env: Env, h: SiteUrl.Headers, token: Option<string>,
                               a1: Option<string>, a2: Option<string>, st: Store, io: DbIo)
    ensures ManageGet(p, env, h, token, a1, st, io) == ManageGet(p, env, h, token, a2, st, io)
  {
  }

  /** A manage token issued for a stored record opens that record's page. */
  lemma IssuedTokenOpensPage(p: SubscriberTokens.Primitives, env: Env, h: SiteUrl.Headers, action: Option<string>,
                             st: Store, io: DbIo, j: nat)
    requires SubscriberTokens.RequireSecret(env).Success? && io.ReadsOk()
    requires ValidStore(st) && j < |st| && st[j].id != "" && '.' !in st[j].id
    ensures var token := SubscriberTokens.CreateManageToken(p, env, st[j].id).value;
      ManageGet(p, env, h, Some(token), action, st, io)
        == StatusPage(st[j].email, st[j].status, StatusLabel(st[j].status),
                      if st[j].status == Active then Some(UnsubscribeUrl(SiteUrl.GetRequestBaseUrl(h, env), token)) else None)
  {
    SubscriberTokens.ManageTokenRoundTrip(p, env, st[j].id);
    var i := FindById(st, st[j].id).value;
    assert i == j;
  }

  /** What POST answers. */
  datatype PostReply =
    | PostMissingToken
    | PostInvalidToken
    | PostNotFound
    | AlreadyUnsubscribed
    | UnsubscribedPage
    | InvalidAction
    | PostServerError

  function PostStatusCode(r: PostReply): int {
    match r
    case PostMissingToken => 400
    case PostInvalidToken => 403
    case PostNotFound => 404
    case AlreadyUnsubscribed => 200
    case UnsubscribedPage => 200
    case InvalidAction => 400
    case PostServerError => 500
  }

  /** The arguments of `sendUnsubscribedEmail`. */
  datatype UnsubscribeMail = UnsubscribeMail(to: string, resubscribeUrl: string)

  /** Whether sending succeeds: lib/subscriberEmails.ts and lib/resend.ts
      throw when `RESEND_FROM_EMAIL` or `RESEND_API_KEY` is unset, and when
      the API does not accept the message (`accepted`). */
  predicate MailSucceeds(env: Env, accepted: bool) {
    Var(env, "RESEND_FROM_EMAIL") != "" && Var(env, "RESEND_API_KEY") != "" && accepted
  }

  /** The record after unsubscribing. */
  function Unsubscribed(s: Subscriber, now: Time): Subscriber {
    s.(status := SubscriberModel.Unsubscribed, unsubscribedAt := Some(now))
  }

  /** The record `j` of `st`, with id `id` and not yet unsubscribed, is
      saved as unsubscribed at `now`, giving `after`, and the goodbye mail
      goes to its address. */
  predicate UnsubscribesAt(st: Store, j: int, id: string, now: Time, after: Store,
                           mail: Option<UnsubscribeMail>, base: string) {
    && 0 <= j < |st| && st[j].id == id && st[j].status != SubscriberModel.Unsubscribed
    && after == Save(st, j, Unsubscribed(st[j], now), now)
    && mail == Some(UnsubscribeMail(st[j].email, base + "/newsletter"))
  }

  ghost predicate UnsubscribesRecord(st: Store, id: string, now: Time, after: Store,
                                     mail: Option<UnsubscribeMail>, base: string) {
    exists j :: UnsubscribesAt(st, j, id, now, after, mail, base)
  }

  datatype PostOutcome = PostOutcome(reply: PostReply, store: Store, mail: Option<UnsubscribeMail>)

  /** POST. `accepted` is whether the mail API takes the message. */
  function ManagePost(p: SubscriberTokens.Primitives, env: Env, h: SiteUrl.Headers, token: Option<string>,
                      action: Option<string>, st: Store, now: Time, io: DbIo, accepted: bool): (o: PostOutcome)
    ensures o.reply == PostMissingToken <==> !HasToken(token)
    ensures o.reply == PostInvalidToken <==>
      HasToken(token) && SubscriberTokens.VerifyManageToken(p, env, token.value) == Success(None)
    ensures o.reply == PostNotFound <==>
      TokenId(p, env, token).Some? && io.ReadsOk() && FindById(st, TokenId(p, env, token).value).None?
    ensures o.reply == InvalidAction <==>
      Target(p, env, token, st, io).Some? && action != Some("unsubscribe")
    ensures o.reply == AlreadyUnsubscribed <==>
      && Target(p, env, token, st, io).Some? && action == Some("unsubscribe")
      && st[Target(p, env, token, st, io).value].status == SubscriberModel.Unsubscribed
    ensures o.store != st <==>
      && Target(p, env, token, st, io).Some? && action == Some("unsubscribe")
      && st[Target(p, env, token, st, io).value].status != SubscriberModel.Unsubscribed
      && io.WritesOk()
    ensures o.store != st ==>
      var i := Target(p, env, token, st, io).value;
      && o.store == Save(st, i, Unsubscribed(st[i], now), now)
      && o.mail == Some(UnsubscribeMail(st[i].email, SiteUrl.GetRequestBaseUrl(h, env) + "/newsletter"))
    ensures o.store != st ==>
      && action == Some("unsubscribe") && HasToken(token)
      && SubscriberTokens.VerifyManageToken(p, env, token.value).Success?
      && SubscriberTokens.VerifyManageToken(p, env, token.value).value.Some?
      && UnsubscribesRecord(st, SubscriberTokens.VerifyManageToken(p, env, token.value).value.value, now,
           o.store, o.mail, SiteUrl.GetRequestBaseUrl(h, env))
    ensures o.store == st ==> o.mail.None?
    ensures o.reply == UnsubscribedPage <==> o.store != st && MailSucceeds(env, accepted)
    ensures o.reply == AlreadyUnsubscribed ==> o.store == st
    ensures ValidStore(st) ==> ValidStore(o.store)
  {
    if !HasToken(token) then PostOutcome(PostMissingToken, st, None)
    else
      match SubscriberTokens.VerifyManageToken(p, env, token.value)
      case Failure(_) => PostOutcome(PostServerError, st, None)
      case Success(None) => PostOutcome(PostInvalidToken, st, None)
      case Success(Some(id)) =>
        if !io.ReadsOk() then PostOutcome(PostServerError, st, None)
        else
          match FindById(st, id)
          case None => PostOutcome(PostNotFound, st, None)
          case Some(i) =>
            var s := st[i];
            if action != Some("unsubscribe") then PostOutcome(InvalidAction, st, None)
            else if s.status == SubscriberModel.Unsubscribed then PostOutcome(AlreadyUnsubscribed, st, None)
            else if !io.WritesOk() then PostOutcome(PostServerError, st, None)
            else
              var st' := Save(st, i, Unsubscribed(s, now), now);
              assert st'[i] != st[i];
              assert ValidStore(st) ==> ValidStore(st') by {
                if ValidStore(st) {
                  SaveKeepsValid(st, i, Unsubscribed(s, now), now);
                }
              }
              var mail := Some(UnsubscribeMail(s.email, SiteUrl.GetRequestBaseUrl(h, env) + "/newsletter"));
              assert UnsubscribesRecord(st, id, now, st', mail, SiteUrl.GetRequestBaseUrl(h, env)) by {
                assert st[i].id == id;
                assert UnsubscribesAt(st, i, id, now, st', mail, SiteUrl.GetRequestBaseUrl(h, env));
              }
              if MailSucceeds(env, accepted) then PostOutcome(UnsubscribedPage, st', mail)
              else PostOutcome(PostServerError, st', mail)
  }

  /** A manage token issued for a stored, subscribed record unsubscribes
      exactly that record when the store can be written, and mails it;
      the answer is 500 only when the mail fails. */
  lemma IssuedTokenUnsubscribes(p: SubscriberTokens.Primitives, env: Env, h: SiteUrl.Headers,
                                st: Store, now: Time, io: DbIo, accepted: bool, j: nat)
    requires SubscriberTokens.RequireSecret(env).Success? && io.ReadsOk() && io.WritesOk()
    requires ValidStore(st) && j < |st| && st[j].id != "" && '.' !in st[j].id
    requires st[j].status != SubscriberModel.Unsubscribed
    ensures var token := SubscriberTokens.CreateManageToken(p, env, st[j].id).value;
      var o := ManagePost(p, env, h, Some(token), Some("unsubscribe"), st, now, io, accepted);
      && o.store == Save(st, j, Unsubscribed(st[j], now), now)
      && o.mail == Some(UnsubscribeMail(st[j].email, SiteUrl.GetRequestBaseUrl(h, env) + "/newsletter"))
      && o.reply == (if MailSucceeds(env, accepted) then UnsubscribedPage else PostServerError)
  {
    SubscriberTokens.ManageTokenRoundTrip(p, env, st[j].id);
    var i := FindById(st, st[j].id).value;
    assert i == j;
  }

  /** Unsubscribing twice changes nothing the second time and sends no
      second email. */
  lemma UnsubscribeIsIdempotent(p: SubscriberTokens.Primitives, env: Env, h: SiteUrl.Headers, token: Option<string>,
                                st: Store, now: Time, io: DbIo, accepted: bool, later: Time, io2: DbIo, accepted2: bool)
    requires ValidStore(st)
    requires io2.ReadsOk()
    requires ManagePost(p, env, h, token, Some("unsubscribe"), st, now, io, accepted).store != st
    ensures var st' := ManagePost(p, env, h, token, Some("unsubscribe"), st, now, io, accepted).store;
      ManagePost(p, env, h, token, Some("unsubscribe"), st', later, io2, accepted2) == PostOutcome(AlreadyUnsubscribed, st', None)
  {
    var id := SubscriberTokens.VerifyManageToken(p, env, token.value).value.value;
    var st' := ManagePost(p, env, h, token, Some("unsubscribe"), st, now, io, accepted).store;
    var j :| UnsubscribesAt(st, j, id, now, st', ManagePost(p, env, h, token, Some("unsubscribe"), st, now, io, accepted).mail,
      SiteUrl.GetRequestBaseUrl(h, env));
    var i := FindById(st', id).value;
    assert st'[j].id == id;
    assert i == j;
  }

  /** The record is saved before the email is sent: when sending fails the
      caller sees 500, yet the subscriber is unsubscribed. */
  lemma MailFailureStillUnsubscribes(p: SubscriberTokens.Primitives, env: Env, h: SiteUrl.Headers, token: Option<string>,
                                     st: Store, now: Time, io: DbIo, accepted: bool)
    requires ManagePost(p, env, h, token, Some("unsubscribe"), st, now, io, accepted).store != st
    requires !MailSucceeds(env, accepted)
    ensures var o := ManagePost(p, env, h, token, Some("unsubscribe"), st, now, io, accepted);
      o.reply == PostServerError && o.mail.Some?
      && exists j :: 0 <= j < |o.store| && o.store[j].status == SubscriberModel.Unsubscribed && o.store[j].unsubscribedAt == Some(now)
  {
    var o := ManagePost(p, env, h, token, Some("unsubscribe"), st, now, io, accepted);
    var id := SubscriberTokens.VerifyManageToken(p, env, token.value).value.value;
    var j :| UnsubscribesAt(st, j, id, now, o.store, o.mail, SiteUrl.GetRequestBaseUrl(h, env));
    assert o.store[j].status == SubscriberModel.Unsubscribed;
  }
}

=== FILE: mdx_normalize.dfy ===
/**
 * The text clean-up of `lib/mdx.ts`: `normalizeEncodingArtifacts`, a fixed
 * chain of nineteen `replaceAll` steps that repairs UTF-8 text mis-decoded as
 * Windows-1252, and `normalizeDeep`, which applies it to every string inside
 * parsed frontmatter.
 *
 * The patterns are written here code point by code point, as they stand in
 * the source bytes. Two of them hold an invisible C1 control character
 * U+009D: the second step ("a-circumflex, euro sign, U+009D") and the
 * thirteenth ("euro sign, U+009D"), the latter being exactly the pattern of
 * the eleventh step, written there with a `\u009d` escape.
 */
module MdxNormalize {
  import opened Strings
  import opened JsValues

  /** Lines 19-27: single mis-decoding, where each typographic character
      became "a-circumflex, euro sign, x" (or "a-circumflex, dagger, x"). */
  function RepairSingleMojibake(s: string): string {
    var s := ReplaceAll(s, "\U{E2}\U{20AC}\U{153}", "\U{201C}");   // line 19
    var s := ReplaceAll(s, "\U{E2}\U{20AC}\U{9D}", "\U{201D}");    // line 20
    var s := ReplaceAll(s, "\U{E2}\U{20AC}\U{2DC}", "\U{2018}");   // line 21
    var s := ReplaceAll(s, "\U{E2}\U{20AC}\U{2122}", "\U{2019}");  // line 22
    var s := ReplaceAll(s, "\U{E2}\U{20AC}\U{201D}", "\U{2014}");  // line 23
    var s := ReplaceAll(s, "\U{E2}\U{20AC}\U{201C}", "\U{2013}");  // line 24
    var s := ReplaceAll(s, "\U{E2}\U{20AC}\U{A6}", "\U{2026}");    // line 25
    var s := ReplaceAll(s, "\U{E2}\U{20AC}\U{A2}", "\U{2022}");    // line 26
    ReplaceAll(s, "\U{E2}\U{2020}\U{2019}", "\U{2192}")             // line 27
  }

  /** Lines 29-36: the "double mojibake" variants, where only the euro sign
      and the last character are left. */
  function RepairDoubleMojibake(s: string): string {
    var s := ReplaceAll(s, "\U{20AC}\U{153}", "\U{201C}");   // line 29
    var s := ReplaceAll(s, "\U{20AC}\U{9D}", "\U{201D}");    // line 30
    var s := ReplaceAll(s, "\U{20AC}\U{9C}", "\U{201C}");    // line 31
    var s := ReplaceAll(s, "\U{20AC}\U{9D}", "\U{201D}");    // line 32
    RepairDoubleMojibakeTail(s)
  }

  /** Lines 33-36. */
  function RepairDoubleMojibakeTail(s: string): string {
    var s := ReplaceAll(s, "\U{20AC}\U{2DC}", "\U{2018}");   // line 33
    var s := ReplaceAll(s, "\U{20AC}\U{2122}", "\U{2019}");  // line 34
    var s := ReplaceAll(s, "\U{20AC}\U{201D}", "\U{2014}");  // line 35
    ReplaceAll(s, "\U{20AC}\U{201C}", "\U{2013}")             // line 36
  }

  /** `normalizeEncodingArtifacts`: the whole chain in source order. No
      U+00C2 survives it, because the last step deletes every one. */
  function NormalizeEncodingArtifacts(s: string): (r: string)
    ensures '\U{C2}' !in r
  {
    var s := RepairDoubleMojibake(RepairSingleMojibake(s));
    var s := ReplaceAll(s, "\U{2020}\U{2019}", "\U{2192}");   // line 38
    ReplaceAllRemovesChar(s, '\U{C2}', "");
    ReplaceAll(s, "\U{C2}", "")                                  // line 40
  }

  predicate IsAscii(s: string) {
    forall i :: 0 <= i < |s| ==> s[i] < '\U{80}'
  }

  /** A pattern that starts with a non-ASCII character never fires on ASCII
      text. */
  lemma AsciiStep(s: string, p: string, r: string)
    requires IsAscii(s) && |p| > 0 && p[0] >= '\U{80}'
    ensures ReplaceAll(s, p, r) == s
  {
    forall i | 0 <= i <= |s| - |p| ensures !InfixAt(s, p, i) {
      assert s[i..i + |p|][0] == s[i];
    }
    ReplaceAllAbsent(s, p, r);
  }

  /** Every pattern of the chain starts with a non-ASCII character, so pure
      ASCII text passes through unchanged. */
  lemma NormalizeAsciiUnchanged(s: string)
    requires IsAscii(s)
    ensures NormalizeEncodingArtifacts(s) == s
  {
    AsciiStep(s, "\U{E2}\U{20AC}\U{153}", "\U{201C}");
    AsciiStep(s, "\U{E2}\U{20AC}\U{9D}", "\U{201D}");
    AsciiStep(s, "\U{E2}\U{20AC}\U{2DC}", "\U{2018}");
    AsciiStep(s, "\U{E2}\U{20AC}\U{2122}", "\U{2019}");
    AsciiStep(s, "\U{E2}\U{20AC}\U{201D}", "\U{2014}");
    AsciiStep(s, "\U{E2}\U{20AC}\U{201C}", "\U{2013}");
    AsciiStep(s, "\U{E2}\U{20AC}\U{A6}", "\U{2026}");
    AsciiStep(s, "\U{E2}\U{20AC}\U{A2}", "\U{2022}");
    AsciiStep(s, "\U{E2}\U{2020}\U{2019}", "\U{2192}");
    assert RepairSingleMojibake(s) == s;
    AsciiStep(s, "\U{20AC}\U{153}", "\U{201C}");
    AsciiStep(s, "\U{20AC}\U{9D}", "\U{201D}");
    AsciiStep(s, "\U{20AC}\U{9C}", "\U{201C}");
    AsciiStep(s, "\U{20AC}\U{2DC}", "\U{2018}");
    AsciiStep(s, "\U{20AC}\U{2122}", "\U{2019}");
    AsciiStep(s, "\U{20AC}\U{201D}", "\U{2014}");
    AsciiStep(s, "\U{20AC}\U{201C}", "\U{2013}");
    assert RepairDoubleMojibakeTail(s) == s;
    assert RepairDoubleMojibake(s) == s;
    AsciiStep(s, "\U{2020}\U{2019}", "\U{2192}");
    AsciiStep(s, "\U{C2}", "");
  }

  // ---------------------------------------------------------------------------
  // The thirteenth step (line 32) can never change anything.

  /** No `a` immediately followed by `b`. */
  predicate PairFree(s: string, a: char, b: char) {
    forall i :: 0 <= i < |s| - 1 ==> !(s[i] == a && s[i + 1] == b)
  }

  lemma PairFreeNoInfix(s: string, a: char, b: char)
    requires PairFree(s, a, b)
    ensures !HasInfix(s, [a, b])
  {
    forall i | 0 <= i <= |s| - 2 ensures !InfixAt(s, [a, b], i) {
      assert s[i..i + 2][0] == s[i] && s[i..i + 2][1] == s[i + 1];
    }
  }

  lemma PairFreeConcat(x: string, y: string, a: char, b: char)
    requires PairFree(x, a, b) && PairFree(y, a, b)
    requires |x| == 0 || |y| == 0 || !(x[|x| - 1] == a && y[0] == b)
    ensures PairFree(x + y, a, b)
  {
    forall i | 0 <= i < |x + y| - 1 ensures !((x + y)[i] == a && (x + y)[i + 1] == b) {
      if i + 1 < |x| {
      } else if i + 1 == |x| {
      } else {
        assert (x + y)[i] == y[i - |x|];
      }
    }
  }

  /** The first character of a replacement result. */
  lemma ReplaceAllHead(t: string, p: string, r: string)
    requires |p| > 0 && |r| > 0 && |t| > 0
    ensures |ReplaceAll(t, p, r)| > 0
    ensures ReplaceAll(t, p, r)[0] == (if |t| >= |p| && t[..|p|] == p then r[0] else t[0])
  {
  }

  /** Replacement text free of `a` and `b` never creates an `a`,`b` pair. */
  lemma {:induction false} ReplaceAllKeepsPairFree(s: string, p: string, r: string, a: char, b: char)
    requires |p| > 0 && |r| > 0 && a !in r && b !in r
    requires PairFree(s, a, b)
    ensures PairFree(ReplaceAll(s, p, r), a, b)
    decreases |s|
  {
    if |s| >= |p| {
      if s[..|p|] == p {
        ReplaceAllKeepsPairFree(s[|p|..], p, r, a, b);
        PairFreeConcat(r, ReplaceAll(s[|p|..], p, r), a, b);
      } else {
        ReplaceAllKeepsPairFree(s[1..], p, r, a, b);
        if |s| > 1 {
          ReplaceAllHead(s[1..], p, r);
        }
        PairFreeConcat([s[0]], ReplaceAll(s[1..], p, r), a, b);
      }
    }
  }

  /** Replacing the pair `a`,`b` by text free of both leaves no such pair. */
  lemma {:induction false} ReplacePairLeavesNone(s: string, a: char, b: char, r: string)
    requires |r| > 0 && a !in r && b !in r
    ensures PairFree(ReplaceAll(s, [a, b], r), a, b)
    decreases |s|
  {
    if |s| >= 2 {
      if s[..2] == [a, b] {
        ReplacePairLeavesNone(s[2..], a, b, r);
        PairFreeConcat(r, ReplaceAll(s[2..], [a, b], r), a, b);
      } else {
        ReplacePairLeavesNone(s[1..], a, b, r);
        if |s| > 1 {
          ReplaceAllHead(s[1..], [a, b], r);
          assert !(s[0] == a && s[1] == b) by { assert s[..2] == [s[0], s[1]]; }
        }
        PairFreeConcat([s[0]], ReplaceAll(s[1..], [a, b], r), a, b);
      }
    }
  }

  /** A euro sign outside the listed two-character sequences is kept:
      the chain removes euro signs only as part of those sequences. */
  lemma PriceTextKeepsEuroSign()
    ensures NormalizeEncodingArtifacts("5\U{20AC}") == "5\U{20AC}"
  {
    EuroAfterPlainChar('5');
  }

  /** A euro sign after a character that starts none of the patterns is
      kept. */
  lemma EuroAfterPlainChar(d: char)
    requires d != '\U{E2}' && d != '\U{20AC}' && d != '\U{2020}' && d != '\U{C2}'
    ensures NormalizeEncodingArtifacts([d, '\U{20AC}']) == [d, '\U{20AC}']
  {
    var s := [d, '\U{20AC}'];
    assert RepairDoubleMojibake(RepairSingleMojibake(s)) == s by {
      forall p: string, r: string | |p| >= 2 && p[0] != d ensures ReplaceAll(s, p, r) == s {
        ReplaceAllShort(s, p, r);
      }
      assert RepairSingleMojibake(s) == s;
      assert RepairDoubleMojibakeTail(s) == s;
    }
    assert ReplaceAll(s, "\U{2020}\U{2019}", "\U{2192}") == s by {
      ReplaceAllShort(s, "\U{2020}\U{2019}", "\U{2192}");
    }
    assert ReplaceAll(s, "\U{C2}", "") == s by {
      assert s[1..] == ['\U{20AC}'];
      ReplaceAllShort(s[1..], "\U{C2}", "");
    }
  }

  /** On text no longer than the pattern, `replaceAll` fires only on the
      pattern itself. */
  lemma ReplaceAllShort(s: string, p: string, r: string)
    requires 0 < |p| && |s| <= |p|
    ensures ReplaceAll(s, p, r) == if s == p then r else s
  {
    if |s| == |p| && s != p {
      assert s[..|p|] == s;
      assert ReplaceAll(s[1..], p, r) == s[1..];
    }
  }

  /** The mis-decoded right single quotation mark is repaired by line 22. */
  lemma RightQuoteRepaired()
    ensures NormalizeEncodingArtifacts("\U{E2}\U{20AC}\U{2122}") == "\U{2019}"
  {
    var s, q := "\U{E2}\U{20AC}\U{2122}", "\U{2019}";
    forall p: string, r: string | |p| >= 2 ensures ReplaceAll(q, p, r) == q {
      ReplaceAllShort(q, p, r);
    }
    assert RepairSingleMojibake(s) == q by {
      forall p: string, r: string | |p| == 3 && p != s ensures ReplaceAll(s, p, r) == s {
        ReplaceAllShort(s, p, r);
      }
      ReplaceAllShort(s, s, q);
    }
    assert RepairDoubleMojibake(q) == q by {
      assert RepairDoubleMojibakeTail(q) == q;
    }
    assert ReplaceAll(q, "\U{C2}", "") == q by {
      ReplaceAllShort(q, "\U{C2}", "");
    }
  }

  /** Lines 29-36 with line 32 left out. */
  function RepairDoubleMojibakeWithoutLine32(s: string): string {
    var s := ReplaceAll(s, "\U{20AC}\U{153}", "\U{201C}");   // line 29
    var s := ReplaceAll(s, "\U{20AC}\U{9D}", "\U{201D}");    // line 30
    var s := ReplaceAll(s, "\U{20AC}\U{9C}", "\U{201C}");    // line 31
    RepairDoubleMojibakeTail(s)
  }

  /** Line 32 repeats the pattern of line 30 with only line 31 in between,
      and neither replacement text holds a euro sign or U+009D: it never
      fires, and the chain without it gives the same result on every input. */
  lemma Line32IsDead(s: string)
    ensures RepairDoubleMojibake(s) == RepairDoubleMojibakeWithoutLine32(s)
  {
    var euro, c9d := '\U{20AC}', '\U{9D}';
    var t := ReplaceAll(s, "\U{20AC}\U{153}", "\U{201C}");
    var u := ReplaceAll(t, [euro, c9d], "\U{201D}");
    ReplacePairLeavesNone(t, euro, c9d, "\U{201D}");
    var v := ReplaceAll(u, [euro, '\U{9C}'], "\U{201C}");
    ReplaceAllKeepsPairFree(u, [euro, '\U{9C}'], "\U{201C}", euro, c9d);
    PairFreeNoInfix(v, euro, c9d);
    ReplaceAllAbsent(v, [euro, c9d], "\U{201D}");
  }

  // ---------------------------------------------------------------------------
  // normalizeDeep

  /** `normalizeDeep`: strings are normalised, arrays are mapped element by
      element, objects are rebuilt over the same keys, every other value
      (including `null`) is returned unchanged. */
  function NormalizeDeep(v: Js): (r: Js)
    ensures v.Str? ==> r == Str(NormalizeEncodingArtifacts(v.s))
    ensures v.Arr? ==> r.Arr? && |r.items| == |v.items|
    ensures v.Arr? ==> forall i :: 0 <= i < |v.items| ==> r.items[i] == NormalizeDeep(v.items[i])
    ensures v.Obj? ==> r.Obj? && |r.fields| == |v.fields|
    ensures v.Obj? ==> forall i :: 0 <= i < |v.fields| ==> r.fields[i].0 == v.fields[i].0
    ensures v.Obj? ==> forall i :: 0 <= i < |v.fields| ==> r.fields[i].1 == NormalizeDeep(v.fields[i].1)
    ensures !v.Str? && !v.Arr? && !v.Obj? ==> r == v
    decreases v, 1
  {
    match v
    case Str(s) => Str(NormalizeEncodingArtifacts(s))
    case Arr(items) => Arr(NormalizeItems(v, items))
    case Obj(fields) => Obj(NormalizeFields(v, fields))
    case _ => v
  }

  function NormalizeItems(ghost parent: Js, items: seq<Js>): (r: seq<Js>)
    requires parent.Arr? && items <= parent.items
    ensures |r| == |items|
    ensures forall i :: 0 <= i < |items| ==> r[i] == NormalizeDeep(items[i])
    decreases parent, 0, |items|
  {
    if |items| == 0 then []
    else
      var last := items[|items| - 1];
      assert last in parent.items;
      NormalizeItems(parent, items[..|items| - 1]) + [NormalizeDeep(last)]
  }

  function NormalizeFields(ghost parent: Js, fields: seq<(string, Js)>): (r: seq<(string, Js)>)
    requires parent.Obj? && fields <= parent.fields
    ensures |r| == |fields|
    ensures forall i :: 0 <= i < |fields| ==> r[i] == (fields[i].0, NormalizeDeep(fields[i].1))
    decreases parent, 0, |fields|
  {
    if |fields| == 0 then []
    else
      var last := fields[|fields| - 1];
      assert last in parent.fields;
      NormalizeFields(parent, fields[..|fields| - 1]) + [(last.0, NormalizeDeep(last.1))]
  }

  /** Every string held anywhere in `v` is ASCII. */
  predicate AsciiValue(v: Js)
    decreases v
  {
    match v
    case Str(s) => IsAscii(s)
    case Arr(items) => forall i :: 0 <= i < |items| ==> AsciiValue(items[i])
    case Obj(fields) => forall i :: 0 <= i < |fields| ==> AsciiValue(fields[i].1)
    case _ => true
  }

  /** Frontmatter without non-ASCII text is left exactly as it was parsed. */
  lemma {:induction false} NormalizeDeepAsciiFixed(v: Js)
    requires AsciiValue(v)
    ensures NormalizeDeep(v) == v
    decreases v
  {
    match v
    case Str(s) =>
      NormalizeAsciiUnchanged(s);
    case Arr(items) =>
      forall i | 0 <= i < |items| ensures NormalizeDeep(items[i]) == items[i] {
        NormalizeDeepAsciiFixed(items[i]);
      }
      assert NormalizeItems(v, items) == items;
    case Obj(fields) =>
      forall i | 0 <= i < |fields| ensures NormalizeDeep(fields[i].1) == fields[i].1 {
        assert fields[i].1 < v;
        NormalizeDeepAsciiFixed(fields[i].1);
      }
      assert NormalizeFields(v, fields) == fields;
    case _ =>
  }
}

=== FILE: news_sitemap.dfy ===
/**
 * `GET /news-sitemap.xml` (app/news-sitemap.xml/route.ts): one `<url>` per
 * post of the last thirty days, in the order of `getAllPosts`, with the
 * post's address, publication date, title, keywords and image.
 *
 * The document is modelled as the list of its `<url>` elements; the fixed
 * text around them is not. Date formatting is the parameter `iso`
 * (`toISOString` of a time value).
 */
module NewsSitemap {
  import opened Wrappers
  import opened Strings
  import opened Sorting
  import opened Posts
  import opened XmlText
  import opened SiteLinks

  /** `30 * 24 * 60 * 60 * 1000`. */
  const ThirtyDaysMs := 30 * 24 * 60 * 60 * 1000

  predicate IsRecent(lib: Library, now: int, p: Post) {
    now - lib.time(p.date) <= ThirtyDaysMs
  }

  /** The `filter` of the handler: posts no older than thirty days, future
      dates included, the boundary included, order kept. */
  function RecentPosts(lib: Library, now: int, posts: seq<Post>): (r: seq<Post>)
    ensures forall p :: p in r <==> p in posts && lib.time(p.date) >= now - ThirtyDaysMs
    ensures IsSubsequence(r, posts)
  {
    if |posts| == 0 then []
    else
      var rest := RecentPosts(lib, now, posts[1..]);
      assert posts == [posts[0]] + posts[1..];
      if IsRecent(lib, now, posts[0]) then
        assert ([posts[0]] + rest)[1..] == rest;
        [posts[0]] + rest
      else rest
  }

  /** `<image:loc>`: an address starting with "http" as it is, anything else
      appended to the site address. */
  function ImageLoc(image: string): (r: string)
    ensures "http" <= r
    ensures "http" <= image ==> r == image
  {
    if "http" <= image then image else SiteUrl + image
  }

  datatype Image = Image(loc: string, title: TextNode)

  /** One `<url>` element. */
  datatype NewsUrl = NewsUrl(
    loc: string,
    publicationDate: string,
    title: TextNode,
    keywords: string,
    image: Option<Image>)

  /** The element of a post whose title is written as `title`. An empty
      `image` is falsy and gives no image block. */
  function UrlWithTitle(lib: Library, iso: int -> string, p: Post, title: TextNode): NewsUrl {
    NewsUrl(
      ArticleUrl(SiteUrl, p.category, p.slug),
      iso(lib.time(p.date)),
      title,
      Join(p.tags, ", "),
      if p.image.Some? && p.image.value != "" then Some(Image(ImageLoc(p.image.value), title)) else None)
  }

  /** The element as the handler writes it: the escaped title inside a
      CDATA section. Inside CDATA the entities are not decoded, so a title
      holding `&`, `<` or `>` reaches readers with the entity text in it. */
  function UrlAsWritten(lib: Library, iso: int -> string, p: Post): (u: NewsUrl)
    ensures WellFormed(u.title)
    ensures ReadText(u.title) == p.title <==> ('&' !in p.title && '<' !in p.title && '>' !in p.title)
    ensures u.loc == ArticleUrl(SiteUrl, p.category, p.slug)
    ensures u.keywords == Join(p.tags, ", ")
    ensures u.image.Some? <==> p.image.Some? && p.image.value != ""
  {
    EscapedInCdataShowsEntities(p.title);
    UrlWithTitle(lib, iso, p, CData(EscapeMarkup(p.title)))
  }

  /** The title "Q&A" is published as "Q&amp;A". */
  lemma QandATitle()
    ensures ReadText(CData(EscapeMarkup("Q&A"))) == "Q&amp;A"
  {
    AmpersandShowsAsEntity("Q", "A");
    assert "Q" + "&" + "A" == "Q&A";
    assert "Q" + "&amp;" + "A" == "Q&amp;A";
  }

  /** Between text without markup characters, an `&` is published as
      `&amp;`. */
  lemma AmpersandShowsAsEntity(a: string, b: string)
    requires '&' !in a && '<' !in a && '>' !in a
    requires '&' !in b && '<' !in b && '>' !in b
    ensures ReadText(CData(EscapeMarkup(a + "&" + b))) == a + "&amp;" + b
  {
    var s := a + "&" + b;
    assert EscapeEach(s) == a + "&amp;" + b by {
      assert s == a + (['&'] + b);
      EscapeEachAppend(a, ['&'] + b);
      EscapeEachCons('&', b);
      EscapeChangesMarkup(a);
      EscapeChangesMarkup(b);
    }
    EscapeMarkupIsEach(s);
  }

  /** The element with the escaped title written as character data, which
      an XML processor decodes back to the title. */
  function UrlOf(lib: Library, iso: int -> string, p: Post): (u: NewsUrl)
    ensures WellFormed(u.title) && ReadText(u.title) == p.title
    ensures u.loc == ArticleUrl(SiteUrl, p.category, p.slug)
    ensures u.image.Some? <==> p.image.Some? && p.image.value != ""
    ensures u.image.Some? ==> ReadText(u.image.value.title) == p.title && "http" <= u.image.value.loc
  {
    EscapedReadsBack(p.title);
    UrlWithTitle(lib, iso, p, CharData(EscapeMarkup(p.title)))
  }

  /** The document as the handler writes it: the recent posts of `posts`
      (the list `getAllPosts` returns), one element each, in order, each
      title escaped inside CDATA. A title reads back as written only when
      it has no markup character. */
  function Sitemap(lib: Library, iso: int -> string, now: int, posts: seq<Post>): (r: seq<NewsUrl>)
    ensures |r| == |RecentPosts(lib, now, posts)|
    ensures forall i :: 0 <= i < |r| ==>
      && r[i].loc == ArticleUrl(SiteUrl, RecentPosts(lib, now, posts)[i].category, RecentPosts(lib, now, posts)[i].slug)
      && r[i].keywords == Join(RecentPosts(lib, now, posts)[i].tags, ", ")
      && WellFormed(r[i].title)
      && (ReadText(r[i].title) == RecentPosts(lib, now, posts)[i].title
          <==> var t := RecentPosts(lib, now, posts)[i].title; '&' !in t && '<' !in t && '>' !in t)
  {
    var recent := RecentPosts(lib, now, posts);
    seq(|recent|, i requires 0 <= i < |recent| => UrlAsWritten(lib, iso, recent[i]))
  }

  /** The document as intended: the same elements, with every title written
      as character data, so that each reads back as the post's title. */
  function IntendedSitemap(lib: Library, iso: int -> string, now: int, posts: seq<Post>): (r: seq<NewsUrl>)
    ensures |r| == |RecentPosts(lib, now, posts)|
    ensures forall i :: 0 <= i < |r| ==>
      && r[i].loc == ArticleUrl(SiteUrl, RecentPosts(lib, now, posts)[i].category, RecentPosts(lib, now, posts)[i].slug)
      && WellFormed(r[i].title)
      && ReadText(r[i].title) == RecentPosts(lib, now, posts)[i].title
  {
    var recent := RecentPosts(lib, now, posts);
    seq(|recent|, i requires 0 <= i < |recent| => UrlOf(lib, iso, recent[i]))
  }

  /** The two documents differ only in how titles are written. */
  lemma SitemapsDifferOnlyInTitles(lib: Library, iso: int -> string, now: int, posts: seq<Post>)
    ensures var a, b := Sitemap(lib, iso, now, posts), IntendedSitemap(lib, iso, now, posts);
      |a| == |b| && forall i :: 0 <= i < |a| ==>
        a[i].(title := b[i].title, image := None) == b[i].(image := None)
        && (a[i].image.Some? <==> b[i].image.Some?)
        && (a[i].image.Some? ==> a[i].image.value.loc == b[i].image.value.loc)
  {
  }
}

=== FILE: notify.dfy ===
/**
 * `/api/notify` (app/api/notify/route.ts): `POST` checks a breaking-news
 * notification and echoes it back; no push service is called. `GET`
 * reports which integrations have keys configured.
 */
module Notify {
  import opened Wrappers
  import opened JsValues
  import opened Environment

  datatype NotifyReply = Notified(title: Js, url: Js, timestamp: string) | FieldsRequired | NotifyFailed

  function ReplyStatus(r: NotifyReply): int {
    match r
    case Notified(_, _, _) => 200
    case FieldsRequired => 400
    case NotifyFailed => 500
  }

  /** The `POST` handler; `body` is the parsed JSON body (`None` when
      `req.json()` throws) and `stamp` the time as an ISO string. */
  function PostNotification(body: Option<Js>, stamp: string): (r: NotifyReply)
    ensures r == NotifyFailed <==> body.None? || body.value == Null || body.value == Undefined
    ensures r == FieldsRequired <==> (body.Some? && body.value != Null && body.value != Undefined
      && (!Truthy(Get(body.value, "title")) || !Truthy(Get(body.value, "url"))))
    ensures r.Notified? ==>
      && r.title == Get(body.value, "title") && Truthy(r.title)
      && r.url == Get(body.value, "url") && Truthy(r.url)
      && r.timestamp == stamp
  {
    if body.None? then NotifyFailed
    else
      match Destructure(body.value, "title")
      case None => NotifyFailed
      case Some(title) =>
        var url := Get(body.value, "url");
        if !Truthy(title) || !Truthy(url) then FieldsRequired
        else Notified(title, url, stamp)
  }

  /** `summary` and `category` are read but play no part in the reply. */
  lemma OnlyTitleAndUrlMatter(a: seq<(string, Js)>, b: seq<(string, Js)>, stamp: string)
    requires Lookup(a, "title") == Lookup(b, "title") && Lookup(a, "url") == Lookup(b, "url")
    ensures PostNotification(Some(Obj(a)), stamp) == PostNotification(Some(Obj(b)), stamp)
  {
  }

  datatype Integrations = Integrations(oneSignal: string, email: string, webPush: string)

  function Configured(key: string): (r: string)
    ensures r == "configured" <==> key != ""
  {
    if key != "" then "configured" else "not configured"
  }

  /** The integration report of `GET`. */
  function IntegrationStatus(env: Env): (r: Integrations)
    ensures r.oneSignal == "configured" <==> "ONESIGNAL_API_KEY" in env && env["ONESIGNAL_API_KEY"] != ""
    ensures r.email == "configured" <==> "RESEND_API_KEY" in env && env["RESEND_API_KEY"] != ""
    ensures r.webPush == "pending implementation"
  {
    Integrations(
      Configured(Var(env, "ONESIGNAL_API_KEY")),
      Configured(Var(env, "RESEND_API_KEY")),
      "pending implementation")
  }
}

=== FILE: posts.dfy ===
/**
 * The posts library (lib/mdx.ts): a post is one `.mdx` file under a
 * category directory, its frontmatter filled in with defaults; lists of
 * posts are sorted newest first; featured and related posts are prefixes of
 * such lists; the tag list is the sorted set of all tags.
 *
 * The directory listing, the file reads (with the frontmatter parser) and
 * date parsing are the parameters of a `Library`.
 */
module Posts {
  import opened Wrappers
  import opened Strings
  import opened Sorting
  import opened JsValues
  import Categories

  /** The frontmatter as the `PostFrontmatter` interface declares it, after
      `normalizeDeep`. Optional fields are `None` when absent; `priority`
      and `breaking` stay untyped because the loader checks their type, and
      `author` because it is either a name or an `Author` object. */
  datatype Frontmatter = Frontmatter(
    title: string,
    description: string,
    date: string,
    category: Option<string>,
    tags: Option<seq<string>>,
    author: Js,
    featured: Option<bool>,
    priority: Js,
    breaking: Js,
    summary: Option<string>,
    image: Option<string>)

  datatype Post = Post(
    slug: string,
    title: string,
    description: string,
    date: string,
    category: string,
    tags: seq<string>,
    author: Js,
    featured: bool,
    priority: Option<int>,
    breaking: bool,
    summary: Option<string>,
    image: Option<string>)

  const DefaultAuthor := "Tech-Knowlogia Team"

  /** `a || b` for an optional string: absent and empty both fall back. */
  function OrString(a: Option<string>, b: string): (r: string)
    ensures a.Some? && a.value != "" ==> r == a.value
    ensures a.None? || a.value == "" ==> r == b
  {
    if a.Some? && a.value != "" then a.value else b
  }

  /** The post object `getPostBySlug` builds from the frontmatter of
      `<dir>/<slug>.mdx`. */
  function FromFrontmatter(slug: string, dir: string, fm: Frontmatter): (p: Post)
    ensures p.slug == slug && p.title == fm.title && p.description == fm.description && p.date == fm.date
    ensures fm.category.Some? && fm.category.value != "" ==> p.category == fm.category.value
    ensures fm.category.None? || fm.category.value == "" ==> p.category == dir
    ensures p.tags == fm.tags.GetOr([])
    ensures Truthy(p.author)
    ensures Truthy(fm.author) ==> p.author == fm.author
    ensures !Truthy(fm.author) ==> p.author == Str(DefaultAuthor)
    ensures p.summary == fm.summary && p.image == fm.image
    ensures p.featured <==> fm.featured == Some(true)
    ensures p.priority.Some? <==> fm.priority.Num?
    ensures p.priority.Some? ==> fm.priority == Num(p.priority.value)
    ensures p.breaking <==> fm.breaking == Bool(true)
  {
    Post(
      slug, fm.title, fm.description, fm.date,
      OrString(fm.category, dir),
      fm.tags.GetOr([]),
      Or(fm.author, Str(DefaultAuthor)),
      fm.featured.GetOr(false),
      if fm.priority.Num? then Some(fm.priority.n) else None,
      fm.breaking == Bool(true),
      fm.summary, fm.image)
  }

  /** A frontmatter with only the required fields gets every default, and
      look-alike values of `priority` and `breaking` are dropped. */
  lemma BareFrontmatterDefaults(slug: string, dir: string, title: string, description: string, date: string)
    ensures var p := FromFrontmatter(slug, dir,
        Frontmatter(title, description, date, None, None, Undefined, None, Str("5"), Str("true"), None, None));
      && p.category == dir && p.tags == [] && p.author == Str(DefaultAuthor)
      && !p.featured && p.priority.None? && !p.breaking
  {
  }

  /** An `Author` object is kept as it is: `||` only replaces a falsy
      author, so the post page can read the object's `name`. */
  lemma ObjectAuthorKept(slug: string, dir: string, fm: Frontmatter, name: string)
    requires fm.author.Obj? && Lookup(fm.author.fields, "name") == Str(name)
    ensures Lookup(FromFrontmatter(slug, dir, fm).author.fields, "name") == Str(name)
  {
  }

  /** The file system and the parsers: the `.mdx` names in a category
      directory (none when it does not exist), the frontmatter of
      `<dir>/<slug>.mdx` (`None` when reading or parsing fails), and
      `new Date(s).getTime()`. */
  datatype Library = Library(
    listing: string -> seq<string>,
    read: (string, string) -> Option<Frontmatter>,
    time: string -> int)

  const Extension := ".mdx"

  /** `file.replace('.mdx', '')`: the first occurrence goes. */
  function SlugOfFile(file: string): string {
    ReplaceFirst(file, Extension, "")
  }

  /** For an ordinary file name, the slug is the name without its
      extension. */
  lemma {:induction false} SlugOfPlainFile(name: string)
    requires !HasInfix(name, Extension)
    ensures SlugOfFile(name + Extension) == name
    decreases |name|
  {
    if |name| == 0 {
      assert name + Extension == Extension;
    } else {
      var s := name + Extension;
      if |name| < |Extension| {
        assert s[|name|] == '.';
      } else {
        assert s[..|Extension|] == name[..|Extension|];
        assert !InfixAt(name, Extension, 0);
      }
      assert !(Extension <= s);
      assert s[1..] == name[1..] + Extension;
      assert !(Extension <= name);
      InfixStep(name, Extension);
      SlugOfPlainFile(name[1..]);
    }
  }

  /** The post a file yields, if it is an `.mdx` file that loads. */
  function LoadFile(lib: Library, dir: string, file: string): Option<Post> {
    if !EndsWith(file, Extension) then None
    else
      var slug := SlugOfFile(file);
      match lib.read(dir, slug)
      case None => None
      case Some(fm) => Some(FromFrontmatter(slug, dir, fm))
  }

  /** The loop of `getPostsByCategory`: the posts of the files, in listing
      order, skipping files that are not `.mdx` or do not load. */
  function Load(lib: Library, dir: string, files: seq<string>): (r: seq<Post>)
    ensures |r| <= |files|
    ensures forall p :: p in r <==> exists f :: f in files && LoadFile(lib, dir, f) == Some(p)
  {
    if |files| == 0 then []
    else
      var rest := Load(lib, dir, files[1..]);
      assert files == [files[0]] + files[1..];
      match LoadFile(lib, dir, files[0])
      case None => rest
      case Some(p) => [p] + rest
  }

  /** `new Date(p.date).getTime()`, the sort key of every post list. */
  function DateKey(lib: Library): Post -> int {
    (p: Post) => lib.time(p.date)
  }

  /** `getPostsByCategory(dir)`: the loaded posts, newest first. */
  function PostsByCategory(lib: Library, dir: string): (r: seq<Post>)
    ensures SortedDesc(r, DateKey(lib))
    ensures multiset(r) == multiset(Load(lib, dir, lib.listing(dir)))
    ensures forall p :: p in r <==> exists f :: f in lib.listing(dir) && LoadFile(lib, dir, f) == Some(p)
  {
    var r := SortDesc(Load(lib, dir, lib.listing(dir)), DateKey(lib));
    assert forall p :: p in r <==> p in multiset(r);
    r
  }

  /** The category directories `getAllPosts` reads, in order. */
  const AllCategories: seq<string> := ["blog", "lifestyle", "design", "technology", "business"]

  /** They are the catalogue's categories, in the catalogue's order. */
  lemma AllCategoriesAreCatalogue()
    ensures AllCategories == Categories.CatalogueSlugs()
  {
    Categories.CatalogueShape();
  }

  /** The posts of the directories, one directory after the other. */
  function Gather(lib: Library, dirs: seq<string>): (r: seq<Post>)
    ensures forall p :: p in r <==> exists d :: d in dirs && p in PostsByCategory(lib, d)
  {
    if |dirs| == 0 then []
    else
      var here, rest := PostsByCategory(lib, dirs[0]), Gather(lib, dirs[1..]);
      assert forall d :: d in dirs <==> d == dirs[0] || d in dirs[1..] by {
        assert dirs == [dirs[0]] + dirs[1..];
      }
      here + rest
  }

  /** `getAllPosts()`: every category's posts, newest first; posts of equal
      date keep the category order. */
  function AllPosts(lib: Library): (r: seq<Post>)
    ensures SortedDesc(r, DateKey(lib))
    ensures multiset(r) == multiset(Gather(lib, AllCategories))
    ensures StableFor(r, Gather(lib, AllCategories), DateKey(lib))
    ensures forall p :: p in r <==> p in Gather(lib, AllCategories)
  {
    var r := SortDesc(Gather(lib, AllCategories), DateKey(lib));
    assert forall p :: p in r <==> p in multiset(r);
    r
  }

  /** The end index of `slice(0, limit)` on `n` elements: a negative limit
      counts from the end. */
  function SliceEnd(n: nat, limit: int): (k: nat)
    ensures k <= n
    ensures 0 <= limit ==> k == (if limit < n then limit else n)
    ensures limit < 0 ==> k == (if n + limit < 0 then 0 else n + limit)
  {
    if limit < 0 then (if n + limit < 0 then 0 else n + limit)
    else if limit < n then limit
    else n
  }

  predicate IsFeatured(p: Post) {
    p.featured
  }

  /** `filter(post => post.featured)`: the featured posts, each as often as
      in `s`, in their order. */
  function Featured(s: seq<Post>): (r: seq<Post>)
    ensures forall p :: p in r <==> p in s && p.featured
    ensures forall p :: multiset(r)[p] == (if p.featured then multiset(s)[p] else 0)
    ensures IsSubsequence(r, s)
    ensures |r| <= |s|
  {
    Filter(s, IsFeatured)
  }

  /** Filtering keeps an ordered list ordered. */
  lemma FeaturedKeepsOrder(s: seq<Post>, key: Post -> int)
    requires SortedDesc(s, key)
    ensures SortedDesc(Featured(s), key)
  {
    FilterKeepsOrder(s, IsFeatured, key);
  }

  /** The default of the `limit` parameter of `getFeaturedPosts` and
      `getRelatedPosts`. */
  const DefaultLimit := 3

  /** The `limit` a call uses: `None` is an argument left out. */
  function LimitOf(limit: Option<int>): int {
    limit.GetOr(DefaultLimit)
  }

  /** `getFeaturedPosts(limit)`. */
  function FeaturedPosts(lib: Library, limit: Option<int>): (r: seq<Post>)
    ensures r <= Featured(AllPosts(lib))
    ensures forall p :: p in r ==> p.featured && p in AllPosts(lib)
    ensures var n, l := |Featured(AllPosts(lib))|, LimitOf(limit);
      0 <= l ==> |r| == (if l < n then l else n)
    ensures var n, l := |Featured(AllPosts(lib))|, LimitOf(limit);
      l < 0 ==> |r| == (if n + l < 0 then 0 else n + l)
    ensures limit.None? ==> |r| == (if |Featured(AllPosts(lib))| < 3 then |Featured(AllPosts(lib))| else 3)
  {
    var f := Featured(AllPosts(lib));
    f[..SliceEnd(|f|, LimitOf(limit))]
  }

  /** The featured posts shown are the newest ones: a featured post left
      out is no newer than any shown. */
  lemma FeaturedPostsAreNewest(lib: Library, limit: Option<int>, p: Post, q: Post)
    requires p in AllPosts(lib) && p.featured && p !in FeaturedPosts(lib, limit)
    requires q in FeaturedPosts(lib, limit)
    ensures lib.time(q.date) >= lib.time(p.date)
  {
    var f := Featured(AllPosts(lib));
    FeaturedKeepsOrder(AllPosts(lib), DateKey(lib));
    PrefixRanksFirst(f, DateKey(lib), SliceEnd(|f|, LimitOf(limit)), p, q);
  }

  /** How many of `tags` the current post also has (with repeats). */
  function SharedTags(tags: seq<string>, current: seq<string>): (n: nat)
    ensures n <= |tags|
  {
    if |tags| == 0 then 0
    else (if tags[0] in current then 1 else 0) + SharedTags(tags[1..], current)
  }

  function SharedKey(current: Post): Post -> int {
    (p: Post) => SharedTags(p.tags, current.tags)
  }

  /** `filter(post => post.slug !== slug)`: the other posts, each as often
      as in `s`, in their order. */
  function WithoutSlug(s: seq<Post>, slug: string): (r: seq<Post>)
    ensures forall p :: p in r <==> p in s && p.slug != slug
    ensures forall p :: multiset(r)[p] == (if p.slug != slug then multiset(s)[p] else 0)
    ensures IsSubsequence(r, s)
  {
    Filter(s, (p: Post) => p.slug != slug)
  }

  /** The candidates of `getRelatedPosts`, best match first. */
  function Ranked(lib: Library, current: Post): (r: seq<Post>)
    ensures SortedDesc(r, SharedKey(current))
    ensures forall p :: p in r <==> p in PostsByCategory(lib, current.category) && p.slug != current.slug
    ensures multiset(r) == multiset(WithoutSlug(PostsByCategory(lib, current.category), current.slug))
    ensures StableFor(r, WithoutSlug(PostsByCategory(lib, current.category), current.slug), SharedKey(current))
  {
    var r := SortDesc(WithoutSlug(PostsByCategory(lib, current.category), current.slug), SharedKey(current));
    assert forall p :: p in r <==> p in multiset(r);
    r
  }

  /** `getRelatedPosts(current, limit)`. */
  function RelatedPosts(lib: Library, current: Post, limit: Option<int>): (r: seq<Post>)
    ensures forall p :: p in r ==> p in PostsByCategory(lib, current.category) && p.slug != current.slug
    ensures SortedDesc(r, SharedKey(current))
    ensures r <= Ranked(lib, current)
    ensures var n, l := |Ranked(lib, current)|, LimitOf(limit);
      0 <= l ==> |r| == (if l < n then l else n)
    ensures var n, l := |Ranked(lib, current)|, LimitOf(limit);
      l < 0 ==> |r| == (if n + l < 0 then 0 else n + l)
  {
    var ranked := Ranked(lib, current);
    var k := SliceEnd(|ranked|, LimitOf(limit));
    SortedPrefix(ranked, SharedKey(current), k);
    ranked[..k]
  }

  /** The related posts are the best matches: a candidate left out shares
      no more tags than any post shown. */
  lemma RelatedAreBestMatches(lib: Library, current: Post, limit: Option<int>, p: Post, q: Post)
    requires p in PostsByCategory(lib, current.category) && p.slug != current.slug
    requires p !in RelatedPosts(lib, current, limit) && q in RelatedPosts(lib, current, limit)
    ensures SharedTags(q.tags, current.tags) >= SharedTags(p.tags, current.tags)
  {
    var ranked := Ranked(lib, current);
    PrefixRanksFirst(ranked, SharedKey(current), SliceEnd(|ranked|, LimitOf(limit)), p, q);
  }

  predicate StrictlyAscending(s: seq<string>) {
    forall i, j :: 0 <= i < j < |s| ==> StrLess(s[i], s[j])
  }

  /** Add `t` to an ascending list of distinct strings. */
  function InsertTag(t: string, s: seq<string>): (r: seq<string>)
    requires StrictlyAscending(s)
    ensures StrictlyAscending(r)
    ensures forall x :: x in r <==> x in s || x == t
  {
    if |s| == 0 then [t]
    else if t == s[0] then s
    else if StrLess(t, s[0]) then
      forall j | 0 < j < |s| ensures StrLess(t, s[j]) {
        StrLessTransitive(t, s[0], s[j]);
      }
      [t] + s
    else
      StrLessTotal(t, s[0]);
      var rest := InsertTag(t, s[1..]);
      assert forall x :: x in s <==> x == s[0] || x in s[1..] by {
        assert s == [s[0]] + s[1..];
      }
      forall j | 0 <= j < |rest| ensures StrLess(s[0], rest[j]) {
        if rest[j] != t {
          assert rest[j] in rest;
          assert rest[j] in s[1..];
          var i :| 0 <= i < |s[1..]| && s[1..][i] == rest[j];
          assert s[i + 1] == rest[j];
        }
      }
      [s[0]] + rest
  }

  /** `Array.from(new Set(tags)).sort()`: the distinct tags, ascending. */
  function SortedTagSet(tags: seq<string>): (r: seq<string>)
    ensures StrictlyAscending(r)
    ensures forall x :: x in r <==> x in tags
  {
    if |tags| == 0 then []
    else
      assert forall x :: x in tags <==> x == tags[0] || x in tags[1..] by {
        assert tags == [tags[0]] + tags[1..];
      }
      InsertTag(tags[0], SortedTagSet(tags[1..]))
  }

  /** An ascending list of distinct strings is fixed by its elements, so
      the tag list does not depend on the order the tags were met in. */
  lemma {:induction false} AscendingIsUnique(a: seq<string>, b: seq<string>)
    requires StrictlyAscending(a) && StrictlyAscending(b)
    requires forall x :: x in a <==> x in b
    ensures a == b
    decreases |a|
  {
    assert |a| == 0 <==> |b| == 0 by {
      if |a| > 0 {
        assert a[0] in a;
      }
      if |b| > 0 {
        assert b[0] in b;
      }
    }
    if |a| > 0 {
      assert a[0] in b && b[0] in a;
      AscendingHead(a, b[0]);
      AscendingHead(b, a[0]);
      if a[0] != b[0] {
        StrLessTotal(a[0], b[0]);
      }
      forall x ensures x in a[1..] <==> x in b[1..] {
        AscendingTail(a, x);
        AscendingTail(b, x);
      }
      AscendingIsUnique(a[1..], b[1..]);
    }
  }

  /** The head of an ascending list is its least element. */
  lemma AscendingHead(s: seq<string>, x: string)
    requires StrictlyAscending(s) && x in s
    ensures x == s[0] || StrLess(s[0], x)
  {
  }

  /** In an ascending list, the tail holds everything but the head. */
  lemma AscendingTail(s: seq<string>, x: string)
    requires StrictlyAscending(s) && |s| > 0
    ensures x in s[1..] <==> x in s && x != s[0]
  {
    if x in s[1..] {
      var j :| 0 <= j < |s[1..]| && s[1..][j] == x;
      assert StrLess(s[0], s[j + 1]);
      StrLessIrreflexive(s[0]);
    }
    if x in s && x != s[0] {
      var j :| 0 <= j < |s| && s[j] == x;
      assert s[1..][j - 1] == x;
    }
  }

  function TagsOf(posts: seq<Post>): (r: seq<string>)
    ensures forall t :: t in r <==> exists p :: p in posts && t in p.tags
  {
    if |posts| == 0 then []
    else
      var rest := TagsOf(posts[1..]);
      assert posts == [posts[0]] + posts[1..];
      posts[0].tags + rest
  }

  /** `getAllTags()`: every tag of every post, once, ascending. */
  function AllTags(lib: Library): (r: seq<string>)
    ensures StrictlyAscending(r)
    ensures forall t :: t in r <==> exists p :: p in AllPosts(lib) && t in p.tags
  {
    SortedTagSet(TagsOf(AllPosts(lib)))
  }

  /** No tag is listed twice. */
  lemma AllTagsDistinct(lib: Library)
    ensures forall i, j :: 0 <= i < j < |AllTags(lib)| ==> AllTags(lib)[i] != AllTags(lib)[j]
  {
    var r := AllTags(lib);
    forall i, j | 0 <= i < j < |r| ensures r[i] != r[j] {
      if r[i] == r[j] {
        StrLessIrreflexive(r[i]);
      }
    }
  }
}

=== FILE: rss_feed.dfy ===
/**
 * `GET /feed.xml` (app/feed.xml/route.ts): an RSS 2.0 channel with one
 * `<item>` per post, in the order of `getAllPosts`. Title and description
 * go into CDATA sections unescaped.
 *
 * The document is modelled as the channel's fields and its items; date
 * formatting is the parameter `utc` (`toUTCString` of a time value).
 */
module RssFeed {
  import opened Strings
  import opened Posts
  import opened XmlText
  import opened SiteLinks

  datatype Item = Item(
    title: TextNode,
    link: string,
    guid: string,
    description: TextNode,
    pubDate: string,
    category: string)

  datatype Channel = Channel(
    title: string,
    link: string,
    description: string,
    language: string,
    lastBuildDate: string,
    selfLink: string,
    items: seq<Item>)

  /** The `<item>` of a post: its page is both the link and the guid. */
  function ItemOf(lib: Library, utc: int -> string, p: Post): (it: Item)
    ensures it.link == it.guid == ArticleUrl(SiteUrl, p.category, p.slug)
    ensures ReadText(it.title) == p.title && ReadText(it.description) == p.description
    ensures WellFormed(it.title) <==> !HasInfix(p.title, "]]>")
    ensures it.category == p.category
  {
    Item(
      CData(p.title),
      ArticleUrl(SiteUrl, p.category, p.slug),
      ArticleUrl(SiteUrl, p.category, p.slug),
      CData(p.description),
      utc(lib.time(p.date)),
      p.category)
  }

  /** The feed of `posts` (the list `getAllPosts` returns) built at time
      `now`. */
  function Feed(lib: Library, utc: int -> string, now: int, posts: seq<Post>): (c: Channel)
    ensures c.link == SiteUrl && c.selfLink == SiteUrl + "/feed.xml"
    ensures c.lastBuildDate == utc(now)
    ensures |c.items| == |posts|
    ensures forall i :: 0 <= i < |posts| ==>
      && c.items[i].link == ArticleUrl(SiteUrl, posts[i].category, posts[i].slug)
      && c.items[i].guid == c.items[i].link
      && ReadText(c.items[i].title) == posts[i].title
      && c.items[i].category == posts[i].category
  {
    Channel(
      "Tech-Knowlogia",
      SiteUrl,
      "Premium Knowledge for Modern Professionals",
      "en-us",
      utc(now),
      SiteUrl + "/feed.xml",
      seq(|posts|, i requires 0 <= i < |posts| => ItemOf(lib, utc, posts[i])))
  }

  /** A title holding `]]>` ends its CDATA section early: the item is not
      well-formed. */
  lemma CdataEndBreaksTitle(lib: Library, utc: int -> string, p: Post)
    requires p.title == "a]]>b"
    ensures !WellFormed(ItemOf(lib, utc, p).title)
  {
    assert InfixAt(p.title, "]]>", 1);
  }
}

=== FILE: site_links.dfy ===
/**
 * The public address of the site and of its articles, as the feed and the
 * sitemaps write them.
 */
module SiteLinks {
  import opened Strings

  /** `SITE_URL` of the feed and of the news sitemap. */
  const SiteUrl := "https://tech-knowlogia.com"

  /** `${base}/${category}/${slug}`: the page of an article. */
  function ArticleUrl(base: string, category: string, slug: string): string {
    base + "/" + category + "/" + slug
  }

  /** Different articles get different addresses, as long as neither the
      category nor the slug holds a `/`. */
  lemma ArticleUrlDetermines(base: string, c1: string, s1: string, c2: string, s2: string)
    requires '/' !in c1 && '/' !in s1 && '/' !in c2 && '/' !in s2
    requires ArticleUrl(base, c1, s1) == ArticleUrl(base, c2, s2)
    ensures c1 == c2 && s1 == s2
  {
    var u1, u2 := c1 + "/" + s1, c2 + "/" + s2;
    assert ArticleUrl(base, c1, s1)[|base| + 1..] == u1;
    assert ArticleUrl(base, c2, s2)[|base| + 1..] == u2;
    assert Join([c1, s1], "/") == u1;
    assert Join([c2, s2], "/") == u2;
    SplitJoin([c1, s1], '/');
    SplitJoin([c2, s2], '/');
  }
}

=== FILE: site_url.dfy ===
/**
 * The public base URL of a request (lib/siteUrl.ts), used to build links in
 * pages and emails. Headers come first, the environment second, and a local
 * default last, so the result is never empty.
 */
module SiteUrl {
  import opened Environment

  type Headers = map<string, string>

  const LocalDefault := "http://localhost:3000"

  /** `x-forwarded-host || host`. */
  function RequestHost(h: Headers): string {
    OrElse(Var(h, "x-forwarded-host"), Var(h, "host"))
  }

  /** `x-forwarded-proto || 'https'`. */
  function RequestProto(h: Headers): (p: string)
    ensures p != ""
  {
    OrElse(Var(h, "x-forwarded-proto"), "https")
  }

  /** `getRequestBaseUrl(headers)`. */
  function GetRequestBaseUrl(h: Headers, env: Env): (u: string)
    ensures u != ""
    ensures RequestHost(h) != "" ==> u == RequestProto(h) + "://" + RequestHost(h)
    ensures RequestHost(h) == "" && Var(env, "URL") != "" ==> u == env["URL"]
    ensures RequestHost(h) == "" && Var(env, "URL") == "" && Var(env, "NEXT_PUBLIC_APP_URL") != "" ==> u == env["NEXT_PUBLIC_APP_URL"]
    ensures RequestHost(h) == "" && Var(env, "URL") == "" && Var(env, "NEXT_PUBLIC_APP_URL") == "" ==> u == LocalDefault
  {
    var host := RequestHost(h);
    if host != "" then RequestProto(h) + "://" + host
    else OrElse(Var(env, "URL"), OrElse(Var(env, "NEXT_PUBLIC_APP_URL"), LocalDefault))
  }

  /** A host header makes the environment irrelevant ... */
  lemma HostHeaderWins(h: Headers, env1: Env, env2: Env)
    requires RequestHost(h) != ""
    ensures GetRequestBaseUrl(h, env1) == GetRequestBaseUrl(h, env2)
  {
  }

  /** ... and without one, no header matters (not even the protocol). */
  lemma WithoutHostHeadersIgnored(h1: Headers, h2: Headers, env: Env)
    requires RequestHost(h1) == "" && RequestHost(h2) == ""
    ensures GetRequestBaseUrl(h1, env) == GetRequestBaseUrl(h2, env)
  {
  }
}

=== FILE: sitemap.dfy ===
/**
 * `sitemap()` (app/sitemap.ts): the entries of /sitemap.xml in the
 * sitemaps.org 0.9 protocol: four static pages, then one entry per
 * category, then one per post.
 */
module Sitemap {
  import opened Strings
  import opened Posts
  import opened SiteLinks
  import Categories

  datatype Frequency = Daily | Weekly | Monthly

  /** `lastModified`: the time the sitemap is built (`new Date()`) or the
      date of the post. */
  datatype Modified = BuildTime | Published(date: string)

  /** One entry; the priority is in tenths (`1.0` is 10). */
  datatype Entry = Entry(url: string, lastModified: Modified, changeFrequency: Frequency, priority: int)

  /** `baseUrl` of the sitemap. */
  const BaseUrl := "https://tech-knowlogia.com"

  const StaticPages: seq<Entry> := [
    Entry(BaseUrl, BuildTime, Daily, 10),
    Entry(BaseUrl + "/about", BuildTime, Monthly, 8),
    Entry(BaseUrl + "/contact", BuildTime, Monthly, 7),
    Entry(BaseUrl + "/newsletter", BuildTime, Weekly, 7)
  ]

  function CategoryEntry(c: Categories.CategoryInfo): Entry {
    Entry(BaseUrl + "/" + Categories.Slug(c.slug), BuildTime, Daily, 9)
  }

  function ArticleEntry(p: Post): Entry {
    Entry(ArticleUrl(BaseUrl, p.category, p.slug), Published(p.date), Weekly, 8)
  }

  /** The entries for the categories `cats` and for `posts`: static pages,
      categories in order, articles in order. */
  function EntriesFor(cats: seq<Categories.CategoryInfo>, posts: seq<Post>): (r: seq<Entry>)
    ensures |r| == 4 + |cats| + |posts|
    ensures r[..4] == StaticPages
    ensures forall i :: 0 <= i < |cats| ==> r[4 + i] == CategoryEntry(cats[i])
    ensures forall j :: 0 <= j < |posts| ==> r[4 + |cats| + j] == ArticleEntry(posts[j])
  {
    var categoryPages := seq(|cats|, i requires 0 <= i < |cats| => CategoryEntry(cats[i]));
    var articlePages := seq(|posts|, j requires 0 <= j < |posts| => ArticleEntry(posts[j]));
    StaticPages + categoryPages + articlePages
  }

  /** The entries for `posts` (the list `getAllPosts` returns), with the
      categories of the catalogue. An article has the address the feed and
      the news sitemap give it. */
  function Entries(posts: seq<Post>): (r: seq<Entry>)
    ensures |r| == 4 + |Categories.Catalogue| + |posts|
    ensures r[0].url == BaseUrl && r[0].priority == 10 && r[0].changeFrequency == Daily
    ensures forall i :: 0 <= i < 4 ==> r[i].lastModified == BuildTime
    ensures forall i :: 0 <= i < |Categories.Catalogue| ==>
      && r[4 + i].url == BaseUrl + "/" + Categories.Slug(Categories.Catalogue[i].slug)
      && r[4 + i].priority == 9 && r[4 + i].changeFrequency == Daily
    ensures forall j :: 0 <= j < |posts| ==>
      && r[4 + |Categories.Catalogue| + j].url == ArticleUrl(SiteUrl, posts[j].category, posts[j].slug)
      && r[4 + |Categories.Catalogue| + j].lastModified == Published(posts[j].date)
      && r[4 + |Categories.Catalogue| + j].priority == 8
  {
    var r := EntriesFor(Categories.Catalogue, posts);
    assert forall i :: 0 <= i < 4 ==> r[i] == r[..4][i];
    r
  }

  lemma OnSite(rest: string)
    ensures BaseUrl <= BaseUrl + rest
  {
  }

  /** An address on the site with a priority the protocol allows. */
  predicate Valid(e: Entry) {
    BaseUrl <= e.url && 0 <= e.priority <= 10
  }

  lemma ArticleValid(p: Post)
    ensures Valid(ArticleEntry(p))
  {
    OnSite("/" + p.category + "/" + p.slug);
    assert ArticleUrl(BaseUrl, p.category, p.slug) == BaseUrl + ("/" + p.category + "/" + p.slug);
  }

  lemma CategoryValid(c: Categories.CategoryInfo)
    ensures Valid(CategoryEntry(c))
  {
    OnSite("/" + Categories.Slug(c.slug));
  }

  lemma StaticValid(k: int)
    requires 0 <= k < |StaticPages|
    ensures Valid(StaticPages[k])
  {
    OnSite(StaticPages[k].url[|BaseUrl|..]);
  }

  lemma EntriesForValid(cats: seq<Categories.CategoryInfo>, posts: seq<Post>)
    ensures forall k :: 0 <= k < |EntriesFor(cats, posts)| ==> Valid(EntriesFor(cats, posts)[k])
  {
    var r := EntriesFor(cats, posts);
    var n := |cats|;
    forall k | 0 <= k < |r| ensures Valid(r[k]) {
      if k >= 4 + n {
        ArticleValid(posts[k - 4 - n]);
      } else if k >= 4 {
        CategoryValid(cats[k - 4]);
      } else {
        assert r[k] == r[..4][k];
        StaticValid(k);
      }
    }
  }

  /** Every address is on the site, and every priority is between 0.0 and
      1.0, as the protocol requires. */
  lemma EntriesOnSite(posts: seq<Post>)
    ensures forall k :: 0 <= k < |Entries(posts)| ==> BaseUrl <= Entries(posts)[k].url && 0 <= Entries(posts)[k].priority <= 10
  {
    EntriesForValid(Categories.Catalogue, posts);
  }
}

=== FILE: sorting.dfy ===
/**
 * `Array.prototype.sort` with a numeric comparator of the form
 * `(a, b) => key(b) - key(a)`, which every sorting call of the source has:
 * a STABLE sort into non-increasing key order (ECMAScript 2019 requires
 * stability). The result is characterised by three facts: it is ordered, it
 * is a permutation, and for each key value the elements with that key keep
 * their input order. Together these determine the result uniquely.
 */
module Sorting {

  ghost predicate SortedDesc<T>(s: seq<T>, key: T -> int) {
    forall i, j :: 0 <= i < j < |s| ==> key(s[i]) >= key(s[j])
  }

  /** The elements of `s` whose key is `k`, in their order in `s`. */
  function WithKey<T>(s: seq<T>, key: T -> int, k: int): (r: seq<T>)
    ensures |r| <= |s|
  {
    if |s| == 0 then []
    else (if key(s[0]) == k then [s[0]] else []) + WithKey(s[1..], key, k)
  }

  /** Stability, stated without positions: every group of equal keys is the
      same subsequence before and after. */
  ghost predicate StableFor<T>(r: seq<T>, s: seq<T>, key: T -> int) {
    forall k :: WithKey(r, key, k) == WithKey(s, key, k)
  }

  /** Insert `x` in front of the first element whose key is not larger, so
      that `x` stays before elements of equal key that followed it. */
  function Insert<T>(x: T, s: seq<T>, key: T -> int): (r: seq<T>)
    requires SortedDesc(s, key)
    ensures SortedDesc(r, key)
    ensures multiset(r) == multiset(s) + multiset{x}
    ensures forall k :: WithKey(r, key, k) == (if key(x) == k then [x] else []) + WithKey(s, key, k)
  {
    if |s| == 0 || key(s[0]) <= key(x) then
      ConsSorted(x, s, key);
      assert ([x] + s)[1..] == s;
      [x] + s
    else
      var t := Insert(x, s[1..], key);
      BoundedByHead(x, s, t, key);
      ConsSorted(s[0], t, key);
      InsertGroupsStep(x, s, t, key);
      InsertMultisetStep(x, s, t);
      [s[0]] + t
  }

  lemma WithKeyCons<T>(y: T, t: seq<T>, key: T -> int, k: int)
    ensures WithKey([y] + t, key, k) == (if key(y) == k then [y] else []) + WithKey(t, key, k)
  {
    assert ([y] + t)[1..] == t;
  }

  lemma InsertGroupsStep<T>(x: T, s: seq<T>, t: seq<T>, key: T -> int)
    requires |s| > 0 && key(x) < key(s[0])
    requires forall k :: WithKey(t, key, k) == (if key(x) == k then [x] else []) + WithKey(s[1..], key, k)
    ensures forall k :: WithKey([s[0]] + t, key, k) == (if key(x) == k then [x] else []) + WithKey(s, key, k)
  {
    forall k ensures WithKey([s[0]] + t, key, k) == (if key(x) == k then [x] else []) + WithKey(s, key, k) {
      InsertGroupStep(x, s, t, key, k);
    }
  }

  lemma InsertGroupStep<T>(x: T, s: seq<T>, t: seq<T>, key: T -> int, k: int)
    requires |s| > 0 && key(x) < key(s[0])
    requires WithKey(t, key, k) == (if key(x) == k then [x] else []) + WithKey(s[1..], key, k)
    ensures WithKey([s[0]] + t, key, k) == (if key(x) == k then [x] else []) + WithKey(s, key, k)
  {
    WithKeyCons(s[0], t, key, k);
    WithKeyCons(s[0], s[1..], key, k);
    assert [s[0]] + s[1..] == s;
    if key(x) == k {
      assert key(s[0]) != k;
    }
  }

  lemma InsertMultisetStep<T>(x: T, s: seq<T>, t: seq<T>)
    requires |s| > 0
    requires multiset(t) == multiset(s[1..]) + multiset{x}
    ensures multiset([s[0]] + t) == multiset(s) + multiset{x}
  {
    assert [s[0]] + s[1..] == s;
  }

  lemma ConsSorted<T>(y: T, t: seq<T>, key: T -> int)
    requires SortedDesc(t, key)
    requires forall j :: 0 <= j < |t| ==> key(t[j]) <= key(y)
    ensures SortedDesc([y] + t, key)
  {
  }

  /** Every element of `t`, a rearrangement of `s[1..]` plus `x`, has a key no
      larger than the head of `s`. */
  lemma BoundedByHead<T>(x: T, s: seq<T>, t: seq<T>, key: T -> int)
    requires |s| > 0 && SortedDesc(s, key) && key(x) < key(s[0])
    requires multiset(t) == multiset(s[1..]) + multiset{x}
    ensures forall j :: 0 <= j < |t| ==> key(t[j]) <= key(s[0])
  {
    forall j | 0 <= j < |t| ensures key(t[j]) <= key(s[0]) {
      assert t[j] in multiset(t);
      if t[j] != x {
        assert t[j] in multiset(s[1..]);
        var i :| 0 <= i < |s[1..]| && s[1..][i] == t[j];
        assert s[i + 1] == t[j];
      }
    }
  }

  /** The sort itself: insertion sort from the right. */
  function SortDesc<T>(s: seq<T>, key: T -> int): (r: seq<T>)
    ensures SortedDesc(r, key)
    ensures multiset(r) == multiset(s)
    ensures StableFor(r, s, key)
    ensures |r| == |s|
  {
    if |s| == 0 then []
    else
      var t := SortDesc(s[1..], key);
      var r := Insert(s[0], t, key);
      HeadTailMultiset(s);
      assert |r| == |multiset(r)|;
      r
  }

  lemma HeadTailMultiset<T>(s: seq<T>)
    requires |s| > 0
    ensures multiset(s) == multiset{s[0]} + multiset(s[1..])
  {
    assert s == [s[0]] + s[1..];
  }

  /** Taking a prefix of a sorted list keeps the best: an element past the
      prefix ranks no higher than any element in it. */
  lemma PrefixRanksFirst<T>(s: seq<T>, key: T -> int, k: nat, p: T, q: T)
    requires SortedDesc(s, key) && k <= |s|
    requires p in s && p !in s[..k] && q in s[..k]
    ensures key(q) >= key(p)
  {
    var i :| 0 <= i < k && s[..k][i] == q;
    var j :| 0 <= j < |s| && s[j] == p;
    assert s[i] == q;
  }

  /** The characterisation is complete: an ordered, stable rearrangement is
      the sort. */
  lemma {:induction false} SortedStableIsUnique<T>(r: seq<T>, s: seq<T>, key: T -> int)
    requires SortedDesc(r, key) && StableFor(r, s, key)
    requires SortedDesc(s, key)
    ensures r == s
    decreases |s|
  {
    if |s| == 0 {
      assert |r| == 0 by {
        if |r| > 0 {
          MaxKeyGroupHead(r, key);
        }
      }
    } else {
      assert |r| > 0 by {
        MaxKeyGroupHead(s, key);
        assert WithKey(r, key, key(s[0])) != [];
      }
      SameHead(r, s, key);
      StableTails(r, s, key);
      SortedTail(r, key);
      SortedTail(s, key);
      SortedStableIsUnique(r[1..], s[1..], key);
      assert r == [r[0]] + r[1..];
      assert s == [s[0]] + s[1..];
    }
  }

  /** Two sorted, stable rearrangements of each other start alike: both
      start with the first element of the largest key. */
  lemma SameHead<T>(r: seq<T>, s: seq<T>, key: T -> int)
    requires SortedDesc(r, key) && SortedDesc(s, key) && StableFor(r, s, key)
    requires |r| > 0 && |s| > 0
    ensures r[0] == s[0]
  {
    var a, b := key(r[0]), key(s[0]);
    MaxKeyGroupHead(r, key);
    MaxKeyGroupHead(s, key);
    assert a == b by {
      if a < b {
        NotInGroup(r, key, b);
      } else if b < a {
        NotInGroup(s, key, a);
      }
    }
  }

  /** Dropping a common head keeps the groups equal. */
  lemma StableTails<T>(r: seq<T>, s: seq<T>, key: T -> int)
    requires |r| > 0 && |s| > 0 && r[0] == s[0] && StableFor(r, s, key)
    ensures StableFor(r[1..], s[1..], key)
  {
    assert [r[0]] + r[1..] == r;
    assert [s[0]] + s[1..] == s;
    forall k ensures WithKey(r[1..], key, k) == WithKey(s[1..], key, k) {
      WithKeyCons(r[0], r[1..], key, k);
      WithKeyCons(s[0], s[1..], key, k);
      var g: seq<T> := if key(r[0]) == k then [r[0]] else [];
      assert WithKey(r[1..], key, k) == WithKey(r, key, k)[|g|..];
      assert WithKey(s[1..], key, k) == WithKey(s, key, k)[|g|..];
    }
  }

  lemma SortedTail<T>(s: seq<T>, key: T -> int)
    requires |s| > 0 && SortedDesc(s, key)
    ensures SortedDesc(s[1..], key)
  {
  }

  /** In a sorted sequence the head's key group starts with the head. */
  lemma MaxKeyGroupHead<T>(s: seq<T>, key: T -> int)
    requires |s| > 0
    ensures WithKey(s, key, key(s[0])) != [] && WithKey(s, key, key(s[0]))[0] == s[0]
  {
  }

  /** A key larger than every key of a sorted sequence has an empty group. */
  lemma {:induction false} NotInGroup<T>(s: seq<T>, key: T -> int, k: int)
    requires SortedDesc(s, key)
    requires |s| > 0 && k > key(s[0])
    ensures WithKey(s, key, k) == []
    decreases |s|
  {
    if |s| > 1 {
      SortedTail(s, key);
      NotInGroup(s[1..], key, k);
    }
  }

  /** `r` is `s` with some elements left out and the rest in their order:
      what `Array.prototype.filter` returns. */
  ghost predicate IsSubsequence<T>(r: seq<T>, s: seq<T>)
    decreases |s|
  {
    if |r| == 0 then true
    else if |s| == 0 then false
    else (r[0] == s[0] && IsSubsequence(r[1..], s[1..])) || IsSubsequence(r, s[1..])
  }

  /** `s.filter(keep)`: the elements `keep` accepts, each as often as in
      `s`, in their order. */
  function Filter<T(!new)>(s: seq<T>, keep: T -> bool): (r: seq<T>)
    ensures forall x :: x in r <==> x in s && keep(x)
    ensures forall x :: multiset(r)[x] == (if keep(x) then multiset(s)[x] else 0)
    ensures IsSubsequence(r, s)
    ensures |r| <= |s|
  {
    if |s| == 0 then []
    else
      var rest := Filter(s[1..], keep);
      assert s == [s[0]] + s[1..];
      assert multiset(s) == multiset{s[0]} + multiset(s[1..]);
      if keep(s[0]) then
        assert ([s[0]] + rest)[1..] == rest;
        assert multiset([s[0]] + rest) == multiset{s[0]} + multiset(rest);
        [s[0]] + rest
      else rest
  }

  /** A filter that accepts everything changes nothing. */
  lemma {:induction false} FilterAll<T(!new)>(s: seq<T>, keep: T -> bool)
    requires forall x :: x in s ==> keep(x)
    ensures Filter(s, keep) == s
  {
    if |s| > 0 {
      FilterAll(s[1..], keep);
      assert s == [s[0]] + s[1..];
    }
  }

  /** A filter that accepts nothing in `s` leaves nothing. */
  lemma FilterNone<T(!new)>(s: seq<T>, keep: T -> bool)
    requires forall x :: x in s ==> !keep(x)
    ensures Filter(s, keep) == []
  {
  }

  /** Filtering keeps an ordered list ordered. */
  lemma {:induction false} FilterKeepsOrder<T(!new)>(s: seq<T>, keep: T -> bool, key: T -> int)
    requires SortedDesc(s, key)
    ensures SortedDesc(Filter(s, keep), key)
    decreases |s|
  {
    if |s| > 0 {
      var rest := Filter(s[1..], keep);
      SortedTail(s, key);
      FilterKeepsOrder(s[1..], keep, key);
      if keep(s[0]) {
        forall j | 0 <= j < |rest| ensures key(rest[j]) <= key(s[0]) {
          HeadBoundsTail(s, key, rest[j]);
        }
        ConsSorted(s[0], rest, key);
      }
    }
  }

  /** A prefix of a sorted list is sorted and takes its elements from it. */
  lemma SortedPrefix<T>(s: seq<T>, key: T -> int, k: nat)
    requires k <= |s| && SortedDesc(s, key)
    ensures SortedDesc(s[..k], key)
    ensures forall x :: x in s[..k] ==> x in s
  {
    forall x | x in s[..k] ensures x in s {
      var j :| 0 <= j < k && s[..k][j] == x;
      assert s[j] == x;
    }
  }

  lemma HeadBoundsTail<T>(s: seq<T>, key: T -> int, q: T)
    requires |s| > 0 && SortedDesc(s, key) && q in s[1..]
    ensures key(q) <= key(s[0])
  {
    var j :| 0 <= j < |s[1..]| && s[1..][j] == q;
    assert s[j + 1] == q;
  }
}

=== FILE: strings.dfy ===
/**
 * The JavaScript string operations the source relies on, written out over
 * `seq<char>`: `trim`, `\s`, ASCII case folding, `includes`, `replaceAll`,
 * `split` on one character, `join` and decimal rendering of integers.
 */
module Strings {

  /** ECMAScript WhiteSpace and LineTerminator code points: what the regex
      class `\s` matches and what `String.prototype.trim` removes. */
  predicate IsJsSpace(c: char) {
    || c == '\t' || c == '\n' || c == '\U{0B}' || c == '\U{0C}' || c == '\r'
    || c == ' ' || c == '\U{A0}' || c == '\U{1680}'
    || ('\U{2000}' <= c <= '\U{200A}')
    || c == '\U{2028}' || c == '\U{2029}' || c == '\U{202F}' || c == '\U{205F}'
    || c == '\U{3000}' || c == '\U{FEFF}'
  }

  /** The characters the regex `.` refuses when the `s` flag is absent. */
  predicate IsLineTerminator(c: char) {
    c == '\n' || c == '\r' || c == '\U{2028}' || c == '\U{2029}'
  }

  predicate AllSpace(s: string) {
    forall i :: 0 <= i < |s| ==> IsJsSpace(s[i])
  }

  predicate NoLineTerminator(s: string) {
    forall i :: 0 <= i < |s| ==> !IsLineTerminator(s[i])
  }

  /** Leading white space removed; the result is a suffix of `s`. */
  function TrimStart(s: string): (r: string)
    ensures |r| <= |s| && r == s[|s| - |r|..]
    ensures AllSpace(s[..|s| - |r|])
    ensures |r| == 0 || !IsJsSpace(r[0])
  {
    if |s| > 0 && IsJsSpace(s[0]) then TrimStart(s[1..]) else s
  }

  /** Trailing white space removed; the result is a prefix of `s`. */
  function TrimEnd(s: string): (r: string)
    ensures |r| <= |s| && r == s[..|r|]
    ensures AllSpace(s[|r|..])
    ensures |r| == 0 || !IsJsSpace(r[|r| - 1])
  {
    if |s| > 0 && IsJsSpace(s[|s| - 1]) then TrimEnd(s[..|s| - 1]) else s
  }

  /** `r` is the infix of `s` at `i` with only white space around it. */
  predicate SpaceAround(s: string, r: string, i: int) {
    && 0 <= i <= |s| - |r| && s[i..i + |r|] == r
    && AllSpace(s[..i]) && AllSpace(s[i + |r|..])
  }

  /** `String.prototype.trim`: the longest infix of `s` that neither starts nor
      ends with white space, with only white space cut on either side. */
  function Trim(s: string): (r: string)
    ensures |r| == 0 || (!IsJsSpace(r[0]) && !IsJsSpace(r[|r| - 1]))
    ensures exists i :: SpaceAround(s, r, i)
  {
    var t := TrimStart(s);
    TrimCutsSpace(s);
    TrimEnd(t)
  }

  lemma TrimCutsSpace(s: string)
    ensures SpaceAround(s, TrimEnd(TrimStart(s)), |s| - |TrimStart(s)|)
  {
    var t := TrimStart(s);
    var i := |s| - |t|;
    var r := TrimEnd(t);
    assert t == s[i..];
    assert AllSpace(s[..i]);
    assert r == t[..|r|] && AllSpace(t[|r|..]);
    assert t[..|r|] == s[i..i + |r|];
    AllSpaceSame(t[|r|..], s[i + |r|..]);
    assert SpaceAround(s, r, i);
  }

  lemma AllSpaceSame(a: string, b: string)
    requires AllSpace(a) && a == b
    ensures AllSpace(b)
  {
  }

  /** Leading white space never changes what `trim` returns. */
  lemma {:induction false} TrimSkipsLeadingSpace(w: string, x: string)
    requires AllSpace(w)
    ensures Trim(w + x) == Trim(x)
  {
    if |w| > 0 {
      assert (w + x)[1..] == w[1..] + x;
      TrimSkipsLeadingSpace(w[1..], x);
      assert TrimStart(w + x) == TrimStart(w[1..] + x);
    } else {
      assert w + x == x;
    }
  }

  /** A string that already has no white space at either end is its own trim. */
  lemma TrimOfTrimmed(s: string)
    requires |s| == 0 || (!IsJsSpace(s[0]) && !IsJsSpace(s[|s| - 1]))
    ensures Trim(s) == s
  {
  }

  function ToLowerAscii(c: char): (r: char)
    ensures 'A' <= c <= 'Z' ==> r as int == c as int + 32
    ensures !('A' <= c <= 'Z') ==> r == c
  {
    if 'A' <= c <= 'Z' then (c as int + 32) as char else c
  }

  function LowerAscii(s: string): (r: string)
    ensures |r| == |s|
    ensures forall i :: 0 <= i < |s| ==> r[i] == ToLowerAscii(s[i])
  {
    if |s| == 0 then [] else [ToLowerAscii(s[0])] + LowerAscii(s[1..])
  }

  /** ASCII lower-casing never turns white space into something else or
      back. */
  lemma LowerKeepsSpace(c: char)
    ensures IsJsSpace(ToLowerAscii(c)) <==> IsJsSpace(c)
  {
  }

  lemma LowerAsciiTail(s: string)
    requires |s| > 0
    ensures LowerAscii(s)[1..] == LowerAscii(s[1..])
  {
  }

  lemma LowerAsciiPrefix(s: string, n: nat)
    requires n <= |s|
    ensures LowerAscii(s)[..n] == LowerAscii(s[..n])
  {
  }

  lemma {:induction false} LowerTrimStart(s: string)
    ensures LowerAscii(TrimStart(s)) == TrimStart(LowerAscii(s))
    decreases |s|
  {
    if |s| > 0 {
      LowerKeepsSpace(s[0]);
      LowerAsciiTail(s);
      if IsJsSpace(s[0]) {
        LowerTrimStart(s[1..]);
      }
    }
  }

  lemma {:induction false} LowerTrimEnd(s: string)
    ensures LowerAscii(TrimEnd(s)) == TrimEnd(LowerAscii(s))
    decreases |s|
  {
    if |s| > 0 {
      LowerKeepsSpace(s[|s| - 1]);
      LowerAsciiPrefix(s, |s| - 1);
      if IsJsSpace(s[|s| - 1]) {
        LowerTrimEnd(s[..|s| - 1]);
      }
    }
  }

  /** Trimming and ASCII lower-casing commute. */
  lemma LowerTrimCommute(s: string)
    ensures LowerAscii(Trim(s)) == Trim(LowerAscii(s))
  {
    LowerTrimStart(s);
    LowerTrimEnd(TrimStart(s));
  }

  /** Equality under the ASCII-only case folding of a non-Unicode `/i` regex
      whose pattern is ASCII. */
  predicate EqualsIgnoreCase(a: string, b: string) {
    LowerAscii(a) == LowerAscii(b)
  }

  /** `p` occurs in `s` starting at position `i`. */
  predicate InfixAt(s: string, p: string, i: int) {
    0 <= i <= |s| - |p| && s[i..i + |p|] == p
  }

  /** `s` has `p` as a contiguous infix. */
  ghost predicate HasInfix(s: string, p: string) {
    exists i :: InfixAt(s, p, i)
  }

  /** `String.prototype.includes`. */
  function Includes(s: string, p: string): (b: bool)
    ensures b <==> HasInfix(s, p)
    decreases |s|
  {
    if p <= s then
      assert InfixAt(s, p, 0);
      true
    else if |s| == 0 then
      false
    else
      InfixStep(s, p);
      Includes(s[1..], p)
  }

  /** An infix not at the front of `s` is an infix of `s[1..]`. */
  lemma InfixStep(s: string, p: string)
    requires |s| > 0 && !(p <= s)
    ensures HasInfix(s, p) <==> HasInfix(s[1..], p)
  {
    if HasInfix(s, p) {
      var i :| InfixAt(s, p, i);
      assert i != 0;
      assert InfixAt(s[1..], p, i - 1) by {
        assert s[1..][i - 1..i - 1 + |p|] == s[i..i + |p|];
      }
    }
    if HasInfix(s[1..], p) {
      var i :| InfixAt(s[1..], p, i);
      assert InfixAt(s, p, i + 1) by {
        assert s[i + 1..i + 1 + |p|] == s[1..][i..i + |p|];
      }
    }
  }

  /** `String.prototype.includes` with ASCII case folding on both sides: the
      regex test `/lit/i` for an ASCII literal. */
  function IncludesIgnoreCase(s: string, p: string): bool {
    Includes(LowerAscii(s), LowerAscii(p))
  }

  /** The part of `t` before its first line terminator: how far a regex
      `.*` can reach. */
  function LineHead(t: string): (h: string)
    ensures h <= t && NoLineTerminator(h)
    ensures |h| < |t| ==> IsLineTerminator(t[|h|])
  {
    if |t| == 0 || IsLineTerminator(t[0]) then []
    else
      var h := LineHead(t[1..]);
      assert [t[0]] + h <= t by {
        assert t == [t[0]] + t[1..];
      }
      [t[0]] + h
  }

  /** An infix of the first line is an occurrence reached without crossing a
      line terminator, and conversely, for a pattern without one. */
  lemma SameLineInfix(t: string, p: string)
    requires NoLineTerminator(p)
    ensures HasInfix(LineHead(t), p) <==> exists k :: InfixAt(t, p, k) && NoLineTerminator(t[..k])
  {
    var h := LineHead(t);
    if HasInfix(h, p) {
      var k :| InfixAt(h, p, k);
      assert t[k..k + |p|] == h[k..k + |p|];
      assert t[..k] == h[..k];
      assert InfixAt(t, p, k) && NoLineTerminator(t[..k]);
    }
    if exists k :: InfixAt(t, p, k) && NoLineTerminator(t[..k]) {
      var k :| InfixAt(t, p, k) && NoLineTerminator(t[..k]);
      LineHeadCovers(t, p, k);
      assert h[k..k + |p|] == t[k..k + |p|];
      assert InfixAt(h, p, k);
    }
  }

  /** An occurrence reached without a line terminator lies within the first
      line. */
  lemma LineHeadCovers(t: string, p: string, k: int)
    requires NoLineTerminator(p) && InfixAt(t, p, k) && NoLineTerminator(t[..k])
    ensures k + |p| <= |LineHead(t)|
  {
    forall m | 0 <= m < k + |p| ensures !IsLineTerminator(t[m]) {
      if m < k {
        assert t[..k][m] == t[m];
      } else {
        assert t[k..k + |p|][m - k] == t[m];
      }
    }
  }

  /** `String.prototype.replaceAll` with a non-empty literal pattern: every
      non-overlapping occurrence, scanning left to right, is replaced. */
  function ReplaceAll(s: string, p: string, r: string): string
    requires |p| > 0
    decreases |s|
  {
    if |s| < |p| then s
    else if s[..|p|] == p then r + ReplaceAll(s[|p|..], p, r)
    else [s[0]] + ReplaceAll(s[1..], p, r)
  }

  /** Replacing a pattern that does not occur changes nothing. */
  lemma {:induction false} ReplaceAllAbsent(s: string, p: string, r: string)
    requires |p| > 0
    requires !HasInfix(s, p)
    ensures ReplaceAll(s, p, r) == s
    decreases |s|
  {
    if |s| >= |p| {
      assert !InfixAt(s, p, 0);
      InfixStep(s, p);
      ReplaceAllAbsent(s[1..], p, r);
    }
  }

  /** A character in neither the input nor the replacement is absent from the
      output. */
  lemma {:induction false} ReplaceAllKeepsOut(s: string, p: string, r: string, c: char)
    requires |p| > 0
    requires c !in s && c !in r
    ensures c !in ReplaceAll(s, p, r)
    decreases |s|
  {
    if |s| >= |p| {
      if s[..|p|] == p {
        ReplaceAllKeepsOut(s[|p|..], p, r, c);
      } else {
        ReplaceAllKeepsOut(s[1..], p, r, c);
      }
    }
  }

  /** Replacing a one-character pattern by text without that character
      removes every occurrence of it. */
  lemma {:induction false} ReplaceAllRemovesChar(s: string, c: char, r: string)
    requires c !in r
    ensures c !in ReplaceAll(s, [c], r)
    decreases |s|
  {
    if |s| >= 1 {
      if s[..1] == [c] {
        ReplaceAllRemovesChar(s[1..], c, r);
      } else {
        assert s[0] != c by { assert s[..1] == [s[0]]; }
        ReplaceAllRemovesChar(s[1..], c, r);
      }
    }
  }

  /** Character-by-character substitution of `c` by `r`: what replacing a
      one-character pattern amounts to (see `ReplaceAllSingleIsSubst`). */
  function SubstChar(s: string, c: char, r: string): (t: string)
    ensures c !in r ==> c !in t
    ensures forall d :: d !in s && d !in r ==> d !in t
  {
    if |s| == 0 then [] else (if s[0] == c then r else [s[0]]) + SubstChar(s[1..], c, r)
  }

  lemma {:induction false} ReplaceAllSingleIsSubst(s: string, c: char, r: string)
    ensures ReplaceAll(s, [c], r) == SubstChar(s, c, r)
    decreases |s|
  {
    if |s| >= 1 {
      assert s[..1] == [s[0]];
      assert s[1..] == s[|[c]|..];
      ReplaceAllSingleIsSubst(s[1..], c, r);
    }
  }

  lemma {:induction false} SubstCharAppend(a: string, b: string, c: char, r: string)
    ensures SubstChar(a + b, c, r) == SubstChar(a, c, r) + SubstChar(b, c, r)
    decreases |a|
  {
    if |a| == 0 {
      assert a + b == b;
    } else {
      assert (a + b)[1..] == a[1..] + b;
      SubstCharAppend(a[1..], b, c, r);
    }
  }

  /** Position of the first `d` in `s`. */
  function IndexOf(s: string, d: char): (i: nat)
    requires d in s
    ensures i < |s| && s[i] == d && d !in s[..i]
  {
    if s[0] == d then 0 else 1 + IndexOf(s[1..], d)
  }

  /** The first `d` is the one with no `d` before it. */
  lemma {:induction false} IndexOfAt(s: string, d: char, j: nat)
    requires j < |s| && s[j] == d && d !in s[..j]
    ensures IndexOf(s, d) == j
  {
    if j > 0 {
      assert s[0] in s[..j];
      assert s[1..][..j - 1] == s[1..j];
      assert s[1..j] <= s[..j][1..];
      IndexOfAt(s[1..], d, j - 1);
    }
  }

  /** `s.endsWith(p)`. */
  predicate EndsWith(s: string, p: string) {
    |p| <= |s| && s[|s| - |p|..] == p
  }

  /** `s.replace(p, r)` with a string pattern: only the first occurrence is
      replaced. */
  function ReplaceFirst(s: string, p: string, r: string): (t: string)
    ensures !HasInfix(s, p) ==> t == s
    decreases |s|
  {
    if p <= s then
      assert InfixAt(s, p, 0);
      r + s[|p|..]
    else if |s| == 0 then s
    else
      InfixStep(s, p);
      assert s == [s[0]] + s[1..];
      [s[0]] + ReplaceFirst(s[1..], p, r)
  }

  /** The order `Array.prototype.sort` uses on strings when given no
      comparator: character by character, a proper prefix first. */
  predicate StrLess(a: string, b: string)
    decreases |a|
  {
    if |a| == 0 then |b| > 0
    else if |b| == 0 then false
    else if a[0] != b[0] then a[0] < b[0]
    else StrLess(a[1..], b[1..])
  }

  lemma {:induction false} StrLessIrreflexive(a: string)
    ensures !StrLess(a, a)
    decreases |a|
  {
    if |a| > 0 {
      StrLessIrreflexive(a[1..]);
    }
  }

  lemma {:induction false} StrLessTransitive(a: string, b: string, c: string)
    requires StrLess(a, b) && StrLess(b, c)
    ensures StrLess(a, c)
    decreases |a|
  {
    if |a| > 0 && a[0] == b[0] && b[0] == c[0] {
      StrLessTransitive(a[1..], b[1..], c[1..]);
    }
  }

  /** Distinct strings are ordered one way or the other, and never both. */
  lemma {:induction false} StrLessTotal(a: string, b: string)
    requires a != b
    ensures StrLess(a, b) != StrLess(b, a)
    decreases |a|
  {
    if |a| > 0 && |b| > 0 && a[0] == b[0] {
      assert a == [a[0]] + a[1..] && b == [b[0]] + b[1..];
      StrLessTotal(a[1..], b[1..]);
    }
  }

  /** `parts.join(sep)`. */
  function Join(parts: seq<string>, sep: string): string {
    if |parts| == 0 then ""
    else if |parts| == 1 then parts[0]
    else parts[0] + sep + Join(parts[1..], sep)
  }

  /** A character in neither the pieces nor the separator is not in their
      join. */
  lemma {:induction false} JoinAvoids(parts: seq<string>, sep: string, c: char)
    requires c !in sep
    requires forall i :: 0 <= i < |parts| ==> c !in parts[i]
    ensures c !in Join(parts, sep)
    decreases |parts|
  {
    if |parts| > 1 {
      JoinAvoids(parts[1..], sep, c);
    }
  }

  /** `s.split(d)` for a one-character separator: never empty, no piece holds
      `d`, and joining the pieces with `d` gives `s` back. */
  function Split(s: string, d: char): (parts: seq<string>)
    ensures |parts| >= 1
    ensures forall i :: 0 <= i < |parts| ==> d !in parts[i]
    ensures Join(parts, [d]) == s
    decreases |s|
  {
    if d !in s then [s]
    else
      var i := IndexOf(s, d);
      var rest := Split(s[i + 1..], d);
      assert s == s[..i] + [d] + s[i + 1..];
      [s[..i]] + rest
  }

  /** The other direction of the round trip: splitting the join of pieces
      that do not hold the separator gives the pieces back. */
  lemma {:induction false} SplitJoin(parts: seq<string>, d: char)
    requires |parts| >= 1
    requires forall i :: 0 <= i < |parts| ==> d !in parts[i]
    ensures Split(Join(parts, [d]), d) == parts
    decreases |parts|
  {
    if |parts| == 1 {
    } else {
      var s := Join(parts, [d]);
      var tail := Join(parts[1..], [d]);
      assert s == parts[0] + [d] + tail;
      assert d in s by { assert s[|parts[0]|] == d; }
      var i := IndexOf(s, d);
      assert s[..|parts[0]|] == parts[0];
      IndexOfAt(s, d, |parts[0]|);
      assert s[..i] == parts[0];
      assert s[i + 1..] == tail;
      SplitJoin(parts[1..], d);
    }
  }

  /** Decimal digits of a natural number, most significant first. */
  function NatToString(n: nat): (r: string)
    ensures |r| >= 1
    ensures forall i :: 0 <= i < |r| ==> '0' <= r[i] <= '9'
    ensures DigitsValue(r) == n
  {
    if n < 10 then [DigitChar(n)]
    else
      var r := NatToString(n / 10) + [DigitChar(n % 10)];
      assert r[..|r| - 1] == NatToString(n / 10);
      r
  }

  function DigitChar(d: nat): (c: char)
    requires d < 10
    ensures '0' <= c <= '9' && c as int - '0' as int == d
  {
    ('0' as int + d) as char
  }

  /** The number a string of decimal digits denotes. */
  function DigitsValue(s: string): int {
    if |s| == 0 then 0 else 10 * DigitsValue(s[..|s| - 1]) + (s[|s| - 1] as int - '0' as int)
  }

  /** `String(n)` for an integer. */
  function IntToString(n: int): string {
    if n >= 0 then NatToString(n) else "-" + NatToString(-n)
  }
}

=== FILE: subscribe_route.dfy ===
/**
 * `POST /api/subscribe` (app/api/subscribe/route.ts): the older newsletter
 * endpoint. It checks the `email` field of the JSON body for an `@`, logs
 * it through a template literal, and answers success without storing
 * anything. The log line itself is not modelled, only that writing it can
 * throw.
 */
module SubscribeRoute {
  import opened Wrappers
  import opened Strings
  import opened JsValues

  datatype SubscribeReply = Subscribed | InvalidEmail | SubscribeFailed

  function ReplyStatus(r: SubscribeReply): int {
    match r
    case Subscribed => 200
    case InvalidEmail => 400
    case SubscribeFailed => 500
  }

  /** `email.includes('@')` on a truthy `email`: `String.prototype.includes`
      on a string, `Array.prototype.includes` (an element equal to "@") on an
      array, and a `TypeError` (`None`) on anything else. */
  function HasAt(email: Js): (r: Option<bool>)
    ensures r.None? <==> !email.Str? && !email.Arr?
    ensures email.Str? ==> r == Some('@' in email.s)
    ensures email.Arr? ==> r == Some(Str("@") in email.items)
  {
    match email
    case Str(s) =>
      assert Includes(s, "@") <==> '@' in s by {
        if '@' in s {
          var i :| 0 <= i < |s| && s[i] == '@';
          assert InfixAt(s, "@", i);
        }
        if HasInfix(s, "@") {
          var i :| InfixAt(s, "@", i);
          assert s[i..i + 1][0] == s[i];
        }
      }
      Some(Includes(s, "@"))
    case Arr(items) => Some(Str("@") in items)
    case _ => None
  }

  /** The handler; `body` is the parsed JSON body, `None` when
      `request.json()` throws. An accepted `email` is then written into the
      log message with `${email}`, which throws for an array holding an
      object with its own `toString`. */
  function Subscribe(body: Option<Js>): (r: SubscribeReply)
    ensures r == SubscribeFailed <==>
      || body.None? || Destructure(body.value, "email").None?
      || (Truthy(Get(body.value, "email")) && HasAt(Get(body.value, "email")).None?)
      || (Truthy(Get(body.value, "email")) && HasAt(Get(body.value, "email")) == Some(true)
          && StringThrows(Get(body.value, "email")))
    ensures r == Subscribed <==>
      && body.Some? && Destructure(body.value, "email").Some?
      && Truthy(Get(body.value, "email")) && HasAt(Get(body.value, "email")) == Some(true)
      && !StringThrows(Get(body.value, "email"))
  {
    if body.None? then SubscribeFailed
    else
      match Destructure(body.value, "email")
      case None => SubscribeFailed
      case Some(email) =>
        if !Truthy(email) then InvalidEmail
        else
          match HasAt(email)
          case None => SubscribeFailed
          case Some(ok) =>
            if !ok then InvalidEmail
            else if ToJsString(email).None? then SubscribeFailed
            else Subscribed
  }

  /** An array email holding "@" passes the check, and then fails in the
      log line when another element is an object with its own `toString`:
      `{"email":["@",{"toString":0}]}` is a 500. */
  lemma ArrayEmailWithOwnToStringFails(fields: seq<(string, Js)>, items: seq<Js>, o: seq<(string, Js)>)
    requires Lookup(fields, "email") == Arr(items)
    requires Str("@") in items && Obj(o) in items && HasOwn(o, "toString")
    ensures Subscribe(Some(Obj(fields))) == SubscribeFailed
  {
    assert StringThrows(Obj(o));
  }

  /** For an object body with a string `email`, success is exactly the
      presence of an `@`: "@" alone is accepted, and nothing else is
      checked. */
  lemma StringEmailNeedsOnlyAt(fields: seq<(string, Js)>, e: string)
    requires Lookup(fields, "email") == Str(e)
    ensures Subscribe(Some(Obj(fields))) == (if '@' in e then Subscribed else InvalidEmail)
  {
  }

  /** A body without an `email` field is a 400, and a JSON `null` body a
      500. */
  lemma MissingEmailIsBadRequest(fields: seq<(string, Js)>)
    requires Lookup(fields, "email") == Undefined
    ensures Subscribe(Some(Obj(fields))) == InvalidEmail
    ensures Subscribe(Some(Null)) == SubscribeFailed
  {
  }
}

=== FILE: subscriber_model.dfy ===
/**
 * The subscriber record (models/Subscriber.ts) and the collection that holds
 * the records, with the rules the schema gives them: the email is trimmed,
 * lower-cased, required and unique; the status is one of three values and
 * starts as `pending`; `source` starts as `'form'`; `createdAt` and
 * `updatedAt` are kept by the `timestamps` option.
 *
 * The collection is a sequence in natural (insertion) order, so `findOne`
 * and `findById` return the first record that matches.
 */
module SubscriberModel {
  import opened Wrappers
  import opened Strings

  datatype Status = Pending | Active | Unsubscribed

  /** The stored spelling of a status. */
  function StatusName(s: Status): string {
    match s
    case Pending => "pending"
    case Active => "active"
    case Unsubscribed => "unsubscribed"
  }

  /** The `enum` check: a string is a status exactly when it is one of the
      three names. */
  function ParseStatus(n: string): (r: Option<Status>)
    ensures r.Some? ==> StatusName(r.value) == n
    ensures r.None? ==> forall s :: StatusName(s) != n
  {
    if n == "pending" then Some(Pending)
    else if n == "active" then Some(Active)
    else if n == "unsubscribed" then Some(Unsubscribed)
    else None
  }

  lemma ParseStatusName(s: Status)
    ensures ParseStatus(StatusName(s)) == Some(s)
  {
  }

  /** Milliseconds since the epoch, the value a `Date` holds. */
  type Time = int

  datatype Subscriber = Subscriber(
    id: string,
    email: string,
    status: Status,
    confirmedAt: Option<Time>,
    unsubscribedAt: Option<Time>,
    confirmTokenHash: Option<string>,
    confirmTokenExpiresAt: Option<Time>,
    lastConfirmationSentAt: Option<Time>,
    source: Option<string>,
    createdAt: Time,
    updatedAt: Time)

  /** What the email setters leave: no white space at either end and no
      upper-case ASCII letter. */
  predicate IsNormalEmail(e: string) {
    && (|e| == 0 || (!IsJsSpace(e[0]) && !IsJsSpace(e[|e| - 1])))
    && forall i :: 0 <= i < |e| ==> !('A' <= e[i] <= 'Z')
  }

  /** The `trim` and `lowercase` setters of the email path. */
  function NormalizeEmail(raw: string): (e: string)
    ensures IsNormalEmail(e)
  {
    var t := Trim(raw);
    LowerOfTrimmedIsNormal(t);
    LowerAscii(t)
  }

  lemma LowerOfTrimmedIsNormal(t: string)
    requires |t| == 0 || (!IsJsSpace(t[0]) && !IsJsSpace(t[|t| - 1]))
    ensures IsNormalEmail(LowerAscii(t))
  {
    LowerKeepsEnds(t);
    LowerHasNoUpper(t);
  }

  lemma LowerKeepsEnds(t: string)
    requires |t| == 0 || (!IsJsSpace(t[0]) && !IsJsSpace(t[|t| - 1]))
    ensures var l := LowerAscii(t); |l| == 0 || (!IsJsSpace(l[0]) && !IsJsSpace(l[|l| - 1]))
  {
    if |t| > 0 {
      LowerKeepsSpace(t[0]);
      LowerKeepsSpace(t[|t| - 1]);
    }
  }

  lemma LowerHasNoUpper(t: string)
    ensures var l := LowerAscii(t); forall i :: 0 <= i < |l| ==> !('A' <= l[i] <= 'Z')
  {
    var l := LowerAscii(t);
    forall i | 0 <= i < |l| ensures !('A' <= l[i] <= 'Z') {
      LowerIsNotUpper(t[i]);
    }
  }

  lemma LowerIsNotUpper(c: char)
    ensures !('A' <= ToLowerAscii(c) <= 'Z')
  {
  }

  /** The setters may run in either order: trimming and lower-casing
      commute. */
  lemma NormalizeEmailEitherOrder(raw: string)
    ensures NormalizeEmail(raw) == Trim(LowerAscii(raw))
  {
    LowerTrimCommute(raw);
  }

  /** The setters change exactly the emails that are not already normal, so
      saving a stored email again leaves it as it is. */
  lemma NormalizeEmailFixedPoints(e: string)
    ensures NormalizeEmail(e) == e <==> IsNormalEmail(e)
  {
    if IsNormalEmail(e) {
      TrimOfTrimmed(e);
      assert LowerAscii(e) == e;
    }
  }

  lemma NormalizeEmailIdempotent(raw: string)
    ensures NormalizeEmail(NormalizeEmail(raw)) == NormalizeEmail(raw)
  {
    NormalizeEmailFixedPoints(NormalizeEmail(raw));
  }

  /** A record as the schema lets it be stored. */
  predicate ValidRecord(s: Subscriber) {
    s.email != "" && IsNormalEmail(s.email)
  }

  type Store = seq<Subscriber>

  /** The unique `_id` and the unique index on `email` hold, and every record
      passed validation. */
  predicate ValidStore(st: Store) {
    && (forall i, j :: 0 <= i < j < |st| ==> st[i].id != st[j].id)
    && (forall i, j :: 0 <= i < j < |st| ==> st[i].email != st[j].email)
    && (forall i :: 0 <= i < |st| ==> ValidRecord(st[i]))
  }

  /** The first record, in natural order, satisfying `p`. */
  function FindFirst(st: Store, p: Subscriber -> bool): (r: Option<nat>)
    ensures r.Some? ==> r.value < |st| && p(st[r.value])
    ensures r.Some? ==> forall j :: 0 <= j < r.value ==> !p(st[j])
    ensures r.None? ==> forall j :: 0 <= j < |st| ==> !p(st[j])
  {
    if |st| == 0 then None
    else if p(st[0]) then Some(0)
    else
      match FindFirst(st[1..], p)
      case None => None
      case Some(i) => Some(i + 1)
  }

  /** `Subscriber.findById(id)`. */
  function FindById(st: Store, id: string): Option<nat> {
    FindFirst(st, (s: Subscriber) => s.id == id)
  }

  /** `Subscriber.findOne({ confirmTokenHash: hash })`. */
  function FindByTokenHash(st: Store, hash: string): Option<nat> {
    FindFirst(st, (s: Subscriber) => s.confirmTokenHash == Some(hash))
  }

  /** `doc.save()` on a modified document: the record is replaced and
      `updatedAt` moves to the time of the save. */
  function Save(st: Store, i: nat, rec: Subscriber, now: Time): (r: Store)
    requires i < |st|
    ensures |r| == |st| && r[i] == rec.(updatedAt := now)
    ensures forall j :: 0 <= j < |st| && j != i ==> r[j] == st[j]
  {
    st[i := rec.(updatedAt := now)]
  }

  /** A save that keeps the id and the email keeps the store valid. */
  lemma SaveKeepsValid(st: Store, i: nat, rec: Subscriber, now: Time)
    requires ValidStore(st) && i < |st|
    requires rec.id == st[i].id && rec.email == st[i].email
    ensures ValidStore(Save(st, i, rec, now))
  {
  }

  /** Why `new Subscriber(...).save()` rejects a document. */
  datatype CreateError =
    | EmailRequired
    | StatusNotInEnum(value: string)
    | DuplicateEmail

  /** Creating a record: `rawEmail` goes through the setters; an absent
      `status` (`None`) becomes `pending` and an absent `source` `'form'`;
      `id` is the fresh `_id` Mongo assigns. */
  function Create(st: Store, id: string, rawEmail: string, status: Option<string>, source: Option<string>, now: Time)
    : (r: Result<Store, CreateError>)
    ensures r.Success? ==> |r.value| == |st| + 1 && r.value[..|st|] == st
    ensures r.Failure? <==>
      (|| NormalizeEmail(rawEmail) == ""
       || (status.Some? && ParseStatus(status.value).None?)
       || exists j :: 0 <= j < |st| && st[j].email == NormalizeEmail(rawEmail))
    ensures r.Success? ==>
      var s := r.value[|st|];
      && s.email == NormalizeEmail(rawEmail) && s.id == id
      && (status.None? ==> s.status == Pending)
      && (status.Some? ==> StatusName(s.status) == status.value)
      && s.source == Some(source.GetOr("form"))
      && s.createdAt == now && s.updatedAt == now
      && s.confirmedAt.None? && s.unsubscribedAt.None? && s.confirmTokenHash.None?
    ensures r.Success? && ValidStore(st) && FindById(st, id).None? ==> ValidStore(r.value)
  {
    var email := NormalizeEmail(rawEmail);
    if email == "" then Failure(EmailRequired)
    else if status.Some? && ParseStatus(status.value).None? then Failure(StatusNotInEnum(status.value))
    else if FindFirst(st, (s: Subscriber) => s.email == email).Some? then Failure(DuplicateEmail)
    else
      var s := Subscriber(id, email, if status.Some? then ParseStatus(status.value).value else Pending,
                          None, None, None, None, None, Some(source.GetOr("form")), now, now);
      assert forall j :: 0 <= j < |st| ==> st[j].email != email;
      AppendKeepsValid(st, s);
      assert (st + [s])[..|st|] == st;
      Success(st + [s])
  }

  lemma AppendKeepsValid(st: Store, s: Subscriber)
    requires ValidRecord(s)
    requires forall j :: 0 <= j < |st| ==> st[j].email != s.email
    ensures ValidStore(st) && FindById(st, s.id).None? ==> ValidStore(st + [s])
  {
  }

  /** `findByIdAndDelete(id)` once the record is found. */
  function RemoveAt(st: Store, i: nat): (r: Store)
    requires i < |st|
    ensures |r| == |st| - 1
    ensures multiset(r) + multiset{st[i]} == multiset(st)
    ensures forall j :: 0 <= j < |r| ==> r[j] == (if j < i then st[j] else st[j + 1])
  {
    assert st == st[..i] + [st[i]] + st[i + 1..];
    st[..i] + st[i + 1..]
  }

  /** With unique ids, removing the record found by its id leaves no record
      with that id, and the rest of the store valid. */
  lemma RemoveByIdIsExact(st: Store, id: string)
    requires ValidStore(st) && FindById(st, id).Some?
    ensures FindById(RemoveAt(st, FindById(st, id).value), id).None?
    ensures ValidStore(RemoveAt(st, FindById(st, id).value))
  {
    var i := FindById(st, id).value;
    var r := RemoveAt(st, i);
    forall j | 0 <= j < |r| ensures r[j].id != id {
      if j < i {
        assert r[j] == st[j];
      } else {
        assert r[j] == st[j + 1];
      }
    }
  }
}

=== FILE: subscriber_tokens.dfy ===
/**
 * Subscriber tokens (lib/subscriberTokens.ts): the single-use confirmation
 * token, stored only as its SHA-256 hash, and the stateless manage token
 * `<subscriberId>.<base64url HMAC-SHA256 of the id>`.
 *
 * The hash and the MAC are functions the model is given (`Primitives`); the
 * base64url step is written out, so facts about the token's shape are proved
 * rather than taken as given.
 */
module SubscriberTokens {
  import opened Wrappers
  import opened Strings
  import opened Base64Url
  import Environment

  type Digest = d: seq<byte> | |d| == 32 witness seq(32, i => 0 as byte)

  datatype Primitives = Primitives(
    /** `sha256(input)`: the hex digest of the UTF-8 encoding. */
    sha256Hex: string -> string,
    /** `createHmac('sha256', secret).update(message).digest()`. */
    hmacSha256: (string, string) -> Digest)

  const SecretVar := "SUBSCRIBER_TOKEN_SECRET"

  /** The error `requireSecret` throws. */
  datatype TokenError = SecretNotConfigured

  function RequireSecret(env: Environment.Env): (r: Result<string, TokenError>)
    ensures r.Success? <==> (SecretVar in env && env[SecretVar] != "")
    ensures r.Success? ==> r.value == env[SecretVar]
  {
    var secret := Environment.Var(env, SecretVar);
    if secret == "" then Failure(SecretNotConfigured) else Success(secret)
  }

  /** The signature part of a manage token: 43 letters of the base64url
      alphabet, so never a `.`. */
  function Signature(p: Primitives, secret: string, id: string): (sig: string)
    ensures |sig| == 43 && AllLetters(sig) && '.' !in sig
  {
    Encode(p.hmacSha256(secret, id))
  }

  /** Hours a confirmation token stays valid when the caller gives no TTL. */
  const DefaultTtlHours := 48
  const MsPerHour := 60 * 60 * 1000

  datatype ConfirmToken = ConfirmToken(token: string, tokenHash: string, expiresAt: int)

  /** `generateConfirmToken(ttlHours)`: `entropy` stands for the 32 bytes of
      `crypto.randomBytes(32)` and `now` for `Date.now()`; `None` is an
      omitted argument. */
  function GenerateConfirmToken(p: Primitives, entropy: Digest, now: int, ttlHours: Option<int>): (t: ConfirmToken)
    ensures |t.token| == 43 && AllLetters(t.token)
    ensures Decodable(t.token) && Decode(t.token) == entropy
    ensures t.tokenHash == p.sha256Hex(t.token)
    ensures ttlHours.None? ==> t.expiresAt == now + 172800000
    ensures ttlHours.Some? ==> t.expiresAt - now == ttlHours.value * 3600000
  {
    DecodeEncode(entropy);
    var token := Encode(entropy);
    ConfirmToken(token, p.sha256Hex(token), now + ttlHours.GetOr(DefaultTtlHours) * MsPerHour)
  }

  /** `createManageToken(subscriberId)`; fails as `requireSecret` does. */
  function CreateManageToken(p: Primitives, env: Environment.Env, id: string): (r: Result<string, TokenError>)
    ensures r.Failure? <==> RequireSecret(env).Failure?
    ensures r.Success? ==> |r.value| == |id| + 44 && r.value[..|id|] == id && r.value[|id|] == '.'
    ensures r.Success? ==> AllLetters(r.value[|id| + 1..])
  {
    var secret :- RequireSecret(env);
    var sig := Signature(p, secret, id);
    assert (id + "." + sig)[|id| + 1..] == sig;
    Success(id + "." + sig)
  }

  /** `verifyManageToken(token)`: the subscriber id, or `None` (the source's
      `null`) for a token that is not exactly `<non-empty id>.<its signature>`.
      The source compares the UTF-8 encodings of the two signatures, first by
      length and then with `crypto.timingSafeEqual`; because the expected
      signature is ASCII, the encodings agree exactly when the strings do. */
  function VerifyManageToken(p: Primitives, env: Environment.Env, token: string): (r: Result<Option<string>, TokenError>)
    ensures r.Failure? <==> RequireSecret(env).Failure?
    ensures r.Success? && r.value.Some? ==>
      var id := r.value.value;
      id != "" && '.' !in id && token == id + "." + Signature(p, RequireSecret(env).value, id)
  {
    var secret :- RequireSecret(env);
    var parts := Split(token, '.');
    if |parts| != 2 then Success(None)
    else if parts[0] == "" || parts[1] == "" then Success(None)
    else if parts[1] != Signature(p, secret, parts[0]) then Success(None)
    else
      assert Join(parts, ".") == parts[0] + "." + parts[1];
      Success(Some(parts[0]))
  }

  /** The two manage-token functions are inverse: a token issued for a
      non-empty id without `.` verifies to that id. */
  lemma ManageTokenRoundTrip(p: Primitives, env: Environment.Env, id: string)
    requires RequireSecret(env).Success?
    requires id != "" && '.' !in id
    ensures CreateManageToken(p, env, id).Success?
    ensures VerifyManageToken(p, env, CreateManageToken(p, env, id).value) == Success(Some(id))
  {
    var sig := Signature(p, RequireSecret(env).value, id);
    var parts := [id, sig];
    assert Join(parts, ".") == id + "." + sig;
    SplitJoin(parts, '.');
  }

  /** Verification accepts a token exactly when it is the one issued for the
      id it names. */
  lemma VerifyAcceptsOnlyIssued(p: Primitives, env: Environment.Env, token: string, id: string)
    requires RequireSecret(env).Success?
    ensures VerifyManageToken(p, env, token) == Success(Some(id))
      <==> id != "" && '.' !in id && CreateManageToken(p, env, id) == Success(token)
  {
    if id != "" && '.' !in id && CreateManageToken(p, env, id) == Success(token) {
      ManageTokenRoundTrip(p, env, id);
    }
  }

  /** A token whose signature differs from the MAC of its id in any way, a
      single changed letter included, is rejected. */
  lemma ForgedSignatureRejected(p: Primitives, env: Environment.Env, id: string, sig: string)
    requires RequireSecret(env).Success?
    requires sig != Signature(p, RequireSecret(env).value, id)
    ensures VerifyManageToken(p, env, id + "." + sig) != Success(Some(id))
  {
    VerifyAcceptsOnlyIssued(p, env, id + "." + sig, id);
  }

  /** An id containing `.` yields a token that never verifies: splitting it
      gives more than two parts. */
  lemma DottedIdNeverVerifies(p: Primitives, env: Environment.Env, id: string)
    requires RequireSecret(env).Success?
    requires '.' in id
    ensures VerifyManageToken(p, env, CreateManageToken(p, env, id).value) == Success(None)
  {
  }

  /** `crypto.timingSafeEqual(a, b)`: throws (`None`) on buffers of different
      lengths; otherwise looks at every byte, whatever the earlier ones were. */
  method TimingSafeEqual(a: seq<byte>, b: seq<byte>) returns (r: Option<bool>)
    ensures r.None? <==> |a| != |b|
    ensures r == Some(true) <==> a == b
  {
    if |a| != |b| {
      return None;
    }
    var same := true;
    for i := 0 to |a|
      invariant same <==> a[..i] == b[..i]
    {
      assert a[..i + 1] == a[..i] + [a[i]] && b[..i + 1] == b[..i] + [b[i]];
      same := same && a[i] == b[i];
    }
    assert a[..|a|] == a && b[..|b|] == b;
    return Some(same);
  }
}

=== FILE: view_counter.dfy ===
/**
 * The in-memory article view counter (app/api/views/route.ts). The state is
 * the `views` object: its own properties, slug to count, in the order they
 * were created. POST counts one view of a slug; GET reports every count,
 * most viewed first, with their total and the number of articles.
 *
 * `views` is a plain object, so the source's `views[slug] || 0` also sees
 * the members every object inherits; and a JSON object lists integer-like
 * keys before the others. Both are modelled as written next to the
 * intended behaviour (`Track`, `Summarize`), which `Post` uses.
 */
module ViewCounter {
  import opened Wrappers
  import opened Strings
  import opened Sorting
  import opened JsValues

  /** One own property of `views`. */
  datatype Entry = Entry(slug: string, count: int)

  /** The own properties of `views`, in creation order. */
  type Views = seq<Entry>

  function EntryCount(e: Entry): int {
    e.count
  }

  predicate UniqueSlugs(v: Views) {
    forall i, j :: 0 <= i < j < |v| ==> v[i].slug != v[j].slug
  }

  /** Every stored count is a positive number of views. */
  predicate AllPositive(v: Views) {
    forall i :: 0 <= i < |v| ==> v[i].count >= 1
  }

  function SlugsOf(v: Views): set<string> {
    set i | 0 <= i < |v| :: v[i].slug
  }

  /** The position of the entry for `slug`, if there is one. */
  function FindSlug(v: Views, slug: string): (r: Option<nat>)
    ensures r.Some? ==> r.value < |v| && v[r.value].slug == slug
    ensures r.Some? ==> forall j :: 0 <= j < r.value ==> v[j].slug != slug
    ensures r.None? ==> forall j :: 0 <= j < |v| ==> v[j].slug != slug
  {
    if |v| == 0 then None
    else if v[0].slug == slug then Some(0)
    else
      match FindSlug(v[1..], slug)
      case None => None
      case Some(i) => Some(i + 1)
  }

  /** The own count of `slug`; 0 when it has none. */
  function CountOf(v: Views, slug: string): int {
    match FindSlug(v, slug)
    case None => 0
    case Some(i) => v[i].count
  }

  /** Two stores with the same slugs at the same positions find every slug
      at the same position. */
  lemma {:induction false} FindSlugSameShape(v: Views, w: Views, slug: string)
    requires |v| == |w| && forall j :: 0 <= j < |v| ==> v[j].slug == w[j].slug
    ensures FindSlug(v, slug) == FindSlug(w, slug)
    decreases |v|
  {
    if |v| > 0 && v[0].slug != slug {
      FindSlugSameShape(v[1..], w[1..], slug);
    }
  }

  /** `views[slug] = (views[slug] || 0) + 1` on own properties only: the
      slug's count goes up by one, a new slug is added at the end with
      count 1, and no other count changes. */
  function Track(v: Views, slug: string): (r: Views)
    ensures CountOf(r, slug) == CountOf(v, slug) + 1
    ensures forall k :: k != slug ==> CountOf(r, k) == CountOf(v, k)
    ensures SlugsOf(r) == SlugsOf(v) + {slug}
    ensures |v| <= |r| && forall j :: 0 <= j < |v| ==> r[j].slug == v[j].slug
    ensures UniqueSlugs(v) ==> UniqueSlugs(r)
    ensures AllPositive(v) ==> AllPositive(r)
  {
    match FindSlug(v, slug)
    case Some(i) =>
      BumpCounts(v, slug, i);
      v[i := Entry(slug, v[i].count + 1)]
    case None =>
      AppendCounts(v, slug);
      v + [Entry(slug, 1)]
  }

  /** A slug that has an entry: its count goes up in place. */
  lemma BumpCounts(v: Views, slug: string, i: nat)
    requires FindSlug(v, slug) == Some(i)
    ensures var r := v[i := Entry(slug, v[i].count + 1)]; CountOf(r, slug) == CountOf(v, slug) + 1
    ensures var r := v[i := Entry(slug, v[i].count + 1)]; (forall k :: k != slug ==> CountOf(r, k) == CountOf(v, k))
    ensures var r := v[i := Entry(slug, v[i].count + 1)]; SlugsOf(r) == SlugsOf(v) + {slug}
    ensures var r := v[i := Entry(slug, v[i].count + 1)]; |v| <= |r| && (forall j :: 0 <= j < |v| ==> r[j].slug == v[j].slug)
    ensures var r := v[i := Entry(slug, v[i].count + 1)]; (UniqueSlugs(v) ==> UniqueSlugs(r))
    ensures var r := v[i := Entry(slug, v[i].count + 1)]; (AllPositive(v) ==> AllPositive(r))
  {
    var r := v[i := Entry(slug, v[i].count + 1)];
    BumpSameShape(v, slug, i);
    forall k ensures FindSlug(r, k) == FindSlug(v, k) {
      FindSlugSameShape(r, v, k);
    }
    assert SlugsOf(r) == SlugsOf(v) by {
      forall s | s in SlugsOf(v) ensures s in SlugsOf(r) {
        var j :| 0 <= j < |v| && v[j].slug == s;
        assert r[j].slug == s;
      }
    }
  }

  lemma BumpSameShape(v: Views, slug: string, i: nat)
    requires FindSlug(v, slug) == Some(i)
    ensures var r := v[i := Entry(slug, v[i].count + 1)];
      |r| == |v| && forall j :: 0 <= j < |v| ==> r[j].slug == v[j].slug
  {
  }

  /** A new slug: an entry with one view is added at the end. */
  lemma AppendCounts(v: Views, slug: string)
    requires FindSlug(v, slug).None?
    ensures var r := v + [Entry(slug, 1)]; CountOf(r, slug) == CountOf(v, slug) + 1
    ensures var r := v + [Entry(slug, 1)]; (forall k :: k != slug ==> CountOf(r, k) == CountOf(v, k))
    ensures var r := v + [Entry(slug, 1)]; SlugsOf(r) == SlugsOf(v) + {slug}
    ensures var r := v + [Entry(slug, 1)]; |v| <= |r| && (forall j :: 0 <= j < |v| ==> r[j].slug == v[j].slug)
    ensures var r := v + [Entry(slug, 1)]; (UniqueSlugs(v) ==> UniqueSlugs(r))
    ensures var r := v + [Entry(slug, 1)]; (AllPositive(v) ==> AllPositive(r))
  {
    var r := v + [Entry(slug, 1)];
    AppendNewSlug(v, Entry(slug, 1));
    assert forall k :: k != slug ==> FindSlug(r, k) == FindSlug(v, k) by {
      forall k | k != slug ensures FindSlug(r, k) == FindSlug(v, k) {
        AppendOtherSlug(v, Entry(slug, 1), k);
      }
    }
    AppendSlugs(v, Entry(slug, 1));
    if UniqueSlugs(v) {
      AppendKeepsUnique(v, Entry(slug, 1));
    }
  }

  lemma AppendSlugs(v: Views, e: Entry)
    ensures SlugsOf(v + [e]) == SlugsOf(v) + {e.slug}
  {
    var r := v + [e];
    assert r[|v|].slug == e.slug;
    forall s | s in SlugsOf(r) ensures s in SlugsOf(v) + {e.slug} {
      var j :| 0 <= j < |r| && r[j].slug == s;
      if j < |v| {
        assert v[j].slug == s;
      }
    }
    forall s | s in SlugsOf(v) ensures s in SlugsOf(r) {
      var j :| 0 <= j < |v| && v[j].slug == s;
      assert r[j].slug == s;
    }
  }

  lemma AppendKeepsUnique(v: Views, e: Entry)
    requires UniqueSlugs(v) && FindSlug(v, e.slug).None?
    ensures UniqueSlugs(v + [e])
  {
    var r := v + [e];
    forall i, j | 0 <= i < j < |r| ensures r[i].slug != r[j].slug {
      if j == |v| {
        assert r[i] == v[i];
      } else {
        assert r[i] == v[i] && r[j] == v[j];
      }
    }
  }

  lemma {:induction false} AppendNewSlug(v: Views, e: Entry)
    requires FindSlug(v, e.slug).None?
    ensures FindSlug(v + [e], e.slug) == Some(|v|)
    decreases |v|
  {
    if |v| > 0 {
      assert (v + [e])[1..] == v[1..] + [e];
      AppendNewSlug(v[1..], e);
    }
  }

  lemma {:induction false} AppendOtherSlug(v: Views, e: Entry, k: string)
    requires e.slug != k
    ensures FindSlug(v + [e], k) == FindSlug(v, k)
    decreases |v|
  {
    if |v| > 0 {
      assert (v + [e])[1..] == v[1..] + [e];
      AppendOtherSlug(v[1..], e, k);
    }
  }

  /** What POST answers. `slug` echoes the value sent. */
  datatype PostReply = Tracked(slug: Js, views: int) | SlugRequired | TrackFailed

  function PostStatus(r: PostReply): int {
    match r
    case Tracked(_, _) => 200
    case SlugRequired => 400
    case TrackFailed => 500
  }

  /** POST; `body` is the parsed JSON body, `None` when `req.json()` throws.
      A property key is `String(slug)`; when that throws (an object slug
      with its own `toString`) the handler answers 500. */
  function Post(v: Views, body: Option<Js>): (o: (PostReply, Views))
    ensures o.0 == TrackFailed <==>
      || body.None? || Destructure(body.value, "slug").None?
      || (Truthy(Get(body.value, "slug")) && StringThrows(Get(body.value, "slug")))
    ensures o.0 == SlugRequired <==>
      body.Some? && Destructure(body.value, "slug").Some? && !Truthy(Get(body.value, "slug"))
    ensures !o.0.Tracked? ==> o.1 == v
    ensures o.0.Tracked? ==> ToJsString(o.0.slug).Some?
    ensures o.0.Tracked? ==>
      var key := ToJsString(o.0.slug).value;
      && o.0.slug == Get(body.value, "slug") && Truthy(o.0.slug)
      && o.1 == Track(v, key) && o.0.views == CountOf(v, key) + 1
  {
    if body.None? then (TrackFailed, v)
    else
      match Destructure(body.value, "slug")
      case None => (TrackFailed, v)
      case Some(slug) =>
        if !Truthy(slug) then (SlugRequired, v)
        else
          match ToJsString(slug)
          case None => (TrackFailed, v)
          case Some(key) =>
            var r := Track(v, key);
            (Tracked(slug, CountOf(r, key)), r)
  }

  /** Counts stay positive and slugs unique through any POST, and the count
      answered is the stored one. */
  lemma PostKeepsInvariant(v: Views, body: Option<Js>)
    requires UniqueSlugs(v) && AllPositive(v)
    ensures var o := Post(v, body);
      && UniqueSlugs(o.1) && AllPositive(o.1)
      && (o.0.Tracked? ==> o.0.views == CountOf(o.1, ToJsString(o.0.slug).value) >= 1)
  {
    var o := Post(v, body);
    if o.0.Tracked? {
      var key := ToJsString(o.0.slug).value;
      var i := FindSlug(o.1, key).value;
      assert o.1[i].count >= 1;
    }
  }

  /** A slug object with its own `toString` cannot be a property key:
      `{"slug":{"toString":0}}` answers 500 and counts nothing. */
  lemma OwnToStringSlugFails(v: Views, fields: seq<(string, Js)>, o: seq<(string, Js)>)
    requires Lookup(fields, "slug") == Obj(o) && HasOwn(o, "toString")
    ensures Post(v, Some(Obj(fields))) == (TrackFailed, v)
  {
    assert StringThrows(Obj(o));
  }

  function Sum(v: Views): int {
    if |v| == 0 then 0 else v[0].count + Sum(v[1..])
  }

  /** What GET answers: the entries by non-increasing count, the sum of all
      counts, and the number of slugs. */
  datatype Report = Report(views: seq<Entry>, total: int, articles: nat)

  /** GET, with the sorted entries kept in their sorted order (what the
      sort intends). */
  function Summarize(v: Views): (r: Report)
    ensures SortedDesc(r.views, EntryCount)
    ensures multiset(r.views) == multiset(v)
    ensures StableFor(r.views, v, EntryCount)
    ensures r.articles == |v|
  {
    Report(SortDesc(v, EntryCount), Sum(v), |v|)
  }

  /** The total counts the listed views: summing is blind to order. */
  lemma SummarizeTotalIsListedSum(v: Views)
    ensures Summarize(v).total == Sum(Summarize(v).views)
  {
    SumPermutation(v, Summarize(v).views);
  }

  /** With unique slugs, `articles` counts distinct slugs. */
  lemma {:induction false} ArticlesAreDistinctSlugs(v: Views)
    requires UniqueSlugs(v)
    ensures Summarize(v).articles == |SlugsOf(v)|
    decreases |v|
  {
    if |v| > 0 {
      ArticlesAreDistinctSlugs(v[1..]);
      assert SlugsOf(v) == {v[0].slug} + SlugsOf(v[1..]) by {
        forall s | s in SlugsOf(v) ensures s in {v[0].slug} + SlugsOf(v[1..]) {
          var j :| 0 <= j < |v| && v[j].slug == s;
          if j > 0 {
            assert v[1..][j - 1].slug == s;
          }
        }
      }
      assert v[0].slug !in SlugsOf(v[1..]);
    } else {
      assert SlugsOf(v) == {};
    }
  }

  lemma {:induction false} SumPermutation(a: Views, b: Views)
    requires multiset(a) == multiset(b)
    ensures Sum(a) == Sum(b)
    decreases |a|
  {
    if |a| == 0 {
      assert |b| == |multiset(b)| == 0;
    } else {
      assert a[0] in multiset(b);
      var i :| 0 <= i < |b| && b[i] == a[0];
      var rest := b[..i] + b[i + 1..];
      RemoveAtMultiset(b, i);
      TailMultiset(a);
      SumPermutation(a[1..], rest);
      SumRemoveAt(b, i);
    }
  }

  lemma TailMultiset(a: Views)
    requires |a| > 0
    ensures multiset(a[1..]) == multiset(a) - multiset{a[0]}
  {
    assert a == [a[0]] + a[1..];
  }

  lemma RemoveAtMultiset(b: Views, i: int)
    requires 0 <= i < |b|
    ensures multiset(b[..i] + b[i + 1..]) == multiset(b) - multiset{b[i]}
  {
    assert b == b[..i] + [b[i]] + b[i + 1..];
  }

  lemma {:induction false} SumRemoveAt(b: Views, i: int)
    requires 0 <= i < |b|
    ensures Sum(b) == b[i].count + Sum(b[..i] + b[i + 1..])
    decreases i
  {
    var rest := b[..i] + b[i + 1..];
    if i == 0 {
      assert rest == b[1..];
    } else {
      var t := b[1..];
      SumRemoveAt(t, i - 1);
      assert rest[1..] == t[..i - 1] + t[i..];
      assert rest[0] == b[0] && t[i - 1] == b[i];
    }
  }

  // ---------------------------------------------------------------------
  // The counter as written: inherited members and property order.
  // ---------------------------------------------------------------------

  /** The members of `Object.prototype` a property read finds on an object
      without an own property of that name. */
  const InheritedMembers: set<string> := {
    "constructor", "hasOwnProperty", "isPrototypeOf", "propertyIsEnumerable",
    "toLocaleString", "toString", "valueOf", "__proto__",
    "__defineGetter__", "__defineSetter__", "__lookupGetter__", "__lookupSetter__"}

  /** `String(f)` for a built-in function: its source text is native. */
  function NativeFunctionText(name: string): string {
    "function " + name + "() { [native code] }"
  }

  /** `views[slug] || 0` as written: the own count, else an inherited
      member (`constructor` is the `Object` function, `__proto__` is
      `Object.prototype` and every other member a method), else 0. */
  function ReadAsWritten(v: Views, slug: string): Js {
    match FindSlug(v, slug)
    case Some(i) => Or(Num(v[i].count), Num(0))
    case None =>
      if slug == "__proto__" then Obj([])
      else if slug == "constructor" then Str(NativeFunctionText("Object"))
      else if slug in InheritedMembers then Str(NativeFunctionText(slug))
      else Num(0)
  }

  /** `x + 1` on what was read: numbers add, and a string gets `1`
      appended. The only object read is `Object.prototype`, which turns
      into "[object Object]". */
  function PlusOne(x: Js): Js
    requires x.Num? || x.Str? || x == Obj([])
  {
    match x
    case Num(n) => Num(n + 1)
    case Str(s) => Str(s + "1")
    case _ => Str("[object Object]1")
  }

  /** What line 24 stores under `slug`, as written; `None` when the
      assignment has no effect (a string assigned to `__proto__` is
      ignored). */
  function StoredAsWritten(v: Views, slug: string): Option<Js> {
    var x := PlusOne(ReadAsWritten(v, slug));
    if slug == "__proto__" && FindSlug(v, slug).None? then None else Some(x)
  }

  /** On a fresh counter, a view of the slug `constructor` stores a string,
      not a count: the invariant that every count is a positive number
      fails, and so does the GET total. */
  lemma ConstructorSlugStoresText()
    ensures StoredAsWritten([], "constructor") == Some(Str(NativeFunctionText("Object") + "1"))
  {
  }

  /** The own-property reading does what the line intends for every slug,
      inherited names included: one more view. */
  lemma TrackCountsInheritedNames(v: Views, slug: string)
    requires slug in InheritedMembers
    requires FindSlug(v, slug).None?
    ensures CountOf(Track(v, slug), slug) == 1
  {
  }

  /** Canonical array-index keys: decimal, no leading zero, below
      2^32 - 1. An object lists these first, in increasing numeric order,
      whatever the order they were added in. */
  predicate IsArrayIndex(k: string) {
    && |k| >= 1
    && (forall i :: 0 <= i < |k| ==> '0' <= k[i] <= '9')
    && (k[0] != '0' || |k| == 1)
    && DigitsValue(k) < 0xFFFF_FFFF
  }

  function IndexValue(e: Entry): int {
    if IsArrayIndex(e.slug) then -DigitsValue(e.slug) else 0
  }

  predicate IsIndexEntry(e: Entry) {
    IsArrayIndex(e.slug)
  }

  predicate IsOtherEntry(e: Entry) {
    !IsArrayIndex(e.slug)
  }

  /** The entries with an integer-like slug, in their order. */
  function OnlyIndexKeys(v: seq<Entry>): (r: seq<Entry>)
    ensures forall e :: e in r <==> e in v && IsArrayIndex(e.slug)
  {
    Filter(v, IsIndexEntry)
  }

  /** The other entries, in their order. */
  function OnlyOtherKeys(v: seq<Entry>): (r: seq<Entry>)
    ensures forall e :: e in r <==> e in v && !IsArrayIndex(e.slug)
  {
    Filter(v, IsOtherEntry)
  }

  /** No entry of `v` has an integer-like slug. */
  predicate NoIndexKeys(v: seq<Entry>) {
    forall i :: 0 <= i < |v| ==> !IsArrayIndex(v[i].slug)
  }

  /** Splitting by key kind loses and invents no entry. */
  lemma SplitKeys(v: seq<Entry>)
    ensures multiset(OnlyIndexKeys(v)) + multiset(OnlyOtherKeys(v)) == multiset(v)
  {
    var a, b := Filter(v, IsIndexEntry), Filter(v, IsOtherEntry);
    forall e ensures (multiset(a) + multiset(b))[e] == multiset(v)[e] {
      assert multiset(a)[e] == (if IsIndexEntry(e) then multiset(v)[e] else 0);
      assert multiset(b)[e] == (if IsOtherEntry(e) then multiset(v)[e] else 0);
    }
  }

  /** With no integer-like slug everything stays in the second part, in
      order. */
  lemma SplitKeysNoIndex(v: seq<Entry>)
    requires NoIndexKeys(v)
    ensures OnlyIndexKeys(v) == [] && OnlyOtherKeys(v) == v
  {
    forall e | e in v ensures IsOtherEntry(e) && !IsIndexEntry(e) {
      var i :| 0 <= i < |v| && v[i] == e;
    }
    FilterAll(v, IsOtherEntry);
    FilterNone(v, IsIndexEntry);
  }

  /** The order in which an object built by adding `v`'s entries in turn
      lists them: array indices ascending, then the rest as added. It only
      reorders, and reorders nothing when no slug is integer-like. */
  function PropertyOrder(v: seq<Entry>): (r: seq<Entry>)
    ensures multiset(r) == multiset(v)
    ensures NoIndexKeys(v) ==> r == v
  {
    SplitKeys(v);
    assert NoIndexKeys(v) ==> OnlyIndexKeys(v) == [] && OnlyOtherKeys(v) == v by {
      if NoIndexKeys(v) { SplitKeysNoIndex(v); }
    }
    SortDesc(OnlyIndexKeys(v), IndexValue) + OnlyOtherKeys(v)
  }

  /** A permutation keeps the absence of integer-like slugs. */
  lemma NoIndexKeysPermuted(v: seq<Entry>, w: seq<Entry>)
    requires multiset(w) == multiset(v) && NoIndexKeys(v)
    ensures NoIndexKeys(w)
  {
    forall i | 0 <= i < |w| ensures !IsArrayIndex(w[i].slug) {
      assert w[i] in multiset(w);
      assert w[i] in v;
    }
  }

  /** GET as written: the sorted entries are poured into a fresh object
      (`reduce`), which lists them in property order. It reports every
      entry once, and matches the intended report exactly when no slug is
      integer-like. */
  function SummarizeAsWritten(v: Views): (r: Report)
    ensures multiset(r.views) == multiset(v)
    ensures r.articles == |v|
    ensures NoIndexKeys(v) ==> r == Summarize(v)
  {
    var sorted := SortDesc(v, EntryCount);
    assert NoIndexKeys(v) ==> NoIndexKeys(sorted) by {
      if NoIndexKeys(v) { NoIndexKeysPermuted(v, sorted); }
    }
    Report(PropertyOrder(sorted), Sum(v), |v|)
  }

  /** Two integer-like slugs are reported in key order rather than by
      views: "1" with one view comes before "2" with five. */
  lemma IndexSlugsLoseViewOrder()
    ensures SummarizeAsWritten([Entry("1", 1), Entry("2", 5)]).views == [Entry("1", 1), Entry("2", 5)]
    ensures !SortedDesc(SummarizeAsWritten([Entry("1", 1), Entry("2", 5)]).views, EntryCount)
  {
    var a, b := Entry("1", 1), Entry("2", 5);
    SortTwoByViews(a, b);
    PropertyOrderOfTwoIndices(a, b);
  }

  lemma SortTwoByViews(a: Entry, b: Entry)
    requires a.count < b.count
    ensures SortDesc([a, b], EntryCount) == [b, a]
  {
    assert [a, b][1..] == [b];
    assert SortDesc([b], EntryCount) == [b] by {
      assert [b][1..] == [];
    }
    assert Insert(a, [b], EntryCount) == [b, a] by {
      assert [b][1..] == [];
    }
  }

  lemma PropertyOrderOfTwoIndices(a: Entry, b: Entry)
    requires a == Entry("1", 1) && b == Entry("2", 5)
    ensures PropertyOrder([b, a]) == [a, b]
  {
    TwoIndexKeys(a, b);
    IndexOrderOfTwo(a, b);
  }

  lemma TwoIndexKeys(a: Entry, b: Entry)
    requires a == Entry("1", 1) && b == Entry("2", 5)
    ensures OnlyIndexKeys([b, a]) == [b, a] && OnlyOtherKeys([b, a]) == []
  {
    assert IsArrayIndex("1") && IsArrayIndex("2");
    assert forall e :: e in [b, a] ==> e == b || e == a;
    FilterAll([b, a], IsIndexEntry);
    FilterNone([b, a], IsOtherEntry);
  }

  lemma IndexOrderOfTwo(a: Entry, b: Entry)
    requires a == Entry("1", 1) && b == Entry("2", 5)
    ensures SortDesc([b, a], IndexValue) == [a, b]
  {
    assert IsArrayIndex("1") && IsArrayIndex("2");
    assert DigitsValue("1") == 1 && DigitsValue("2") == 2;
    assert IndexValue(a) == -1 && IndexValue(b) == -2;
    assert [b, a][1..] == [a];
    assert [a][1..] == [];
    assert SortDesc([a], IndexValue) == [a];
    assert Insert(b, [a], IndexValue) == [a, b] by {
      assert Insert(b, [], IndexValue) == [b];
    }
  }
}

=== FILE: wrappers.dfy ===
/**
 * Failure-compatible wrappers shared by every module: `Option` stands for the
 * JavaScript `null`/`undefined` results of the source, `Result` for a value or
 * a thrown error.
 */
module Wrappers {

  datatype Option<+T> = None | Some(value: T) {

    predicate IsFailure() {
      None?
    }

    function PropagateFailure<U>(): Option<U>
      requires None?
    {
      None
    }

    function Extract(): T
      requires Some?
    {
      value
    }

    /** The value, or `default` when there is none (JavaScript's `x ?? default`). */
    function GetOr(default: T): T {
      match this
      case Some(v) => v
      case None => default
    }
  }

  datatype Result<+R, +E> = Success(value: R) | Failure(error: E) {

    predicate IsFailure() {
      Failure?
    }

    function PropagateFailure<U>(): Result<U, E>
      requires Failure?
    {
      Failure(error)
    }

    function Extract(): R
      requires Success?
    {
      value
    }
  }
}

=== FILE: xml_text.dfy ===
/**
 * Text content in the XML documents the site serves. Section 2.4 of
 * XML 1.0 (Fifth Edition) reserves `&` and `<` in character data; the
 * news sitemap escapes `&`, `<` and `>` with the predefined entities of
 * section 4.6. A CDATA section (section 2.7) holds its text literally: no
 * entity is recognised inside it, and it ends at the first `]]>`.
 */
module XmlText {
  import opened Strings

  function EscapeChar(c: char): string {
    if c == '&' then "&amp;" else if c == '<' then "&lt;" else if c == '>' then "&gt;" else [c]
  }

  /** Every markup character replaced by its entity, the rest kept. */
  function EscapeEach(s: string): (t: string)
    ensures '<' !in t && '>' !in t
    ensures |t| >= |s|
  {
    if |s| == 0 then "" else EscapeChar(s[0]) + EscapeEach(s[1..])
  }

  lemma EscapeEachCons(c: char, s: string)
    ensures EscapeEach([c] + s) == EscapeChar(c) + EscapeEach(s)
  {
    assert ([c] + s)[1..] == s;
  }

  lemma {:induction false} EscapeEachAppend(s: string, t: string)
    ensures EscapeEach(s + t) == EscapeEach(s) + EscapeEach(t)
    decreases |s|
  {
    if |s| > 0 {
      assert (s + t)[1..] == s[1..] + t;
      EscapeEachAppend(s[1..], t);
    } else {
      assert s + t == t;
    }
  }

  /** The escaping the news sitemap applies to titles, in its order:
      `.replace(/&/g, '&amp;').replace(/</g, '&lt;').replace(/>/g, '&gt;')`. */
  function EscapeMarkup(s: string): string {
    ReplaceAll(ReplaceAll(ReplaceAll(s, "&", "&amp;"), "<", "&lt;"), ">", "&gt;")
  }

  /** What an XML processor makes of character data holding entity
      references: each of the three entities stands for its character. */
  function Unescape(t: string): string
    decreases |t|
  {
    if |t| == 0 then ""
    else if "&amp;" <= t then "&" + Unescape(t[5..])
    else if "&lt;" <= t then "<" + Unescape(t[4..])
    else if "&gt;" <= t then ">" + Unescape(t[4..])
    else [t[0]] + Unescape(t[1..])
  }

  /** Substituting a character that does not occur changes nothing. */
  lemma {:induction false} SubstAbsent(s: string, c: char, r: string)
    requires c !in s
    ensures SubstChar(s, c, r) == s
    decreases |s|
  {
    if |s| > 0 {
      SubstAbsent(s[1..], c, r);
    }
  }

  function Chain(s: string): string {
    SubstChar(SubstChar(SubstChar(s, '&', "&amp;"), '<', "&lt;"), '>', "&gt;")
  }

  lemma SubstOne(c: char, d: char, r: string)
    ensures SubstChar([c], d, r) == if c == d then r else [c]
  {
    assert [c][1..] == [];
  }

  lemma ChainOfChar(c: char)
    ensures Chain([c]) == EscapeChar(c)
  {
    SubstOne(c, '&', "&amp;");
    var a := SubstChar([c], '&', "&amp;");
    if c == '&' {
      ChainOfAmp(c);
    } else {
      assert a == [c];
      SubstOne(c, '<', "&lt;");
      var b := SubstChar(a, '<', "&lt;");
      if c == '<' {
        assert b == "&lt;";
        SubstAbsent(b, '>', "&gt;");
      } else {
        assert b == [c];
        SubstOne(c, '>', "&gt;");
      }
    }
  }

  lemma ChainOfAmp(c: char)
    requires c == '&'
    ensures Chain([c]) == "&amp;"
  {
    SubstOne(c, '&', "&amp;");
    var a := SubstChar([c], '&', "&amp;");
    assert '<' !in a && '>' !in a;
    SubstAbsent(a, '<', "&lt;");
    SubstAbsent(a, '>', "&gt;");
  }

  lemma {:induction false} ChainIsEach(s: string)
    ensures Chain(s) == EscapeEach(s)
    decreases |s|
  {
    if |s| > 0 {
      var h, t := [s[0]], s[1..];
      assert s == h + t;
      var a1, a2 := SubstChar(h, '&', "&amp;"), SubstChar(t, '&', "&amp;");
      SubstCharAppend(h, t, '&', "&amp;");
      var b1, b2 := SubstChar(a1, '<', "&lt;"), SubstChar(a2, '<', "&lt;");
      SubstCharAppend(a1, a2, '<', "&lt;");
      SubstCharAppend(b1, b2, '>', "&gt;");
      ChainOfChar(s[0]);
      ChainIsEach(t);
    }
  }

  /** The three chained replacements escape character by character: `&`
      going first keeps the entities of the later steps intact. */
  lemma EscapeMarkupIsEach(s: string)
    ensures EscapeMarkup(s) == EscapeEach(s)
  {
    ReplaceAllSingleIsSubst(s, '&', "&amp;");
    var a := SubstChar(s, '&', "&amp;");
    ReplaceAllSingleIsSubst(a, '<', "&lt;");
    var b := SubstChar(a, '<', "&lt;");
    ReplaceAllSingleIsSubst(b, '>', "&gt;");
    ChainIsEach(s);
  }

  /** Escaping loses nothing: decoding the entities restores the text. */
  lemma {:induction false} UnescapeEscape(s: string)
    ensures Unescape(EscapeEach(s)) == s
    decreases |s|
  {
    if |s| > 0 {
      UnescapeEscape(s[1..]);
      UnescapeHead(s[0], EscapeEach(s[1..]));
      assert s == [s[0]] + s[1..];
    }
  }

  /** The escape of one character decodes back to it, whatever follows. */
  lemma UnescapeHead(c: char, rest: string)
    ensures Unescape(EscapeChar(c) + rest) == [c] + Unescape(rest)
  {
    var t := EscapeChar(c) + rest;
    if c == '&' {
      assert "&amp;" <= t && t[5..] == rest;
    } else if c == '<' {
      assert !("&amp;" <= t) by {
        assert t[1] == 'l';
      }
      assert "&lt;" <= t && t[4..] == rest;
    } else if c == '>' {
      assert !("&amp;" <= t) && !("&lt;" <= t) by {
        assert t[1] == 'g';
      }
      assert "&gt;" <= t && t[4..] == rest;
    } else {
      assert t[0] == c && t[1..] == rest;
      assert !("&amp;" <= t) && !("&lt;" <= t) && !("&gt;" <= t) by {
        assert "&amp;"[0] == '&' && "&lt;"[0] == '&' && "&gt;"[0] == '&';
      }
    }
  }

  /** Escaping changes exactly the texts holding a markup character. */
  lemma {:induction false} EscapeChangesMarkup(s: string)
    ensures EscapeEach(s) == s <==> ('&' !in s && '<' !in s && '>' !in s)
    decreases |s|
  {
    if |s| > 0 {
      EscapeChangesMarkup(s[1..]);
      assert s == [s[0]] + s[1..];
      if s[0] in "&<>" {
        assert |EscapeEach(s)| > |s|;
      }
    }
  }

  /** A text node as written: a CDATA section, or character data with
      entity references. */
  datatype TextNode = CData(raw: string) | CharData(escaped: string)

  /** A node an XML processor accepts: the section does not end early, and
      character data holds no markup start. */
  ghost predicate WellFormed(n: TextNode) {
    match n
    case CData(raw) => !HasInfix(raw, "]]>")
    case CharData(e) => '<' !in e
  }

  /** The text an XML processor reports for the node. */
  function ReadText(n: TextNode): string {
    match n
    case CData(raw) => raw
    case CharData(e) => Unescape(e)
  }

  /** Escaped text is good character data and reads back as the original. */
  lemma EscapedReadsBack(s: string)
    ensures WellFormed(CharData(EscapeMarkup(s)))
    ensures ReadText(CharData(EscapeMarkup(s))) == s
  {
    EscapeMarkupIsEach(s);
    UnescapeEscape(s);
  }

  /** Escaped text never closes a CDATA section early, but inside one its
      entities are read literally, so any markup character shows as an
      entity. */
  lemma EscapedInCdataShowsEntities(s: string)
    ensures WellFormed(CData(EscapeMarkup(s)))
    ensures ReadText(CData(EscapeMarkup(s))) == s <==> ('&' !in s && '<' !in s && '>' !in s)
  {
    EscapeMarkupIsEach(s);
    EscapeChangesMarkup(s);
    NoGtNoCdataEnd(EscapeEach(s));
  }

  /** `]]>` needs a `>`. */
  lemma NoGtNoCdataEnd(e: string)
    requires '>' !in e
    ensures !HasInfix(e, "]]>")
  {
    forall i ensures !InfixAt(e, "]]>", i) {
      if 0 <= i <= |e| - 3 {
        assert e[i..i + 3][2] == e[i + 2];
      }
    }
  }
}
